=== FILE: README.md ===
# Spin-the-wheel takeout picker, modelled in Dafny

The application helps someone decide what to order by spinning a wheel of
options. Options ("items") are grouped into wheel sets. There are three
front ends over the same idea:

- a NestJS API (`apps/api/src/modules/wheel/wheel.service.ts`) that keeps sets and items per user in a database, with reordering, bulk import and a batch update of a whole set;
- a Vue web client whose Pinia store (`src/stores/wheel.ts`) keeps the sets in memory and persists them;
- a WeChat mini-program:
  - the wheel component (`components/wheel-canvas/wheel-canvas.js`) spins towards a randomly drawn option and reports the option under the pointer;
  - the home, management, profile and detail pages let the user spin, edit sets and items, export and import them, and look at one option;
  - the helpers in `utils/common.js` are shared by the pages.

The model has one Dafny module per core file, plus small modules for the
JavaScript values and library functions the code relies on:

| module | file | models |
|---|---|---|
| `WheelApi` | `wheel_service.dfy` | the service; a `WheelService` class holding the set and item tables and the id counter |
| `WebStore` | `web_store.dfy` | the web store; a `Store` class with the state and the persisted copy |
| `WheelCanvas` | `wheel_canvas.dfy` | the wheel component; a `Wheel` class with the component's `data` and the running animation |
| `WheelMath` | `wheel_math.dfy` | the angle arithmetic of the wheel: sectors, the pointer, the spin plan, the easing |
| `Draws` | `random_draws.dfy` | `Math.floor(Math.random() * n)` with the random draw as a parameter |
| `CommonUtils` | `common_utils.dfy` | throttle, deep clone, shuffle, random colour, form validation |
| `MiniData` | `mini_data.dfy` | the mini-program's records, `app.globalData` with its storage, the JSON shape of sets |
| `IndexPage`, `Management`, `ProfilePage`, `DetailPage` | `index_page.dfy`, `management_page.dfy`, `profile_page.dfy`, `detail_page.dfy` | the pages; each a `Page` class with a `data` record that handlers replace, as `setData` does |
| `JsValues`, `JsText`, `JsArrays`, `Wrappers` | `js_values.dfy`, `js_text.dfy`, `js_arrays.dfy`, `wrappers.dfy` | JSON-like values, `typeof`, truthiness, `String()`, `trim`, `filter`, `findIndex`, `splice`; `Option` and `Result` |

Modelling conventions:

- Randomness, the clock and generated ids are parameters: a draw is a `real` in `[0, 1)`, a time is an `int` or an ISO string, and a fresh id is a `string` argument.
- The database is two maps from ids to rows, with ids handed out by a counter.
- Storage is a set of `Option` fields on the app object.
- Dialogs are boolean "confirmed" arguments.
- Angles are `real`, and π is a positive constant whose digits are not fixed.
- JavaScript's `%` on numbers truncates toward zero; the model writes it out as `WheelMath.JsRem`.

Where the code and the documented design differ, the model follows the
code:

- `createSet` accepts any name, including an empty one.
- `deleteSet` and `deleteItem` check less than their names suggest (see Findings).

## Model

| member | source | states |
|---|---|---|
| WheelApi.Insert | apps/api/src/modules/wheel/wheel.service.ts:20-27 | inserting into a list sorted by `order` keeps it sorted and adds exactly the new item |
| WheelApi.InsertDistinct | apps/api/src/modules/wheel/wheel.service.ts:20-27 | inserting an item whose id is new keeps the ids distinct |
| WheelApi.SortByOrder | apps/api/src/modules/wheel/wheel.service.ts:20-27 | the items of a set, ordered by ascending `order`, are the same items |
| WheelApi.SortDistinct | apps/api/src/modules/wheel/wheel.service.ts:20-27 | sorting a list with distinct ids keeps the ids distinct |
| WheelApi.SetItemIds | apps/api/src/modules/wheel/wheel.service.ts:20-27 | the ids of a set's items, increasing, are exactly the items whose `setId` is the set |
| WheelApi.SetViewOf | apps/api/src/modules/wheel/wheel.service.ts:20-27 | the set view read back carries the set's row and exactly its items, sorted by `order`, with distinct ids |
| WheelApi.DescribesStable | apps/api/src/modules/wheel/wheel.service.ts:20-27 | a set view stays accurate while the set's row is unchanged, its items are unchanged and no item is added to it |
| WheelApi.ValidOrders | apps/api/src/modules/wheel/wheel.service.ts:99-106 | an order entry is kept exactly when it names an existing item of the set |
| WheelApi.ReorderedAt | apps/api/src/modules/wheel/wheel.service.ts:112-116 | reordering keeps every item and changes only `order`, to the last order given for that item |
| WheelApi.ApplyOrders | apps/api/src/modules/wheel/wheel.service.ts:112-116 | the loop of updates leaves the table that applying the entries in turn describes |
| WheelApi.ImportEntries | apps/api/src/modules/wheel/wheel.service.ts:123 | the entries to import are the payload's `wheelSets` when it is an array, and none otherwise |
| WheelApi.EntryItems | apps/api/src/modules/wheel/wheel.service.ts:129 | an entry's items are exactly its `items` array when that is an array, and none otherwise; they hold no dates |
| WheelApi.ImportedItem | apps/api/src/modules/wheel/wheel.service.ts:133-137 | an imported item takes its name or `Item <n>`, its numeric order or its position, its string colour or none, and no description |
| WheelApi.ImportedItems | apps/api/src/modules/wheel/wheel.service.ts:129-137 | an entry yields one item per element of its items array, the j-th built from the j-th element at position j |
| WheelApi.CreatedHoldsRows | apps/api/src/modules/wheel/wheel.service.ts:128-139 | a new set whose rows were created at the ids following it holds exactly those rows |
| WheelApi.CreatingEntries | apps/api/src/modules/wheel/wheel.service.ts:199-243 | the batch creates at most one item per entry |
| WheelApi.ApplyEntriesCreates | apps/api/src/modules/wheel/wheel.service.ts:199-243 | the batch loop creates, in order and at fresh ids, exactly the entries without a current id |
| WheelApi.ApplyEntriesUpdates | apps/api/src/modules/wheel/wheel.service.ts:199-243 | the batch loop updates each listed current item to the last entry for it and leaves every other item as it was |
| WheelApi.EntryIds | apps/api/src/modules/wheel/wheel.service.ts:183-184 | the ids kept by a batch are exactly the ids its entries carry |
| WheelApi.LastEntryFor | apps/api/src/modules/wheel/wheel.service.ts:199-243 | there is a last entry for an id exactly when the batch lists that id, and it is the item of an entry naming the id that no later entry names |
| WheelApi.CurrentIds | apps/api/src/modules/wheel/wheel.service.ts:183 | the current ids of a set are exactly its items' ids |
| WheelApi.OwnedSetViews | apps/api/src/modules/wheel/wheel.service.ts:8-14 | the listing holds exactly the user's sets, newest first, each with its items |
| WheelApi.WheelService.constructor | apps/api/src/modules/wheel/wheel.service.ts:1-7 | the service starts with no sets and no items |
| WheelApi.WheelService.ListByUser | apps/api/src/modules/wheel/wheel.service.ts:8-14 | lists exactly the user's sets, newest first, each with its items ordered by `order` |
| WheelApi.WheelService.CreateSet | apps/api/src/modules/wheel/wheel.service.ts:16-18 | adds one set owned by the user with the given name, version 0 (the assumed schema default, see Left out) and no items, at a fresh id |
| WheelApi.WheelService.GetSet | apps/api/src/modules/wheel/wheel.service.ts:20-27 | fails with "Wheel set not found" exactly when the user does not own the set, and otherwise returns the set with its sorted items |
| WheelApi.WheelService.UpdateSet | apps/api/src/modules/wheel/wheel.service.ts:29-36 | an owned set takes the given name or keeps its own, and its version becomes the given one or the stored one plus one; a set not owned is not found and nothing changes |
| WheelApi.WheelService.DeleteSet | apps/api/src/modules/wheel/wheel.service.ts:38-42 | as written: removes the set with that id and its items whoever owns it, and fails only when there is no such set |
| WheelApi.WheelService.DeleteOwnedSet | apps/api/src/modules/wheel/wheel.service.ts:38-42 | corrected: removes the set and its items only when the user owns it; other users' sets always survive |
| WheelApi.WheelService.CreateItem | apps/api/src/modules/wheel/wheel.service.ts:52-59 | stores one item row for the set at a fresh id and changes nothing else |
| WheelApi.WheelService.AddItem | apps/api/src/modules/wheel/wheel.service.ts:44-60 | adds the item to an owned set; for a set not owned it fails with not found and adds nothing |
| WheelApi.WheelService.UpdateItem | apps/api/src/modules/wheel/wheel.service.ts:62-86 | patches only the given fields of an item of an owned set; otherwise set not found or item not found, and nothing changes |
| WheelApi.WheelService.DeleteItem | apps/api/src/modules/wheel/wheel.service.ts:88-93 | as written: once the user owns the named set, deletes the item with that id even when it belongs to another set |
| WheelApi.WheelService.DeleteItemInSet | apps/api/src/modules/wheel/wheel.service.ts:88-93 | corrected: deletes the item only when it belongs to the user's set; items of other sets always survive |
| WheelApi.WheelService.ReorderItems | apps/api/src/modules/wheel/wheel.service.ts:95-118 | with no valid entry it fails and nothing changes; otherwise each listed item of the set takes its last given order, and the set comes back re-sorted |
| WheelApi.WheelService.CreateItems | apps/api/src/modules/wheel/wheel.service.ts:129-139 | creates the rows in order at consecutive fresh ids and keeps every earlier item |
| WheelApi.WheelService.ImportEntry | apps/api/src/modules/wheel/wheel.service.ts:124-141 | an importable entry becomes a new set holding exactly its defaulted items; a null entry or a bad colour fails |
| WheelApi.WheelService.FillImported | apps/api/src/modules/wheel/wheel.service.ts:128-140 | a new set receives exactly the imported rows and is read back with them |
| WheelApi.WheelService.ImportFromLocal | apps/api/src/modules/wheel/wheel.service.ts:120-143 | succeeds exactly when every entry is importable, and then each entry is imported as its own new set, in order; existing sets and items are kept |
| WheelApi.WheelService.DeleteUnlisted | apps/api/src/modules/wheel/wheel.service.ts:186-196 | removes exactly the set's items whose ids are not kept |
| WheelApi.WheelService.ReplaceItems | apps/api/src/modules/wheel/wheel.service.ts:183-243 | items not listed are deleted, listed current items are updated, the others are created in order at fresh ids, other sets are untouched |
| WheelApi.WheelService.BatchUpdateSet | apps/api/src/modules/wheel/wheel.service.ts:145-252 | for a set not owned it fails and nothing changes; otherwise it renames when asked, replaces the items when given, and returns the set as stored |
| WheelApi.ForeignSetDeletion | apps/api/src/modules/wheel/wheel.service.ts:38-42 | one user deletes another user's set through the as-written operation |
| WheelApi.ForeignItemDeletion | apps/api/src/modules/wheel/wheel.service.ts:88-93 | an item of another set is deleted through a set the user owns |
| WheelApi.ForeignItemKept | apps/api/src/modules/wheel/wheel.service.ts:88-93 | the corrected item deletion refuses the same request and keeps the item |
| WheelApi.ForeignSetKept | apps/api/src/modules/wheel/wheel.service.ts:38-42 | the corrected set deletion refuses the same request and keeps the set |
| WebStore.FindSet | src/stores/wheel.ts:111 | the first set with the id, or none when no set has it |
| WebStore.FindItem | src/stores/wheel.ts:129 | the first item with the id, or none when no item has it |
| WebStore.DemoSet | src/stores/wheel.ts:67-85 | the demo set is "food" with four items |
| WebStore.Lift | src/stores/wheel.ts:159-168 | the items as array slots, none of them undefined |
| WebStore.MoveAsWritten | src/stores/wheel.ts:162-165 | as written: with a start inside a non-empty list the items are kept, counted; otherwise one undefined slot is added |
| WebStore.MoveAsWrittenAddsUndefined | src/stores/wheel.ts:162-165 | as written, moving from an index past the end inserts an undefined slot and lengthens the list |
| WebStore.MoveAsWrittenExample | src/stores/wheel.ts:162-165 | as written, moving from index 1 of a one-item list gives `[undefined, item]` |
| WebStore.Move | src/stores/wheel.ts:162-165 | corrected: the list keeps its length, and a start past the end leaves it as it was |
| WebStore.MovePermutes | src/stores/wheel.ts:162-165 | the corrected move is a permutation of the items |
| WebStore.MoveLandsAt | src/stores/wheel.ts:162-165 | the moved item ends at the target position, counted relative as `splice` does |
| WebStore.MoveAgrees | src/stores/wheel.ts:162-165 | for a start inside the list, the corrected move is exactly the as-written one |
| WebStore.LiftRemove | src/stores/wheel.ts:163 | removing a slot commutes with lifting the items |
| WebStore.LiftInsert | src/stores/wheel.ts:164 | inserting a slot commutes with lifting the items |
| WebStore.Store.constructor | src/stores/wheel.ts:31-36 | the store starts with no sets, no current id, not spinning, no result and nothing saved |
| WebStore.Store.CurrentSet | src/stores/wheel.ts:38-42 | the current set is the first set carrying the current id, and there is none exactly when no set does |
| WebStore.Store.Save | src/stores/wheel.ts:58-66 | the saved copy becomes the whole state and the state is unchanged |
| WebStore.Store.Bootstrap | src/stores/wheel.ts:67-85 | the state becomes the demo set, current, and is saved |
| WebStore.Store.Load | src/stores/wheel.ts:45-57 | a stored state is restored as it is; without one the store bootstraps |
| WebStore.Store.SetCurrentSet | src/stores/wheel.ts:86-89 | only the current id changes, and the state is saved |
| WebStore.Store.SetSpinning | src/stores/wheel.ts:134-137 | only the spinning flag changes, and the state is saved |
| WebStore.Store.SetResult | src/stores/wheel.ts:138-141 | only the last result changes, and the state is saved |
| WebStore.Store.AddSet | src/stores/wheel.ts:90-102 | appends an empty set with a time-based id, makes it current, and saves |
| WebStore.Store.RenameSet | src/stores/wheel.ts:103-109 | renames the first set with the id and renews its time; an unknown id changes nothing |
| WebStore.Store.DeleteSet | src/stores/wheel.ts:110-118 | removes the first set with the id; a deleted current set is replaced by the first remaining one, so a current set stays current while sets remain |
| WebStore.Store.AddItem | src/stores/wheel.ts:119-125 | appends an item with a time-based id to the set and renews its time; an unknown set changes nothing |
| WebStore.Store.RemoveItem | src/stores/wheel.ts:126-133 | removes the first item with the id from the set and renews the set's time even when no item matched |
| WebStore.Store.UpdateSet | src/stores/wheel.ts:142-149 | the set takes the given fields and a new time and keeps the rest |
| WebStore.Store.UpdateItemName | src/stores/wheel.ts:150-158 | renames the item and renews the set's time; an unknown set or item changes nothing |
| WebStore.Store.ReorderItems | src/stores/wheel.ts:159-168 | the set's items are permuted by the corrected move and its time renewed |
| WheelMath.Trunc | miniProgram/components/wheel-canvas/wheel-canvas.js:255-256 | rounding toward zero: within one unit below a non-negative number and above a negative one |
| WheelMath.TruncatedRemainderBounds | miniProgram/components/wheel-canvas/wheel-canvas.js:255-256 | the truncated remainder lies strictly within one divisor of zero and has the dividend's sign |
| WheelMath.JsRem | miniProgram/components/wheel-canvas/wheel-canvas.js:255-256 | JavaScript's `%`: the remainder has the dividend's sign and is smaller than the divisor |
| WheelMath.JsRemCongruent | miniProgram/components/wheel-canvas/wheel-canvas.js:494 | `%` differs from the dividend by a whole number of divisors |
| WheelMath.JsRemOfCongruent | miniProgram/components/wheel-canvas/wheel-canvas.js:255-256 | a non-negative number one whole number of turns from `c` in `[0, d)` has remainder `c` |
| WheelMath.SectorCount | miniProgram/components/wheel-canvas/wheel-canvas.js:252-253 | the wheel has one sector per item, and one placeholder sector when there are none |
| WheelMath.SectorAngle | miniProgram/components/wheel-canvas/wheel-canvas.js:254 | the sectors are equal and together make a full turn |
| WheelMath.PointerPosition | miniProgram/components/wheel-canvas/wheel-canvas.js:255-256 | the wheel angle under the pointer lies in `[0, 2π)` |
| WheelMath.SectorOf | miniProgram/components/wheel-canvas/wheel-canvas.js:257 | the sector index is the one whose arc contains the position |
| WheelMath.FocusedIndex | miniProgram/components/wheel-canvas/wheel-canvas.js:251-258 | the focused index is a valid sector |
| WheelMath.ClickedIndex | miniProgram/components/wheel-canvas/wheel-canvas.js:433-443 | a tap always maps to a valid item index |
| WheelMath.ClickAtPointer | miniProgram/components/wheel-canvas/wheel-canvas.js:433-443 | a tap at the pointer's angle picks the focused item |
| WheelMath.BaseRounds | miniProgram/components/wheel-canvas/wheel-canvas.js:487 | a spin makes 4 or 5 base rounds |
| WheelMath.PlanSpin | miniProgram/components/wheel-canvas/wheel-canvas.js:486-495 | the plan's target is a valid item, its turn exceeds three rounds, its duration is in `[3600, 4500)` ms, and its end rotation focuses the target |
| WheelMath.EndRotation | miniProgram/components/wheel-canvas/wheel-canvas.js:490-494 | the end rotation equals the target rotation up to whole turns |
| WheelMath.PointerAt | miniProgram/components/wheel-canvas/wheel-canvas.js:255-256 | a rotation that puts angle `c` under the pointer up to whole turns has pointer position `c` |
| WheelMath.CentreInSector | miniProgram/components/wheel-canvas/wheel-canvas.js:490 | the centre of sector `t` lies in sector `t` |
| WheelMath.SpinLandsOnTarget | miniProgram/components/wheel-canvas/wheel-canvas.js:487-494 | whatever the start rotation and the rounds, the wheel stops with the drawn target under the pointer |
| WheelMath.Progress | miniProgram/components/wheel-canvas/wheel-canvas.js:502 | progress is at most 1, not negative once started, and reaches 1 exactly when the duration has elapsed |
| WheelMath.ProgressMonotone | miniProgram/components/wheel-canvas/wheel-canvas.js:502 | progress never goes back as time passes |
| WheelMath.EaseEndpoints | miniProgram/components/wheel-canvas/wheel-canvas.js:505-508 | the easing maps 0 to 0, 1 to 1 and ½ to ½, where its two halves meet |
| WheelMath.EaseMonotone | miniProgram/components/wheel-canvas/wheel-canvas.js:505-508 | the easing is increasing on `[0, 1]` and stays within it |
| WheelMath.RotationAtStart | miniProgram/components/wheel-canvas/wheel-canvas.js:510 | at time 0 the wheel is at the start rotation |
| WheelMath.RotationAtEnd | miniProgram/components/wheel-canvas/wheel-canvas.js:510 | once the duration has elapsed the wheel is at start plus delta |
| WheelMath.RotationForward | miniProgram/components/wheel-canvas/wheel-canvas.js:510 | the wheel never turns backwards during a spin |
| WheelMath.RotationWithinSpin | miniProgram/components/wheel-canvas/wheel-canvas.js:510 | the rotation stays between the start and the end of the spin |
| Draws.Pick | miniProgram/components/wheel-canvas/wheel-canvas.js:488 | a draw picks a valid index |
| Draws.PickCovers | miniProgram/components/wheel-canvas/wheel-canvas.js:488 | every index is picked by some draw |
| WheelCanvas.Advanced | miniProgram/components/wheel-canvas/wheel-canvas.js:329-339 | advancing every particle keeps their number |
| WheelCanvas.SurvivorsAreAlive | miniProgram/components/wheel-canvas/wheel-canvas.js:329-339 | after a step the survivors are advanced particles with life left, and every particle with life above 1 survives |
| WheelCanvas.SurvivorsAppend | miniProgram/components/wheel-canvas/wheel-canvas.js:329-339 | the step treats each particle on its own and keeps their order |
| WheelCanvas.FreshParticlesVanish | miniProgram/components/wheel-canvas/wheel-canvas.js:329-339 | particles with one unit of life left all vanish in one step |
| WheelCanvas.SurvivorsStep | miniProgram/components/wheel-canvas/wheel-canvas.js:329-339 | the survivors of a prefix grow by the next particle's survivor |
| WheelCanvas.FilterParticles | miniProgram/components/wheel-canvas/wheel-canvas.js:329-339 | the loop keeps exactly the survivors |
| WheelCanvas.Wheel.constructor | miniProgram/components/wheel-canvas/wheel-canvas.js:14-21 | the wheel starts at rotation 0, idle, with no result, no tick, no particles and the idle text |
| WheelCanvas.Wheel.EmitCurrentChange | miniProgram/components/wheel-canvas/wheel-canvas.js:276-291 | reports the item under the pointer, or none without items, and updates the running text only |
| WheelCanvas.Wheel.PlayTickIfNewSector | miniProgram/components/wheel-canvas/wheel-canvas.js:294-300 | records the focused sector and reports a change exactly when it differs from the last one |
| WheelCanvas.Wheel.ClickedItem | miniProgram/components/wheel-canvas/wheel-canvas.js:422-449 | a tap yields one of the items, and some item exactly when there are items |
| WheelCanvas.Wheel.TapUnderPointer | miniProgram/components/wheel-canvas/wheel-canvas.js:422-449 | tapping at the pointer yields the item under the pointer |
| WheelCanvas.Wheel.UpdateParticles | miniProgram/components/wheel-canvas/wheel-canvas.js:329-339 | only the particles change, to their survivors |
| WheelCanvas.Wheel.Frame | miniProgram/components/wheel-canvas/wheel-canvas.js:499-550 | one frame turns the wheel to the eased rotation within the spin; at the end the wheel stops on the target, which is under the pointer, and 'end' is sent with it |
| WheelCanvas.Wheel.Spin | miniProgram/components/wheel-canvas/wheel-canvas.js:458-553 | starts exactly when idle with items, plans the spin from the draws and runs the first frame; otherwise nothing changes |
| CommonUtils.RandomColor | miniProgram/utils/common.js:105-121 | a random colour is one of the twelve palette colours |
| CommonUtils.RandomColorCovers | miniProgram/utils/common.js:105-121 | every palette colour can be drawn |
| CommonUtils.Throttle.constructor | miniProgram/utils/common.js:56-57 | a throttle starts with its delay and no previous call |
| CommonUtils.Throttle.Call | miniProgram/utils/common.js:58-64 | a call runs exactly when the delay has passed since the last run, which it then records |
| CommonUtils.InvocationsSpaced | miniProgram/utils/common.js:56-65 | the calls that run are among the attempted ones and are at least the delay apart |
| CommonUtils.DeepClone | miniProgram/utils/common.js:72-85 | the clone equals the original, at every depth |
| CommonUtils.CloneAll | miniProgram/utils/common.js:75 | cloning an array gives equal elements |
| CommonUtils.CloneProps | miniProgram/utils/common.js:76-83 | cloning an object gives equal properties |
| CommonUtils.Swap | miniProgram/utils/common.js:96 | a swap exchanges two positions and keeps the others |
| CommonUtils.SwapPermutes | miniProgram/utils/common.js:96 | a swap permutes the elements |
| CommonUtils.FisherYates | miniProgram/utils/common.js:92-99 | the shuffle keeps the length |
| CommonUtils.FisherYatesPermutes | miniProgram/utils/common.js:92-99 | the shuffle permutes the elements |
| CommonUtils.ShuffleArray | miniProgram/utils/common.js:92-99 | returns the shuffle of a copy: same length and the same elements |
| CommonUtils.FisherYatesInPlace | miniProgram/utils/common.js:94-97 | the in-place loop leaves the array holding the shuffle of its old contents |
| CommonUtils.FieldErrors | miniProgram/utils/common.js:133-181 | one field yields at most six messages |
| CommonUtils.LengthOfEmojiText | miniProgram/utils/common.js:154-159 | six U+1F355 emoji read as length 12, as the maxLength check sees them |
| CommonUtils.PerField | miniProgram/utils/common.js:133-181 | one list of messages per rule |
| CommonUtils.ValidateData | miniProgram/utils/common.js:129-187 | throws exactly when the data is null or undefined and there is a rule; otherwise collects every field's messages in rule order, and is valid exactly when there are none; a string's `length` for minLength and maxLength counts UTF-16 code units |
| CommonUtils.CollectErrors | miniProgram/utils/common.js:130-180 | the loop over the rules gathers every field's messages, field after field |
| CommonUtils.RequiredEmpty | miniProgram/utils/common.js:137-140 | an empty required field yields only "<label> 不能为空" |
| CommonUtils.OptionalEmpty | miniProgram/utils/common.js:143-145 | an empty optional field yields nothing |
| CommonUtils.TypeMismatch | miniProgram/utils/common.js:148-151 | a value of the wrong type yields only "<label> 类型错误" |
| CommonUtils.ConcatAppend | miniProgram/utils/common.js:133-181 | joining lists distributes over concatenation |
| CommonUtils.ConcatEmpty | miniProgram/utils/common.js:183-186 | the joined list is empty exactly when every part is |
| CommonUtils.AllErrorsAppend | miniProgram/utils/common.js:133-181 | the messages of two rule lists are those of each, in order |
| CommonUtils.PerFieldAppend | miniProgram/utils/common.js:133-181 | the per-field messages of two rule lists are those of each |
| CommonUtils.ValidIffEveryField | miniProgram/utils/common.js:183-186 | data is valid exactly when every field is valid on its own |
| MiniData.ItemsOf | miniProgram/pages/profile/profile.js:42 | a set's items, or none when the set has no list |
| MiniData.FindSet | miniProgram/app.js:117-121 | the first set with a given id, or none when no set has it |
| MiniData.FindItem | miniProgram/pages/detail/detail.js:37-78 | the first item with the id, or none when no item has it |
| MiniData.DefaultSet | miniProgram/app.js:78-99 | the default set is "默认转盘" with six named, coloured items |
| MiniData.DefaultNamesDistinct | miniProgram/app.js:82-89 | the default items have different names |
| MiniData.AppData.constructor | miniProgram/app.js:3-10 | the app starts with the given sets and id, idle, with no result and empty storage |
| MiniData.AppData.SaveLocalData | miniProgram/app.js:102-109 | storage takes the sets and the current id, and nothing else changes |
| MiniData.AppData.CreateDefaultData | miniProgram/app.js:78-99 | the sets become the default set, which is current, and both are saved |
| MiniData.AppData.CurrentWheelSet | miniProgram/app.js:117-121 | the current set is the first set carrying the current id, and there is none exactly when no set does |
| MiniData.EncodeItems | miniProgram/pages/profile/profile.js:170-201 | one JSON value per item |
| MiniData.EncodeSets | miniProgram/pages/profile/profile.js:170-201 | one JSON value per set |
| MiniData.DecodeItems | miniProgram/pages/profile/profile.js:204-257 | decoding a list gives one item per element |
| MiniData.DecodeSets | miniProgram/pages/profile/profile.js:204-257 | decoding a list gives one set per element |
| MiniData.ItemRoundTrip | miniProgram/pages/profile/profile.js:170-257 | an item read back from its JSON form is the same item |
| MiniData.ItemsRoundTrip | miniProgram/pages/profile/profile.js:170-257 | a list of items read back from JSON is the same list |
| MiniData.SetRoundTrip | miniProgram/pages/profile/profile.js:170-257 | a set read back from its JSON form is the same set, missing items list included |
| MiniData.SetsRoundTrip | miniProgram/pages/profile/profile.js:170-257 | a list of sets read back from JSON is the same list |
| IndexPage.InitialData | miniProgram/pages/index/index.js:8-20 | the page starts with no sets, idle, with no result and the idle texts |
| IndexPage.Names | miniProgram/pages/index/index.js:62-117 | the picker lists the sets' names in order |
| IndexPage.ChooseSet | miniProgram/pages/index/index.js:62-117 | picks the set carrying a truthy current id, or else the first; that pick is kept whenever it has items, and only when it has none does the choice move to the first set with items; the result has items exactly when some set does |
| IndexPage.Page.constructor | miniProgram/pages/index/index.js:8-20 | the page starts from its initial data |
| IndexPage.Page.LoadData | miniProgram/pages/index/index.js:62-117 | without sets it prompts and changes nothing; otherwise it shows the chosen set and saves the app only when the choice moved to a set with items |
| IndexPage.Page.OnLoad | miniProgram/pages/index/index.js:22-54 | with no sets, a prompt and no change; otherwise the page shows the set ChooseSet picks, the app's current id and storage change only when the choice fell back to a set with items, and the app is left idle |
| IndexPage.Page.OnSetChange | miniProgram/pages/index/index.js:120-137 | a picked set is shown and becomes current and saved; an index outside the list changes nothing |
| IndexPage.Page.OnSpin | miniProgram/pages/index/index.js:140-160 | asks the wheel to spin exactly when idle with items, and then marks the page spinning |
| IndexPage.Page.OnSpinEnd | miniProgram/pages/index/index.js:163-185 | the result is recorded and shown on the page and in the app, and spinning stops |
| IndexPage.Page.OnCurrentChange | miniProgram/pages/index/index.js:198-216 | the item name shows at rest; while spinning only the running text shows it and the item stays hidden |
| IndexPage.Page.OnItemClick | miniProgram/pages/index/index.js:188-195 | a tapped item opens its detail exactly when a set is current |
| IndexPage.Page.ViewDetail | miniProgram/pages/index/index.js:224-231 | opens the last result's detail when there is one, and hides the result either way |
| Management.EmptyItemForm | miniProgram/pages/management/management.js:237-255 | the empty item form has no name, no description and a palette colour |
| Management.OrElse | miniProgram/pages/management/management.js:258-271 | a non-empty value, or else the default |
| Management.SavedSets | miniProgram/pages/management/management.js:183-201 | editing renames and re-times the first set with the edited id and keeps every other entry, or changes nothing when no set has that id; creating appends an empty set |
| Management.SavedItems | miniProgram/pages/management/management.js:361-386 | editing gives the first item with the edited id the form's name, description and colour and a new time, keeping its id and creation time and every other entry, or changes nothing when no item has that id; creating appends a new item |
| Management.InitialData | miniProgram/pages/management/management.js:1-50 | the page starts with no sets, closed forms and a consistent current set |
| Management.SaveSetData | miniProgram/pages/management/management.js:172-234 | the page data after a save: new list, current set looked up again, forms closed; a consistent page stays consistent |
| Management.CreatedSetNamed | miniProgram/pages/management/management.js:172-234 | a created set has the new id and a name that is neither blank nor padded |
| Management.ManagementPage.constructor | miniProgram/pages/management/management.js:1-50 | the page starts from its initial data |
| Management.ManagementPage.LoadData | miniProgram/pages/management/management.js:52-70 | shows the app's sets with the current set, falling back to the first set, and stays consistent |
| Management.ManagementPage.SelectSet | miniProgram/pages/management/management.js:73-85 | the tapped set becomes current on the page and in the app, which is saved |
| Management.ManagementPage.ShowAddSetModal | miniProgram/pages/management/management.js:88-94 | opens an empty set form in create mode |
| Management.ManagementPage.EditSet | miniProgram/pages/management/management.js:97-106 | opens the set form on the set at the index; an index outside the list changes nothing |
| Management.ManagementPage.HideSetModal | miniProgram/pages/management/management.js:156-162 | closes and resets the set form |
| Management.ManagementPage.OnSetNameInput | miniProgram/pages/management/management.js:165-169 | the form takes the input |
| Management.ManagementPage.DeleteSet | miniProgram/pages/management/management.js:109-153 | once confirmed, removes the set; a deleted current set is replaced by the first remaining one; the app takes the list and is saved |
| Management.ManagementPage.SaveSet | miniProgram/pages/management/management.js:172-234 | a blank name changes nothing; otherwise the set is renamed or created with the trimmed name and the app is saved |
| Management.ManagementPage.ShowAddItemModal | miniProgram/pages/management/management.js:237-255 | with a current set, opens an empty item form in create mode |
| Management.ManagementPage.EditItem | miniProgram/pages/management/management.js:258-271 | opens the item form on the item, with its description or "" and its colour or the first colour |
| Management.ManagementPage.HideItemModal | miniProgram/pages/management/management.js:310-320 | closes and resets the item form |
| Management.ManagementPage.OnItemInput | miniProgram/pages/management/management.js:323-342 | each field given takes the input |
| Management.ManagementPage.DeleteItem | miniProgram/pages/management/management.js:274-307 | once confirmed, removes the item from the current set, renews its time and saves; otherwise nothing changes |
| Management.ManagementPage.SaveItem | miniProgram/pages/management/management.js:345-410 | a blank name or no current set changes nothing; otherwise the item is updated or appended with trimmed text and the app is saved |
| ProfilePage.TotalItemsAppend | miniProgram/pages/profile/profile.js:42 | the item count of two lists of sets adds up |
| ProfilePage.TotalItemsZero | miniProgram/pages/profile/profile.js:42 | no items in total exactly when every set is empty |
| ProfilePage.TotalItemsCounts | miniProgram/pages/profile/profile.js:42 | every set's items count toward the total |
| ProfilePage.TotalItemsSingle | miniProgram/pages/profile/profile.js:42 | one set's total is its own item count |
| ProfilePage.StatisticsOf | miniProgram/pages/profile/profile.js:39-59 | counts sets and items; today's spins count only when recorded today; no record means no spins |
| ProfilePage.SetProp | miniProgram/pages/profile/profile.js:77-88 | setting a property replaces it or appends it |
| ProfilePage.SetPropLookup | miniProgram/pages/profile/profile.js:77-88 | the property set reads back, and every other property is unchanged |
| ProfilePage.SetPropLength | miniProgram/pages/profile/profile.js:77-88 | a new property adds one entry; an existing one adds none |
| ProfilePage.Nickname | miniProgram/pages/profile/profile.js:91-96 | a non-empty nickname is the stored `nickName` string |
| ProfilePage.ImportedSets | miniProgram/pages/profile/profile.js:204-257 | sets are read only from a `wheelSets` array, one per element |
| ProfilePage.PayloadWheelSets | miniProgram/pages/profile/profile.js:170-201 | the exported payload's `wheelSets` are the encoded sets |
| ProfilePage.ExportImportRoundTrip | miniProgram/pages/profile/profile.js:170-257 | importing an export gives back exactly the exported sets |
| ProfilePage.InitialData | miniProgram/pages/profile/profile.js:8-20 | the page starts with no user info, a closed form and zero statistics |
| ProfilePage.NicknameSaved | miniProgram/pages/profile/profile.js:119-143 | the trimmed nickname is stored in the user info and the form closes |
| ProfilePage.Page.constructor | miniProgram/pages/profile/profile.js:8-20 | the page starts from its initial data |
| ProfilePage.Page.LoadUserInfo | miniProgram/pages/profile/profile.js:33-36 | the page takes the stored user info, or none |
| ProfilePage.Page.LoadStatistics | miniProgram/pages/profile/profile.js:39-59 | the page shows the statistics of the app's sets and stored spins |
| ProfilePage.Page.OnLoad | miniProgram/pages/profile/profile.js:22-26 | loads the user info and the statistics |
| ProfilePage.Page.OnChooseAvatar | miniProgram/pages/profile/profile.js:77-88 | the avatar is set and stored; the nickname is kept |
| ProfilePage.Page.ShowNicknameModal | miniProgram/pages/profile/profile.js:91-96 | opens the form on the current nickname |
| ProfilePage.Page.HideNicknameModal | miniProgram/pages/profile/profile.js:99-104 | closes and clears the form |
| ProfilePage.Page.OnNicknameInput | miniProgram/pages/profile/profile.js:107-111 | the form takes the input |
| ProfilePage.Page.SaveNickname | miniProgram/pages/profile/profile.js:119-143 | saves exactly when the input is not blank, and then stores the trimmed nickname |
| ProfilePage.Page.ExportData | miniProgram/pages/profile/profile.js:170-201 | exports exactly when there are sets, and the export imports back to them |
| ProfilePage.Page.ImportData | miniProgram/pages/profile/profile.js:204-257 | a confirmed, well-formed import replaces the sets, makes the first current, saves and recounts; anything else changes nothing |
| ProfilePage.Page.ClearData | miniProgram/pages/profile/profile.js:260-288 | once confirmed, everything is replaced by the default set, and the statistics show one set of six items |
| DetailPage.InitialData | miniProgram/pages/detail/detail.js:5-12 | the page starts loading, with no item and no ids |
| DetailPage.Related | miniProgram/pages/detail/detail.js:70 | the related items are exactly the set's items other than the shown one |
| DetailPage.RelatedShorter | miniProgram/pages/detail/detail.js:70 | showing an item of the set leaves fewer related items than the set has |
| DetailPage.RelatedAppend | miniProgram/pages/detail/detail.js:70 | related items keep the set's order |
| DetailPage.Page.constructor | miniProgram/pages/detail/detail.js:5-12 | the page starts from its initial data |
| DetailPage.Page.LoadItemDetail | miniProgram/pages/detail/detail.js:37-78 | shows the item, its set's name and the other items; a missing set or item shows nothing; a set without items throws |
| DetailPage.Page.OnLoad | miniProgram/pages/detail/detail.js:14-34 | loads exactly when both ids are given, and then shows the item with that id |
| DetailPage.Page.ViewRelatedItem | miniProgram/pages/detail/detail.js:109-116 | opens the other item in the same set |
| DetailPage.Page.ShareMessage | miniProgram/pages/detail/detail.js:131-139 | the title is the prefix, the item's name (or "详情"), " - " and the set's name; the path is the detail page with `?setId=` the page's set id and `&itemId=` its item id |
| JsValues.TypeOf | miniProgram/utils/common.js:148 | `typeof` gives "object" exactly for null, arrays, objects and dates |
| JsValues.Lookup | miniProgram/utils/common.js:133-136 | a property is found exactly when the object has it, and the value is that of the first property with the key |
| JsValues.Get | miniProgram/utils/common.js:133-136 | reading a property of a non-object gives undefined; of an object, the first own property's value with that key, or undefined when it has none |
| JsValues.NatToString | src/stores/wheel.ts:91 | a number prints as decimal digits whose value is the number, without a leading zero |
| JsValues.IntToString | apps/api/src/modules/wheel/wheel.service.ts:134 | a number prints with a minus sign exactly when it is negative, followed by the digits of its magnitude without a leading zero, as the natural number prints |
| JsValues.NatToStringInjective | src/stores/wheel.ts:91 | two numbers that print alike are equal, so a printed id names one number |
| JsValues.IntToStringInjective | apps/api/src/modules/wheel/wheel.service.ts:134 | two integers that print alike are equal |
| JsText.SkipLeading | miniProgram/pages/management/management.js:175 | skips exactly the leading whitespace |
| JsText.SkipTrailing | miniProgram/pages/management/management.js:175 | drops exactly the trailing whitespace |
| JsText.Trim | miniProgram/pages/management/management.js:175 | `trim` removes the whitespace at both ends and nothing else |
| JsText.TrimBlank | miniProgram/pages/management/management.js:175 | `!s.trim()` holds exactly for strings of whitespace only |
| JsText.TrimIdempotent | miniProgram/pages/management/management.js:189 | trimming twice is trimming once |
| JsText.TrimNonBlank | miniProgram/pages/management/management.js:196 | a non-blank name trims to a non-empty, already trimmed text |
| JsText.Blank | miniProgram/pages/management/management.js:175 | the blank test holds exactly for strings of whitespace only |
| JsText.Utf16Length | miniProgram/utils/common.js:154-159 | `length` of a string is between its code-point count and twice it, equal to the code-point count exactly when no character lies above U+FFFF and to twice it exactly when all do |
| JsText.Utf16LengthAppend | miniProgram/utils/common.js:154-159 | the length of a concatenation is the sum of the lengths |
| JsText.Utf16LengthOfEmoji | miniProgram/utils/common.js:154-159 | the one code point U+1F355 has length 2 |
| JsArrays.FindIndex | miniProgram/pages/index/index.js:89 | `findIndex` gives the first match, or none when nothing matches |
| JsArrays.Filter | miniProgram/pages/detail/detail.js:70 | `filter` keeps exactly the elements that pass |
| JsArrays.FilterAppend | miniProgram/pages/detail/detail.js:70 | filtering keeps the relative order |
| JsArrays.FilterAll | miniProgram/pages/detail/detail.js:70 | filtering with a test every element passes keeps everything |
| JsArrays.FilterNone | miniProgram/pages/detail/detail.js:70 | filtering with a test no element passes keeps nothing |
| JsArrays.FilterDrops | miniProgram/pages/detail/detail.js:70 | filtering out an element shortens the list |
| JsArrays.RelativeIndex | src/stores/wheel.ts:163-164 | `splice`'s start: a negative index counts from the end, and the result is clamped to the list |
| JsArrays.Splice | src/stores/wheel.ts:163-164 | `splice` keeps every element, either in the array or in what it returns, plus the inserted ones |
| JsArrays.SpliceParts | miniProgram/pages/management/management.js:119 | a splice with its start and count inside the list keeps every element |
| JsArrays.SpliceRemove | miniProgram/pages/management/management.js:287 | `splice(k, 1)` inside the list removes and returns the element at the relative position |
| JsArrays.SpliceRemovePast | src/stores/wheel.ts:163 | `splice(k, 1)` past the end removes nothing |
| JsArrays.SpliceInsert | src/stores/wheel.ts:164 | `splice(k, 0, x)` puts `x` at the relative position `k` |

Specification functions without a row of their own are stated through the
members named beside them, which carry their meaning:

- `WheelMath.TargetRotation`, `WheelMath.SpinDelta`: `WheelMath.EndRotation`, `WheelMath.SpinLandsOnTarget`.
- `WheelMath.Ease`: `WheelMath.EaseEndpoints`, `WheelMath.EaseMonotone`.
- `WheelMath.RotationAt`: `WheelMath.RotationAtStart`, `WheelMath.RotationAtEnd`, `WheelMath.RotationForward`, `WheelMath.RotationWithinSpin`.
- `WheelCanvas.Advance`, `WheelCanvas.Survivors`: `WheelCanvas.SurvivorsAreAlive`, `WheelCanvas.SurvivorsAppend`, `WheelCanvas.SurvivorsStep`, `WheelCanvas.FreshParticlesVanish`, `WheelCanvas.Wheel.UpdateParticles`.
- `WheelCanvas.RealtimeText`: `WheelCanvas.Wheel.Frame`, `WheelCanvas.Wheel.PlayTickIfNewSector`.
- `WheelApi.Patched`: `WheelApi.WheelService.UpdateItem`.
- `WheelApi.LastOrderFor`, `WheelApi.Reordered`: `WheelApi.ReorderedAt`, `WheelApi.ApplyOrders`.
- `WheelApi.ImportedSetName`: `WheelApi.WheelService.ImportEntry`, `WheelApi.WheelService.ImportFromLocal`.
- `WheelApi.ApplyEntries`: `WheelApi.ApplyEntriesCreates`, `WheelApi.ApplyEntriesUpdates`, `WheelApi.WheelService.BatchUpdateSet`.
- `CommonUtils.Invocations`: `CommonUtils.InvocationsSpaced`, `CommonUtils.Throttle.Call`.
- `CommonUtils.Shuffled`: `CommonUtils.FisherYatesPermutes`, `CommonUtils.ShuffleArray`.
- `CommonUtils.ToNumber`, `CommonUtils.CheckErrors`: `CommonUtils.RequiredEmpty`, `CommonUtils.OptionalEmpty`, `CommonUtils.TypeMismatch`, `CommonUtils.ValidateData`.
- `ProfilePage.TotalItems`: `ProfilePage.TotalItemsAppend`, `ProfilePage.TotalItemsZero`, `ProfilePage.TotalItemsCounts`, `ProfilePage.TotalItemsSingle`.
- `ProfilePage.ExportPayload`: `ProfilePage.PayloadWheelSets`, `ProfilePage.ExportImportRoundTrip`.
- `MiniData.EncodeItem`, `MiniData.EncodeSet`, `MiniData.DecodeItem`, `MiniData.DecodeSet`: `MiniData.ItemRoundTrip`, `MiniData.SetRoundTrip`, `MiniData.ItemsRoundTrip`, `MiniData.SetsRoundTrip`.

## Left out

- Drawing the wheel, the canvas size, touch coordinates, `atan2`, vibration, toasts, modals, navigation and timers are left out. A tap is given by its angle, and each animation frame is one `Frame` call at a given clock reading.
- Particle creation (`createParticles`, `createFireworkBurst`) draws random positions and speeds. Only the particle update step is modelled, so the particle list changes nowhere else.
- Numbers are mathematical reals and integers, not IEEE doubles: rounding of `Math.PI`, of the easing curve and of the angle arithmetic is not modelled, and π is an abstract positive constant.
- JSON values hold integers only. Text encoding, the JSON text itself, the clipboard and `wx` storage calls are represented by values, not by strings of characters.
- The database is two maps from ids to rows. Prisma's cuid ids are a counter, timestamps are left out, and "most recent first" is "highest id first". Transactions are single steps.
- The web store's `$patch`, `localStorage`, the `now()` clock and the ids taken from `Date.now()` are parameters or fields of the store.
- WebStore.Store.Load: a stored record replaces all four persisted fields, where `$patch` merges and would keep a field missing from the stored JSON. The store writes only through `save`, which always stores all four fields, so a stored record is always complete.
- The settings toggles, `formatTime`, `debounce`, `generateId` and the storage utility in the mini-program are not part of this model; generated ids are arguments.
- JavaScript objects are values here: where the source relies on two names for one object (an edited set that is also the current set), the model keeps the copies apart.
- Management.SaveSetData: the page stays consistent only when the current id is set or a set is created. Editing the current set while the current id is `""` relies on shared objects in the source, which values do not have.
- ProfilePage.Page.ImportData: a `wheelSets` array whose elements are not shaped like sets is refused as a bad format. The source stores whatever the array holds. A failed clipboard read and a failed parse are both one "bad format" outcome.
- ProfilePage.Nickname: a stored `nickName` that is not a string is shown as empty.
- JsText.TrimIdempotent: it follows from the contract of `Trim` alone and carries no proof of its own.
- A new set's `version` is 0 by the database schema's default, which is not part of this model: `WheelApi.WheelService.CreateSet` assumes that default.
- WebStore.Store.ReorderItems: it uses the corrected `Move`. As written, a `fromIndex` at or past the end (or any index into an empty list) removes nothing, and `undefined` is inserted at `toIndex`; `WebStore.MoveAsWritten` models that, and the Findings table records it.
- CommonUtils.DeepClone, CommonUtils.CloneAll, CommonUtils.CloneProps: values here have no identity, so the clone is the original; that the copy shares no reference with it is not modelled.
- CommonUtils.ToNumber: `Number()` of a string reads only optionally signed decimal integers here. Fractions (`"0.5"`), exponents (`"1e3"`), hexadecimal, binary and octal literals (`"0x10"`) and `"Infinity"` are NaN (None) in the model, so the `min`/`max` checks of `validateData` on such strings report nothing where the source may report a message.
- The mini-program's fallback spin button for iOS and the login page are left out.
- Concurrent requests to the service are not modelled; each operation runs alone.

## Findings

| source | as written | input that shows it | evidently intended | confidence | as-written member | corrected member |
|---|---|---|---|---|---|---|
| apps/api/src/modules/wheel/wheel.service.ts:38-42 | `deleteSet` deletes by id alone, without checking the owner | user "b" deletes set 0 owned by user "a" | only the owner can delete a set, as every other operation checks | not executed | WheelApi.ForeignSetDeletion | WheelApi.ForeignSetKept |
| apps/api/src/modules/wheel/wheel.service.ts:88-93 | `deleteItem` checks that the user owns the set but deletes the item by id alone | a user who owns set 0 deletes item 3 of another user's set 1 through set 0 | only an item of the named set can be deleted | not executed | WheelApi.ForeignItemDeletion | WheelApi.ForeignItemKept |
| src/stores/wheel.ts:162-165 | `reorderItems` splices out `fromIndex` and inserts what came out, even when nothing did | items `[a]`, fromIndex 1, toIndex 0 gives `[undefined, a]` | an index outside the list leaves the items as they are | not executed | WebStore.MoveAsWrittenExample | WebStore.MovePermutes |

=== FILE: common_utils.dfy ===
/**
 * The generic helpers of miniProgram/utils/common.js: the colour palette and
 * getRandomColor, throttle, deepClone, shuffleArray and validateData.
 * Math.random() draws and Date.now() readings are parameters.
 */
module CommonUtils {
  import opened Wrappers
  import opened Draws
  import opened JsValues
  import opened JsText

  /**
   * The twelve pastel colours of the wheel. The same list is the sector
   * palette of the wheel component, the colour choices of the management
   * page and the pool of getRandomColor.
   */
  const PALETTE: seq<string> := [
    "#EADDFF", "#FFD8E4", "#D0BCFF", "#BDE0FE", "#F9DEC9", "#FCE1A8",
    "#C8E6C9", "#FFCDD2", "#BBDEFB", "#FFE0B2", "#DCEDC8", "#F8BBD0"
  ]

  /** getRandomColor: colours[floor(random * 12)]. */
  function RandomColor(draw: Draw): (c: string)
    ensures c in PALETTE
  {
    PALETTE[Pick(|PALETTE|, draw)]
  }

  /** Every colour of the palette can come out of getRandomColor. */
  lemma RandomColorCovers(k: nat)
    requires k < |PALETTE|
    ensures 0.0 <= k as real / 12.0 < 1.0
    ensures RandomColor(k as real / 12.0) == PALETTE[k]
  {
    var n := |PALETTE|;
    assert n == 12;
    PickCovers(n, k);
    assert Pick(n, k as real / 12.0) == k;
  }

  // ---- throttle ----

  /** The closure state of `throttle(func, delay)`: the time func last ran. */
  class Throttle {
    const delay: int
    var lastTime: int

    constructor(delay: int)
      ensures this.delay == delay && lastTime == 0
    {
      this.delay := delay;
      lastTime := 0;
    }

    /**
     * One call of the throttled function at clock reading `now`: func runs
     * exactly when at least `delay` ms passed since it last ran, and only
     * then is the time recorded.
     */
    method Call(now: int) returns (invoked: bool)
      modifies this
      ensures invoked <==> now - old(lastTime) >= delay
      ensures lastTime == (if invoked then now else old(lastTime))
      ensures Invocations(delay, old(lastTime), [now]) == (if invoked then [now] else [])
    {
      invoked := now - lastTime >= delay;
      if invoked {
        lastTime := now;
      }
    }
  }

  /** The clock readings at which func runs, for successive calls at `times`. */
  function Invocations(delay: int, last: int, times: seq<int>): seq<int>
    decreases |times|
  {
    if times == [] then []
    else if times[0] - last >= delay then [times[0]] + Invocations(delay, times[0], times[1..])
    else Invocations(delay, last, times[1..])
  }

  /**
   * Whatever the calls, func runs only at call times, and any two
   * consecutive runs are at least `delay` apart (the first one at least
   * `delay` after the initial lastTime).
   */
  lemma {:induction false} InvocationsSpaced(delay: int, last: int, times: seq<int>)
    ensures forall x | x in Invocations(delay, last, times) :: x in times
    ensures Invocations(delay, last, times) != [] ==> Invocations(delay, last, times)[0] - last >= delay
    ensures forall k | 0 <= k < |Invocations(delay, last, times)| - 1 ::
              Invocations(delay, last, times)[k + 1] - Invocations(delay, last, times)[k] >= delay
    decreases |times|
  {
    if times != [] {
      if times[0] - last >= delay {
        InvocationsSpaced(delay, times[0], times[1..]);
      } else {
        InvocationsSpaced(delay, last, times[1..]);
      }
    }
  }

  // ---- deepClone ----

  /**
   * deepClone: primitives and null are returned as they are, a Date is
   * copied, an array is mapped element by element and an object's own
   * properties are copied in enumeration order. Values here carry no
   * identity, so the clone equals the original: the ensures is the
   * identity, and what deepClone is for (a copy that shares no reference
   * with the original) has no counterpart in this model.
   */
  function DeepClone(v: JsValue): (r: JsValue)
    ensures r == v
    decreases v, 1
  {
    match v
    case Date(t) => Date(t)
    case Arr(elems) => Arr(CloneAll(elems))
    case Obj(props) => Obj(CloneProps(props))
    case _ => v
  }

  /** deepClone mapped over an array's elements; the identity on values. */
  function CloneAll(elems: seq<JsValue>): (r: seq<JsValue>)
    ensures r == elems
    decreases elems, 0
  {
    if elems == [] then [] else [DeepClone(elems[0])] + CloneAll(elems[1..])
  }

  /** deepClone over an object's own properties, keys kept; the identity on values. */
  function CloneProps(props: seq<Prop>): (r: seq<Prop>)
    ensures r == props
    decreases props, 0
  {
    if props == [] then []
    else [Prop(props[0].key, DeepClone(props[0].value))] + CloneProps(props[1..])
  }

  // ---- shuffleArray ----

  /** [a[i], a[j]] = [a[j], a[i]]: the two positions trade places. */
  function Swap<T>(s: seq<T>, i: nat, j: nat): (r: seq<T>)
    requires i < |s| && j < |s|
    ensures |r| == |s| && r[i] == s[j] && r[j] == s[i]
    ensures forall k | 0 <= k < |s| && k != i && k != j :: r[k] == s[k]
  {
    s[i := s[j]][j := s[i]]
  }

  lemma SwapPermutes<T>(s: seq<T>, i: nat, j: nat)
    requires i < |s| && j < |s|
    ensures multiset(Swap(s, i, j)) == multiset(s)
  {
  }

  /**
   * The Fisher–Yates passes for positions i, i-1, ..., 1: position p is
   * swapped with floor(draw * (p + 1)), the draws being used in order from
   * index k.
   */
  function FisherYates<T>(s: seq<T>, i: nat, draws: seq<Draw>, k: nat): (r: seq<T>)
    requires i < |s| && k + i <= |draws|
    ensures |r| == |s|
    decreases i
  {
    if i == 0 then s
    else FisherYates(Swap(s, i, Pick(i + 1, draws[k])), i - 1, draws, k + 1)
  }

  /** The passes only ever swap, so they permute the elements. */
  lemma {:induction false} FisherYatesPermutes<T>(s: seq<T>, i: nat, draws: seq<Draw>, k: nat)
    requires i < |s| && k + i <= |draws|
    ensures multiset(FisherYates(s, i, draws, k)) == multiset(s)
    decreases i
  {
    if i > 0 {
      var j := Pick(i + 1, draws[k]);
      SwapPermutes(s, i, j);
      FisherYatesPermutes(Swap(s, i, j), i - 1, draws, k + 1);
    }
  }

  /** The result of shuffleArray on s with the given draws. */
  function Shuffled<T>(s: seq<T>, draws: seq<Draw>): (r: seq<T>)
    requires |draws| + 1 >= |s|
  {
    if s == [] then [] else FisherYates(s, |s| - 1, draws, 0)
  }

  /**
   * shuffleArray: shuffles a copy of `input` in place, leaving `input`
   * itself untouched, and returns the copy: a permutation of the input.
   * One draw is consumed per position from the last down to the second.
   */
  method ShuffleArray<T>(input: array<T>, draws: seq<Draw>) returns (r: seq<T>)
    requires |draws| + 1 >= input.Length
    ensures r == Shuffled(input[..], draws)
    ensures |r| == input.Length && multiset(r) == multiset(input[..])
  {
    if input.Length == 0 {
      return [];
    }
    var a := new T[input.Length](k requires 0 <= k < input.Length reads input => input[k]);
    assert a[..] == input[..];
    FisherYatesInPlace(a, draws);
    r := a[..];
    FisherYatesPermutes(input[..], input.Length - 1, draws, 0);
  }

  /** The swapping loop of shuffleArray, on the copied array. */
  method FisherYatesInPlace<T>(a: array<T>, draws: seq<Draw>)
    requires a.Length > 0 && |draws| + 1 >= a.Length
    modifies a
    ensures a[..] == FisherYates(old(a[..]), a.Length - 1, draws, 0)
  {
    ghost var target := FisherYates(a[..], a.Length - 1, draws, 0);
    var i := a.Length - 1;
    var used := 0;
    while i > 0
      invariant 0 <= i < a.Length && used == a.Length - 1 - i
      invariant target == FisherYates(a[..], i, draws, used)
    {
      var j := Pick(i + 1, draws[used]);
      ghost var before := a[..];
      a[i], a[j] := a[j], a[i];
      assert a[..] == Swap(before, i, j);
      i := i - 1;
      used := used + 1;
    }
  }

  // ---- validateData ----

  /**
   * One field's rule. Absent and falsy settings coincide in the source
   * (`rule.fieldLabel || field`, `if (rule.minLength && ...)`), so an absent
   * label, type, minLength or maxLength is "" or 0 here; `min` and `max` are
   * tested with `!== undefined`, so they are options. The pattern stands
   * for its `test` applied to the value.
   */
  datatype Rule = Rule(
    required: bool,
    fieldLabel: string,
    typeName: string,
    minLength: int,
    maxLength: int,
    min: Option<int>,
    max: Option<int>,
    pattern: Option<JsValue -> bool>,
    validator: Option<JsValue -> JsValue>)

  /** A rules object's entry, in `for ... in` order. */
  datatype FieldRule = FieldRule(field: string, rule: Rule)

  datatype Validation = Validation(valid: bool, errors: seq<JsValue>)

  /** undefined, null and '' count as empty. */
  predicate IsEmpty(v: JsValue)
  {
    v.Undefined? || v.Null? || v == Str("")
  }

  function LabelOf(field: string, rule: Rule): string
  {
    if rule.fieldLabel != "" then rule.fieldLabel else field
  }

  /** Decimal digits with an optional sign, as Number() reads them. */
  function DecimalValue(s: string): Option<int>
  {
    if s == "" then Some(0)
    else if s[0] == '-' && |s| > 1 && Digits(s[1..]) then Some(-(DigitsValue(s[1..]) as int))
    else if s[0] == '+' && |s| > 1 && Digits(s[1..]) then Some(DigitsValue(s[1..]))
    else if Digits(s) then Some(DigitsValue(s))
    else None
  }

  /** Number(v) for the values a relational comparison meets; None stands for NaN. */
  function ToNumber(v: JsValue): Option<int>
  {
    match v
    case Num(n) => Some(n)
    case Bool(b) => Some(if b then 1 else 0)
    case Null => Some(0)
    case Str(s) => DecimalValue(Trim(s))
    case Date(t) => Some(t)
    case Arr(elems) =>
      if forall i | 0 <= i < |elems| :: Plain(elems[i]) then DecimalValue(Trim(Join(elems))) else None
    case _ => None
  }

  /** `value.length`, read as a number (None when undefined or NaN). */
  function LengthOf(v: JsValue): Option<int>
  {
    match v
    case Str(s) => Some(Utf16Length(s))
    case Arr(elems) => Some(|elems|)
    case Obj(_) => ToNumber(Get(v, "length"))
    case _ => None
  }

  /** Six pizza emoji are twelve code units long, over a maxLength of 10. */
  lemma LengthOfEmojiText()
    ensures LengthOf(Str("\U{1F355}\U{1F355}\U{1F355}\U{1F355}\U{1F355}\U{1F355}")) == Some(12)
  {
    var pizza := "\U{1F355}";
    assert "\U{1F355}\U{1F355}\U{1F355}\U{1F355}\U{1F355}\U{1F355}" == pizza + pizza + pizza + pizza + pizza + pizza;
    Utf16LengthAppend(pizza, pizza);
    Utf16LengthAppend(pizza + pizza, pizza);
    Utf16LengthAppend(pizza + pizza + pizza, pizza);
    Utf16LengthAppend(pizza + pizza + pizza + pizza, pizza);
    Utf16LengthAppend(pizza + pizza + pizza + pizza + pizza, pizza);
  }

  predicate Below(x: Option<int>, bound: int)
  {
    x.Some? && x.value < bound
  }

  predicate Above(x: Option<int>, bound: int)
  {
    x.Some? && x.value > bound
  }

  /** The errors of one non-empty value that passed the type check, in the source's order. */
  function CheckErrors(value: JsValue, l: string, rule: Rule): seq<JsValue>
  {
    (if rule.minLength != 0 && Below(LengthOf(value), rule.minLength)
     then [Str(l + " 长度不能少于 " + IntToString(rule.minLength) + " 个字符")] else [])
    + (if rule.maxLength != 0 && Above(LengthOf(value), rule.maxLength)
       then [Str(l + " 长度不能超过 " + IntToString(rule.maxLength) + " 个字符")] else [])
    + (if rule.min.Some? && Below(ToNumber(value), rule.min.value)
       then [Str(l + " 不能小于 " + IntToString(rule.min.value))] else [])
    + (if rule.max.Some? && Above(ToNumber(value), rule.max.value)
       then [Str(l + " 不能大于 " + IntToString(rule.max.value))] else [])
    + (if rule.pattern.Some? && !rule.pattern.value(value) then [Str(l + " 格式不正确")] else [])
    + (if rule.validator.Some? && rule.validator.value(value) != Bool(true)
       then [if Truthy(rule.validator.value(value)) then rule.validator.value(value) else Str(l + " 验证失败")]
       else [])
  }

  /** The errors validateData reports for one field. */
  function FieldErrors(value: JsValue, field: string, rule: Rule): (errs: seq<JsValue>)
    ensures |errs| <= 6
  {
    var l := LabelOf(field, rule);
    if rule.required && IsEmpty(value) then [Str(l + " 不能为空")]
    else if IsEmpty(value) then []
    else if rule.typeName != "" && TypeOf(value) != rule.typeName then [Str(l + " 类型错误")]
    else CheckErrors(value, l, rule)
  }

  /** The errors of each field, one list per rule. */
  function PerField(data: JsValue, rules: seq<FieldRule>): (parts: seq<seq<JsValue>>)
    ensures |parts| == |rules|
  {
    seq(|rules|, i requires 0 <= i < |rules| => FieldErrors(Get(data, rules[i].field), rules[i].field, rules[i].rule))
  }

  /** The lists joined one after the other. */
  function Concat<T>(parts: seq<seq<T>>): seq<T>
  {
    if parts == [] then [] else Concat(parts[..|parts| - 1]) + parts[|parts| - 1]
  }

  /** The errors of all fields, field after field in rule order. */
  function AllErrors(data: JsValue, rules: seq<FieldRule>): seq<JsValue>
  {
    Concat(PerField(data, rules))
  }

  /** What validateData throws: reading a field of null or undefined data. */
  datatype ValidationError = ReadOfNullish

  /** validateData's loop over the rules: every field's errors, field after field. */
  method CollectErrors(data: JsValue, rules: seq<FieldRule>) returns (errors: seq<JsValue>)
    ensures errors == AllErrors(data, rules)
  {
    errors := [];
    var i := 0;
    while i < |rules|
      invariant 0 <= i <= |rules|
      invariant errors == AllErrors(data, rules[..i])
    {
      var fr := rules[i];
      assert PerField(data, rules[..i + 1])[..i] == PerField(data, rules[..i]);
      errors := errors + FieldErrors(Get(data, fr.field), fr.field, fr.rule);
      i := i + 1;
    }
    assert rules[..i] == rules;
  }

  /**
   * validateData(data, rules): the errors of every field, in rule order,
   * and valid exactly when there are none. With at least one rule, null or
   * undefined data makes the first property read throw; with no rules the
   * loop never reads and the data is valid.
   */
  method ValidateData(data: JsValue, rules: seq<FieldRule>) returns (result: Result<Validation, ValidationError>)
    ensures result.Failure? <==> (data.Undefined? || data.Null?) && rules != []
    ensures result.Success? ==> result.value.errors == AllErrors(data, rules)
    ensures result.Success? ==> (result.value.valid <==> result.value.errors == [])
  {
    if (data.Undefined? || data.Null?) && rules != [] {
      // the first iteration's `data[field]` throws
      return Failure(ReadOfNullish);
    }
    var errors := CollectErrors(data, rules);
    result := Success(Validation(|errors| == 0, errors));
  }

  /** A required field that is empty gets exactly the "cannot be empty" error and no other. */
  lemma RequiredEmpty(value: JsValue, field: string, rule: Rule)
    requires rule.required && IsEmpty(value)
    ensures FieldErrors(value, field, rule) == [Str(LabelOf(field, rule) + " 不能为空")]
  {
  }

  /** An optional field that is empty gets no error at all. */
  lemma OptionalEmpty(value: JsValue, field: string, rule: Rule)
    requires !rule.required && IsEmpty(value)
    ensures FieldErrors(value, field, rule) == []
  {
  }

  /** A type mismatch gives exactly one error and skips the remaining checks. */
  lemma TypeMismatch(value: JsValue, field: string, rule: Rule)
    requires !IsEmpty(value) && rule.typeName != "" && TypeOf(value) != rule.typeName
    ensures FieldErrors(value, field, rule) == [Str(LabelOf(field, rule) + " 类型错误")]
  {
  }

  lemma {:induction false} ConcatAppend<T>(a: seq<seq<T>>, b: seq<seq<T>>)
    ensures Concat(a + b) == Concat(a) + Concat(b)
    decreases |b|
  {
    if b == [] {
      assert a + b == a;
    } else {
      var b' := b[..|b| - 1];
      assert (a + b)[..|a + b| - 1] == a + b';
      assert (a + b)[|a + b| - 1] == b[|b| - 1];
      ConcatAppend(a, b');
      assert Concat(a + b) == Concat(a + b') + b[|b| - 1];
      assert Concat(b) == Concat(b') + b[|b| - 1];
    }
  }

  lemma {:induction false} ConcatEmpty<T>(parts: seq<seq<T>>)
    ensures Concat(parts) == [] <==> forall i | 0 <= i < |parts| :: parts[i] == []
  {
    if parts != [] {
      ConcatEmpty(parts[..|parts| - 1]);
      assert forall i | 0 <= i < |parts| - 1 :: parts[..|parts| - 1][i] == parts[i];
    }
  }

  /** Validating against two rule lists one after the other gives the errors of each, in order. */
  lemma AllErrorsAppend(data: JsValue, r1: seq<FieldRule>, r2: seq<FieldRule>)
    ensures AllErrors(data, r1 + r2) == AllErrors(data, r1) + AllErrors(data, r2)
  {
    PerFieldAppend(data, r1, r2);
    ConcatAppend(PerField(data, r1), PerField(data, r2));
  }

  lemma PerFieldAppend(data: JsValue, r1: seq<FieldRule>, r2: seq<FieldRule>)
    ensures PerField(data, r1 + r2) == PerField(data, r1) + PerField(data, r2)
  {
    var p, q := PerField(data, r1 + r2), PerField(data, r1) + PerField(data, r2);
    forall i | 0 <= i < |p|
      ensures p[i] == q[i]
    {
      if i < |r1| {
        assert (r1 + r2)[i] == r1[i];
      } else {
        assert (r1 + r2)[i] == r2[i - |r1|];
      }
    }
  }

  /** A field whose value raises no error. */
  predicate FieldValid(data: JsValue, fr: FieldRule)
  {
    FieldErrors(Get(data, fr.field), fr.field, fr.rule) == []
  }

  /** The data is valid exactly when every field on its own has no error. */
  lemma ValidIffEveryField(data: JsValue, rules: seq<FieldRule>)
    ensures AllErrors(data, rules) == [] <==> forall i | 0 <= i < |rules| :: FieldValid(data, rules[i])
  {
    ConcatEmpty(PerField(data, rules));
    assert forall i | 0 <= i < |rules| :: PerField(data, rules)[i] == [] <==> FieldValid(data, rules[i]);
  }
}

=== FILE: detail_page.dfy ===
/**
 * The mini-program's option detail page (miniProgram/pages/detail/detail.js):
 * opened with a set id and an item id, it shows that item, the name of its
 * set and the set's other items.
 *
 * Toasts, navigation and the time formatting of the view are left out.
 */
module DetailPage {
  import opened Wrappers
  import opened JsArrays
  import opened MiniData

  const SHARE_PREFIX: string := "转盘选项："
  const SHARE_FALLBACK: string := "详情"
  const DETAIL_PATH: string := "/pages/detail/detail"

  /** The page's `data`. */
  datatype DetailData = DetailData(
    loading: bool,
    item: Option<MiniItem>,
    setName: string,
    setId: string,
    itemId: string,
    relatedItems: seq<MiniItem>)

  function InitialData(): (d: DetailData)
    ensures d.loading && d.item.None? && d.relatedItems == []
    ensures d.setName == "" && d.setId == "" && d.itemId == ""
  {
    DetailData(true, None, "", "", "", [])
  }

  /** The other items of a set: those whose id differs from the shown item's, in their order. */
  function Related(items: seq<MiniItem>, shownId: string): (r: seq<MiniItem>)
    ensures forall x | x in r :: x in items && x.id != shownId
    ensures forall x | x in items && x.id != shownId :: x in r
  {
    Filter(items, (x: MiniItem) => x.id != shownId)
  }

  /** Showing an item of the set always leaves fewer related items than the set has. */
  lemma RelatedShorter(items: seq<MiniItem>, i: nat)
    requires i < |items|
    ensures |Related(items, items[i].id)| < |items|
  {
    FilterDrops(items, (x: MiniItem) => x.id != items[i].id, i);
  }

  /** Related items keep the order of the set: relating a concatenation relates each part. */
  lemma RelatedAppend(a: seq<MiniItem>, b: seq<MiniItem>, shownId: string)
    ensures Related(a + b, shownId) == Related(a, shownId) + Related(b, shownId)
  {
    FilterAppend(a, b, (x: MiniItem) => x.id != shownId);
  }

  /** What loadItemDetail came to. */
  datatype Outcome =
    | Shown            // the item, its set's name and the related items are on the page
    | SetMissing       // no set has the id
    | ItemMissing      // the set has no item with the id
    | Failed           // the set has no items list, and reading it throws

  class Page {
    const app: AppData
    var data: DetailData

    constructor(app: AppData)
      ensures this.app == app && data == InitialData()
    {
      this.app := app;
      data := InitialData();
    }

    /**
     * loadItemDetail: looks the set up by id in the app's sets and the item
     * by id in that set. On success the page shows that item, its set's
     * name and the set's other items, and stops loading; when either is
     * missing it stops loading with no item. A set without an items list
     * makes the lookup throw after loading was switched on.
     */
    method LoadItemDetail() returns (outcome: Outcome)
      modifies this
      ensures var s := FindSet(app.wheelSets, Some(old(data).setId));
        && (s.None? <==> outcome == SetMissing)
        && (s.Some? && app.wheelSets[s.value].items.None? <==> outcome == Failed)
        && (outcome == Shown ==>
              var found := app.wheelSets[s.value];
              var i := FindItem(found.items.value, old(data).itemId);
              && i.Some?
              && data == old(data).(loading := false, item := Some(found.items.value[i.value]), setName := found.name,
                   relatedItems := Related(found.items.value, old(data).itemId)))
      ensures outcome == Shown ==>
        && data.item.Some? && data.item.value.id == data.itemId
        && (exists k | 0 <= k < |app.wheelSets| :: app.wheelSets[k].id == data.setId && app.wheelSets[k].name == data.setName)
        && |data.relatedItems| < |ItemsOf(app.wheelSets[FindSet(app.wheelSets, Some(data.setId)).value])|
      ensures outcome == ItemMissing ==>
        var found := app.wheelSets[FindSet(app.wheelSets, Some(old(data).setId)).value];
        && FindItem(ItemsOf(found), old(data).itemId).None?
        && data == old(data).(loading := false, item := None)
      ensures outcome == SetMissing ==> data == old(data).(loading := false, item := None)
      ensures outcome == Failed ==> data == old(data).(loading := true)
    {
      data := data.(loading := true);
      var s := FindSet(app.wheelSets, Some(data.setId));
      if s.None? {
        data := data.(loading := false, item := None);
        return SetMissing;
      }
      var found := app.wheelSets[s.value];
      if found.items.None? {
        return Failed;
      }
      var items := found.items.value;
      var i := FindItem(items, data.itemId);
      if i.None? {
        data := data.(loading := false, item := None);
        return ItemMissing;
      }
      var item := items[i.value];
      RelatedShorter(items, i.value);
      data := data.(loading := false, item := Some(item), setName := found.name, relatedItems := Related(items, item.id));
      outcome := Shown;
    }

    /**
     * onLoad: both ids must be non-empty; otherwise nothing changes and
     * the page goes back (`loaded` is false). With both, the page takes
     * them and loads the item.
     */
    method OnLoad(setId: Option<string>, itemId: Option<string>) returns (loaded: Option<Outcome>)
      modifies this
      ensures loaded.None? <==> !IdPresent(setId) || !IdPresent(itemId)
      ensures loaded.None? ==> data == old(data)
      ensures loaded.Some? ==> data.setId == setId.value && data.itemId == itemId.value
      ensures loaded == Some(Shown) ==> data.item.Some? && data.item.value.id == itemId.value
    {
      if !IdPresent(setId) || !IdPresent(itemId) {
        return None;
      }
      data := data.(setId := setId.value, itemId := itemId.value);
      var outcome := LoadItemDetail();
      loaded := Some(outcome);
    }

    /** viewRelatedItem: the detail page of another item of the same set, as (setId, itemId). */
    method ViewRelatedItem(itemId: string) returns (target: (string, string))
      ensures target == (data.setId, itemId)
    {
      target := (data.setId, itemId);
    }

    /**
     * onShareAppMessage: the title names the shown item (or says "详情")
     * and the set; the path reopens this page on the same set and item.
     */
    function ShareMessage(): (r: (string, string))
      reads this
      ensures var name := if data.item.Some? then data.item.value.name else SHARE_FALLBACK;
        && |r.0| == |SHARE_PREFIX| + |name| + 3 + |data.setName|
        && r.0[..|SHARE_PREFIX|] == SHARE_PREFIX
        && r.0[|SHARE_PREFIX|..|SHARE_PREFIX| + |name|] == name
        && r.0[|SHARE_PREFIX| + |name|..|SHARE_PREFIX| + |name| + 3] == " - "
        && r.0[|r.0| - |data.setName|..] == data.setName
      ensures var p := |DETAIL_PATH|; var q := p + 7 + |data.setId|;
        && |r.1| == q + 8 + |data.itemId|
        && r.1[..p] == DETAIL_PATH
        && r.1[p..p + 7] == "?setId=" && r.1[p + 7..q] == data.setId
        && r.1[q..q + 8] == "&itemId=" && r.1[q + 8..] == data.itemId
    {
      var name := if data.item.Some? then data.item.value.name else SHARE_FALLBACK;
      (SHARE_PREFIX + name + " - " + data.setName,
       DETAIL_PATH + "?setId=" + data.setId + "&itemId=" + data.itemId)
    }
  }
}

=== FILE: index_page.dfy ===
/**
 * The mini-program's home page (miniProgram/pages/index/index.js): it
 * chooses the set whose wheel is shown, switches sets from the picker,
 * starts a spin, records the result the wheel reports, and shows the
 * option under the pointer while the wheel turns.
 *
 * Screen size, the iOS fallback button, modals, toasts and navigation are
 * left out; the wheel component's spin() is the `spinRequested` result.
 */
module IndexPage {
  import opened Wrappers
  import opened JsArrays
  import opened MiniData

  const IDLE_TEXT: string := "点击GO开始"
  const SPINNING_TEXT: string := "转盘旋转中..."
  const HIDDEN_ITEM: string := "??"

  /** The page's `data`. */
  datatype IndexData = IndexData(
    wheelSets: seq<MiniSet>,
    wheelSetNames: seq<string>,
    currentSetIndex: int,
    currentSetId: Option<string>,
    currentSetName: string,
    currentItems: seq<MiniItem>,
    hasItems: bool,
    isSpinning: bool,
    lastResult: Option<MiniItem>,
    showResult: bool,
    currentItemText: string,
    realtimeText: string)
  {
    /**
     * The page shows the set at currentSetIndex: its id, its name and its
     * items, and hasItems says whether there are any.
     */
    predicate Showing()
    {
      && 0 <= currentSetIndex < |wheelSets|
      && currentSetId == Some(wheelSets[currentSetIndex].id)
      && currentSetName == wheelSets[currentSetIndex].name
      && currentItems == ItemsOf(wheelSets[currentSetIndex])
      && (hasItems <==> currentItems != [])
    }
  }

  function InitialData(): (d: IndexData)
    ensures d.wheelSets == [] && !d.hasItems && !d.isSpinning && d.lastResult.None?
    ensures d.currentItemText == HIDDEN_ITEM && d.realtimeText == IDLE_TEXT
  {
    IndexData([], [], 0, None, "", [], false, false, None, false, HIDDEN_ITEM, IDLE_TEXT)
  }

  /** `wheelSets.map(set => set.name)`. */
  function Names(sets: seq<MiniSet>): (r: seq<string>)
    ensures |r| == |sets| && forall k | 0 <= k < |sets| :: r[k] == sets[k].name
  {
    seq(|sets|, k requires 0 <= k < |sets| => sets[k].name)
  }

  /** A set with at least one item. */
  predicate NonEmpty(s: MiniSet)
  {
    ItemsOf(s) != []
  }

  /**
   * loadData's choice of set: the one with the current id when that id is
   * truthy and found, else the first; if the choice has no items, the
   * first set that has some. Second component: whether that last step
   * changed the choice (and the app's current id must follow).
   */
  function ChooseSet(sets: seq<MiniSet>, currentId: Option<string>): (r: (nat, bool))
    requires sets != []
    ensures r.0 < |sets|
    ensures NonEmpty(sets[r.0]) <==> exists k | 0 <= k < |sets| :: NonEmpty(sets[k])
    ensures !r.1 && IdPresent(currentId) && FindSet(sets, currentId).Some? ==> r.0 == FindSet(sets, currentId).value
    ensures !r.1 && !(IdPresent(currentId) && FindSet(sets, currentId).Some?) ==> r.0 == 0
    ensures r.1 ==> NonEmpty(sets[r.0]) && forall k | 0 <= k < r.0 :: !NonEmpty(sets[k])
    ensures var first := if IdPresent(currentId) && FindSet(sets, currentId).Some? then FindSet(sets, currentId).value else 0;
      && (NonEmpty(sets[first]) ==> r == (first, false))
      && (r.1 ==> !NonEmpty(sets[first]))
  {
    var first := if IdPresent(currentId) && FindSet(sets, currentId).Some? then FindSet(sets, currentId).value else 0;
    if NonEmpty(sets[first]) then (first, false)
    else
      match FindIndex(sets, NonEmpty)
      case Some(j) => (j, true)
      case None => (first, false)
  }

  class Page {
    const app: AppData
    var data: IndexData

    constructor(app: AppData)
      ensures this.app == app && data == InitialData()
    {
      this.app := app;
      data := InitialData();
    }

    /**
     * loadData (run by onLoad and onShow): with no sets it only offers to
     * open the management page (`promptManagement`) and changes nothing.
     * Otherwise the page shows the set ChooseSet picks and stops
     * spinning; hasItems then holds exactly when some set has items. The
     * app's current id is rewritten (and saved) only when the choice fell
     * back to a non-empty set.
     */
    method LoadData() returns (promptManagement: bool)
      modifies this, app
      ensures promptManagement <==> old(app.wheelSets) == []
      ensures promptManagement ==> data == old(data) && unchanged(app)
      ensures !promptManagement ==>
        var ws := old(app.wheelSets);
        var choice := ChooseSet(ws, old(app.currentWheelSetId));
        && data == old(data).(wheelSets := ws, wheelSetNames := Names(ws), currentSetIndex := choice.0,
             currentSetId := Some(ws[choice.0].id), currentSetName := ws[choice.0].name,
             currentItems := ItemsOf(ws[choice.0]), hasItems := ItemsOf(ws[choice.0]) != [], isSpinning := false)
        && data.Showing()
        && (data.hasItems <==> exists k | 0 <= k < |ws| :: NonEmpty(ws[k]))
        && app.wheelSets == ws
        && app.currentWheelSetId == (if choice.1 then Some(ws[choice.0].id) else old(app.currentWheelSetId))
        && (choice.1 ==> app.storedSets == Some(ws) && app.storedCurrentId == app.currentWheelSetId)
        && (!choice.1 ==> app.storedSets == old(app.storedSets) && app.storedCurrentId == old(app.storedCurrentId))
      ensures app.Rest() == old(app.Rest())
    {
      var ws := app.wheelSets;
      if ws == [] {
        return true;
      }
      promptManagement := false;
      var choice := ChooseSet(ws, app.currentWheelSetId);
      var s := ws[choice.0];
      if choice.1 {
        app.currentWheelSetId := Some(s.id);
        app.SaveLocalData();
      }
      data := data.(wheelSets := ws, wheelSetNames := Names(ws), currentSetIndex := choice.0,
        currentSetId := Some(s.id), currentSetName := s.name,
        currentItems := ItemsOf(s), hasItems := ItemsOf(s) != [], isSpinning := false);
    }

    /**
     * onLoad: loads the data, then marks the app as not spinning. The page
     * shows what loadData chose, and the app's current id and storage
     * change as loadData changes them.
     */
    method OnLoad() returns (promptManagement: bool)
      modifies this, app
      ensures promptManagement <==> old(app.wheelSets) == []
      ensures promptManagement ==>
        && data == old(data) && app.currentWheelSetId == old(app.currentWheelSetId)
        && app.storedSets == old(app.storedSets) && app.storedCurrentId == old(app.storedCurrentId)
      ensures !promptManagement ==>
        var ws := old(app.wheelSets);
        var choice := ChooseSet(ws, old(app.currentWheelSetId));
        && data == old(data).(wheelSets := ws, wheelSetNames := Names(ws), currentSetIndex := choice.0,
             currentSetId := Some(ws[choice.0].id), currentSetName := ws[choice.0].name,
             currentItems := ItemsOf(ws[choice.0]), hasItems := ItemsOf(ws[choice.0]) != [], isSpinning := false)
        && data.Showing()
        && (data.hasItems <==> exists k | 0 <= k < |ws| :: NonEmpty(ws[k]))
        && app.currentWheelSetId == (if choice.1 then Some(ws[choice.0].id) else old(app.currentWheelSetId))
        && (choice.1 ==> app.storedSets == Some(ws) && app.storedCurrentId == app.currentWheelSetId)
        && (!choice.1 ==> app.storedSets == old(app.storedSets) && app.storedCurrentId == old(app.storedCurrentId))
      ensures !app.isSpinning && app.wheelSets == old(app.wheelSets)
      ensures app.lastResult == old(app.lastResult) && app.spinStatistics == old(app.spinStatistics)
      ensures app.storedUserInfo == old(app.storedUserInfo)
    {
      promptManagement := LoadData();
      app.isSpinning := false;
    }

    /**
     * onSetChange: picking the set at the index shows it and makes its id
     * the app's current id, which is saved; an index outside the list
     * changes nothing.
     */
    method OnSetChange(index: int)
      modifies this, app
      ensures !(0 <= index < |old(data).wheelSets|) ==> data == old(data) && unchanged(app)
      ensures 0 <= index < |old(data).wheelSets| ==>
        var s := old(data).wheelSets[index];
        && data == old(data).(currentSetIndex := index, currentSetId := Some(s.id), currentSetName := s.name,
             currentItems := ItemsOf(s), hasItems := ItemsOf(s) != [])
        && data.Showing()
        && app.currentWheelSetId == Some(s.id) && app.wheelSets == old(app.wheelSets)
        && app.storedSets == Some(app.wheelSets) && app.storedCurrentId == app.currentWheelSetId
      ensures app.Rest() == old(app.Rest())
    {
      if 0 <= index < |data.wheelSets| {
        var s := data.wheelSets[index];
        data := data.(currentSetIndex := index, currentSetId := Some(s.id), currentSetName := s.name,
          currentItems := ItemsOf(s), hasItems := ItemsOf(s) != []);
        app.currentWheelSetId := Some(s.id);
        app.SaveLocalData();
      }
    }

    /**
     * onSpin: ignored while spinning and refused without items; otherwise
     * the page is spinning, says so, and asks the wheel to spin.
     */
    method OnSpin() returns (spinRequested: bool)
      modifies this
      ensures spinRequested <==> !old(data).isSpinning && old(data).hasItems
      ensures !spinRequested ==> data == old(data)
      ensures spinRequested ==> data == old(data).(isSpinning := true, realtimeText := SPINNING_TEXT)
    {
      if data.isSpinning || !data.hasItems {
        return false;
      }
      data := data.(isSpinning := true, realtimeText := SPINNING_TEXT);
      spinRequested := true;
    }

    /**
     * onSpinEnd: the wheel's result is recorded and shown, on the page and
     * in the app, and nobody is spinning any more. A missing result throws
     * while the new data is built, so nothing changes.
     */
    method OnSpinEnd(result: Option<MiniItem>)
      modifies this, app
      ensures result.None? ==> data == old(data) && unchanged(app)
      ensures result.Some? ==>
        && data == old(data).(isSpinning := false, lastResult := result, showResult := true, realtimeText := result.value.name)
        && !app.isSpinning && app.lastResult == result
        && app.wheelSets == old(app.wheelSets) && app.currentWheelSetId == old(app.currentWheelSetId)
        && app.storedSets == old(app.storedSets) && app.storedCurrentId == old(app.storedCurrentId)
        && app.spinStatistics == old(app.spinStatistics) && app.storedUserInfo == old(app.storedUserInfo)
    {
      if result.Some? {
        data := data.(isSpinning := false, lastResult := result, showResult := true, realtimeText := result.value.name);
        app.lastResult := result;
        app.isSpinning := false;
      }
    }

    /**
     * onCurrentChange: the option under the pointer. At rest a named item
     * is shown in both places; while spinning only the running text shows
     * it and the item stays hidden; anything else restores the defaults.
     */
    method OnCurrentChange(item: Option<MiniItem>)
      modifies this
      ensures var named := item.Some? && item.value.name != "";
        && (named && !old(data).isSpinning ==>
              data == old(data).(currentItemText := item.value.name, realtimeText := item.value.name))
        && (named && old(data).isSpinning ==>
              data == old(data).(currentItemText := HIDDEN_ITEM, realtimeText := item.value.name))
        && (!named ==> data == old(data).(currentItemText := HIDDEN_ITEM, realtimeText := IDLE_TEXT))
      ensures data.isSpinning ==> data.currentItemText == HIDDEN_ITEM
    {
      if item.Some? && item.value.name != "" && !data.isSpinning {
        data := data.(currentItemText := item.value.name, realtimeText := item.value.name);
      } else if data.isSpinning && item.Some? && item.value.name != "" {
        data := data.(currentItemText := HIDDEN_ITEM, realtimeText := item.value.name);
      } else {
        data := data.(currentItemText := HIDDEN_ITEM, realtimeText := IDLE_TEXT);
      }
    }

    /** onItemClick: a tapped item opens its detail page, given as (setId, itemId), when a set is shown. */
    method OnItemClick(item: Option<MiniItem>) returns (detail: Option<(string, string)>)
      ensures detail.Some? <==> item.Some? && IdPresent(data.currentSetId)
      ensures detail.Some? ==> detail.value == (data.currentSetId.value, item.value.id)
    {
      if item.Some? && IdPresent(data.currentSetId) {
        return Some((data.currentSetId.value, item.value.id));
      }
      return None;
    }

    /** viewDetail: opens the last result's detail page when there is one, and hides the result either way. */
    method ViewDetail() returns (detail: Option<(string, string)>)
      modifies this
      ensures detail.Some? <==> old(data).lastResult.Some? && IdPresent(old(data).currentSetId)
      ensures detail.Some? ==> detail.value == (old(data).currentSetId.value, old(data).lastResult.value.id)
      ensures data == old(data).(showResult := false)
    {
      detail := None;
      if data.lastResult.Some? && IdPresent(data.currentSetId) {
        detail := Some((data.currentSetId.value, data.lastResult.value.id));
      }
      data := data.(showResult := false);
    }
  }
}

=== FILE: js_arrays.dfy ===
/**
 * The Array.prototype operations the client code relies on: findIndex
 * (and find), filter, and splice with its relative-index rules.
 */
module JsArrays {
  import opened Wrappers

  /** `findIndex`, with None for -1: the first position whose element satisfies p. */
  function FindIndex<T>(s: seq<T>, p: T -> bool): (r: Option<nat>)
    ensures r.None? <==> forall i | 0 <= i < |s| :: !p(s[i])
    ensures r.Some? ==> r.value < |s| && p(s[r.value])
    ensures r.Some? ==> forall i | 0 <= i < r.value :: !p(s[i])
  {
    if s == [] then None
    else if p(s[0]) then Some(0)
    else
      match FindIndex(s[1..], p)
      case None => None
      case Some(i) => Some(i + 1)
  }

  /** `filter`: the elements satisfying p, in their original order. */
  function Filter<T>(s: seq<T>, p: T -> bool): (r: seq<T>)
    ensures |r| <= |s|
    ensures forall i | 0 <= i < |r| :: p(r[i])
    ensures forall x | x in r :: x in s
    ensures forall x | x in s && p(x) :: x in r
  {
    if s == [] then []
    else (if p(s[0]) then [s[0]] else []) + Filter(s[1..], p)
  }

  /** Filtering distributes over concatenation, so it keeps the relative order. */
  lemma {:induction false} FilterAppend<T>(a: seq<T>, b: seq<T>, p: T -> bool)
    ensures Filter(a + b, p) == Filter(a, p) + Filter(b, p)
  {
    if a == [] {
      assert a + b == b;
    } else {
      assert (a + b)[0] == a[0];
      assert (a + b)[1..] == a[1..] + b;
      FilterAppend(a[1..], b, p);
    }
  }

  /** Filtering with a predicate every element satisfies keeps everything. */
  lemma {:induction false} FilterAll<T>(s: seq<T>, p: T -> bool)
    requires forall i | 0 <= i < |s| :: p(s[i])
    ensures Filter(s, p) == s
  {
    if s != [] {
      FilterAll(s[1..], p);
    }
  }

  /** Filtering with a predicate no element satisfies keeps nothing. */
  lemma {:induction false} FilterNone<T>(s: seq<T>, p: T -> bool)
    requires forall i | 0 <= i < |s| :: !p(s[i])
    ensures Filter(s, p) == []
  {
    if s != [] {
      FilterNone(s[1..], p);
    }
  }

  /** Filtering out an element that fails the predicate leaves a shorter list. */
  lemma {:induction false} FilterDrops<T>(s: seq<T>, p: T -> bool, i: nat)
    requires i < |s| && !p(s[i])
    ensures |Filter(s, p)| < |s|
  {
    if i > 0 {
      FilterDrops(s[1..], p, i - 1);
    }
  }

  /**
   * The position splice starts at for a relative index k on an array of
   * length n: negative values count from the end, and the result is
   * clamped to [0, n].
   */
  function RelativeIndex(k: int, n: nat): (i: nat)
    ensures i <= n
    ensures 0 <= k <= n ==> i == k
    ensures k < 0 && n + k >= 0 ==> i == n + k
    ensures n + k < 0 ==> i == 0
    ensures k > n ==> i == n
  {
    if k < 0 then (if n + k < 0 then 0 else n + k)
    else if k > n then n
    else k
  }

  /** What `a.splice(start, deleteCount, ...ins)` leaves in `a`, and what it returns. */
  datatype Spliced<T> = Spliced(result: seq<T>, removed: seq<T>)

  /**
   * `splice`: removes up to deleteCount elements from the relative start
   * and inserts `ins` there. No element is lost or invented: what remains
   * plus what is returned is what was there plus what was inserted.
   */
  function Splice<T>(s: seq<T>, start: int, deleteCount: int, ins: seq<T>): (r: Spliced<T>)
    ensures |r.removed| <= |s| && |r.result| == |s| - |r.removed| + |ins|
    ensures multiset(r.result) + multiset(r.removed) == multiset(s) + multiset(ins)
    ensures 0 <= start < |s| && deleteCount >= 1 ==> |r.removed| >= 1 && r.removed[0] == s[start]
    ensures deleteCount <= 0 ==> r.removed == []
  {
    var a := RelativeIndex(start, |s|);
    var d := if deleteCount < 0 then 0 else if deleteCount > |s| - a then |s| - a else deleteCount;
    SpliceParts(s, a, d, ins);
    Spliced(s[..a] + ins + s[a + d..], s[a..a + d])
  }

  lemma SpliceParts<T>(s: seq<T>, a: nat, d: nat, ins: seq<T>)
    requires a + d <= |s|
    ensures multiset(s[..a] + ins + s[a + d..]) + multiset(s[a..a + d]) == multiset(s) + multiset(ins)
  {
    var before, gone, after := s[..a], s[a..a + d], s[a + d..];
    assert s == before + gone + after;
    assert multiset(s) == multiset(before) + multiset(gone) + multiset(after);
  }

  /** What splice(k, 1) removes and leaves, for a start inside the list. */
  lemma SpliceRemove<T>(s: seq<T>, k: int)
    requires -|s| <= k < |s|
    ensures var a := RelativeIndex(k, |s|);
      a < |s| && Splice(s, k, 1, []) == Spliced(s[..a] + s[a + 1..], [s[a]])
  {
    var a := RelativeIndex(k, |s|);
    assert s[..a] + [] + s[a + 1..] == s[..a] + s[a + 1..];
    assert s[a..a + 1] == [s[a]];
  }

  /** splice(k, 1) removes one element unless the list is empty or k is at or past its end. */
  lemma SpliceTakesOne<T>(s: seq<T>, k: int)
    ensures |Splice(s, k, 1, []).removed| == if s != [] && k < |s| then 1 else 0
    ensures !(s != [] && k < |s|) ==> Splice(s, k, 1, []) == Spliced(s, [])
  {
    if !(s != [] && k < |s|) {
      var a := RelativeIndex(k, |s|);
      assert a == |s|;
      assert s[..a] + [] + s[a..] == s;
    }
  }

  /**
   * `[moved] = s.splice(from, 1); s.splice(to, 0, moved)`, with `moved`
   * standing for `undefined` when nothing was removed: the list keeps its
   * elements, and gains the `undefined` when nothing was removed.
   */
  lemma SpliceMoveCounts<T>(s: seq<T>, from: int, to: int, undefined: T)
    ensures var taken := Splice(s, from, 1, []);
      var moved := if taken.removed == [] then undefined else taken.removed[0];
      var r := Splice(taken.result, to, 0, [moved]).result;
      && (s != [] && from < |s| ==> |r| == |s| && multiset(r) == multiset(s))
      && (!(s != [] && from < |s|) ==> |r| == |s| + 1 && multiset(r) == multiset(s) + multiset{undefined})
  {
    var taken := Splice(s, from, 1, []);
    SpliceTakesOne(s, from);
    var moved := if taken.removed == [] then undefined else taken.removed[0];
    var put := Splice(taken.result, to, 0, [moved]);
    assert multiset(put.result) == multiset(taken.result) + multiset{moved} by {
      assert multiset(put.removed) == multiset{};
      assert multiset([moved]) == multiset{moved};
    }
    if s != [] && from < |s| {
      assert taken.removed == [moved];
      assert multiset(taken.result) + multiset{moved} == multiset(s);
    } else {
      assert taken.result == s && moved == undefined;
    }
  }

  /** splice(k, 1) from the end of the list removes nothing. */
  lemma SpliceRemovePast<T>(s: seq<T>, k: int)
    requires k >= |s|
    ensures Splice(s, k, 1, []) == Spliced(s, [])
  {
    assert s[..|s|] + [] + s[|s|..] == s;
  }

  /** splice(k, 0, x) puts x at the relative position k. */
  lemma SpliceInsert<T>(s: seq<T>, k: int, x: T)
    ensures var b := RelativeIndex(k, |s|);
      Splice(s, k, 0, [x]).result == s[..b] + [x] + s[b..]
  {
  }
}

=== FILE: js_text.dfy ===
/**
 * String.prototype.trim, which every form handler of the mini-program uses
 * to reject blank names.
 */
module JsText {

  /**
   * ECMAScript WhiteSpace and LineTerminator code points: the characters
   * trim removes (the ideographic space U+3000 among them).
   */
  predicate IsWhitespace(c: char)
  {
    c == '\t' || c == '\n' || c == '\U{000B}' || c == '\U{000C}' || c == '\r' || c == ' '
    || c == '\U{00A0}' || c == '\U{1680}' || ('\U{2000}' <= c <= '\U{200A}')
    || c == '\U{2028}' || c == '\U{2029}' || c == '\U{202F}' || c == '\U{205F}'
    || c == '\U{3000}' || c == '\U{FEFF}'
  }

  /** A code point that UTF-16 writes as a surrogate pair. */
  predicate Astral(c: char)
  {
    c > '\U{FFFF}'
  }

  /**
   * `s.length`: the number of UTF-16 code units, one per code point of the
   * Basic Multilingual Plane and two per code point above it.
   */
  function Utf16Length(s: string): (n: nat)
    ensures |s| <= n <= 2 * |s|
    ensures n == |s| <==> forall i | 0 <= i < |s| :: !Astral(s[i])
    ensures n == 2 * |s| <==> forall i | 0 <= i < |s| :: Astral(s[i])
  {
    if s == [] then 0
    else
      var init := s[..|s| - 1];
      assert forall i | 0 <= i < |init| :: init[i] == s[i];
      Utf16Length(init) + (if Astral(s[|s| - 1]) then 2 else 1)
  }

  /** The length of a concatenation is the sum of the lengths. */
  lemma {:induction false} Utf16LengthAppend(a: string, b: string)
    ensures Utf16Length(a + b) == Utf16Length(a) + Utf16Length(b)
    decreases |b|
  {
    if b != [] {
      var b' := b[..|b| - 1];
      assert (a + b)[..|a + b| - 1] == a + b';
      assert (a + b)[|a + b| - 1] == b[|b| - 1];
      Utf16LengthAppend(a, b');
    } else {
      assert a + b == a;
    }
  }

  /** An emoji such as U+1F355 counts two. */
  lemma Utf16LengthOfEmoji()
    ensures Utf16Length("\U{1F355}") == 2 && |"\U{1F355}"| == 1
  {
  }

  predicate AllWhitespace(s: string)
  {
    forall i | 0 <= i < |s| :: IsWhitespace(s[i])
  }

  /** The first position at or after i that holds no whitespace (|s| if none). */
  function SkipLeading(s: string, i: nat): (r: nat)
    requires i <= |s|
    ensures i <= r <= |s|
    ensures forall j | i <= j < r :: IsWhitespace(s[j])
    ensures r < |s| ==> !IsWhitespace(s[r])
    decreases |s| - i
  {
    if i < |s| && IsWhitespace(s[i]) then SkipLeading(s, i + 1) else i
  }

  /** The end of s[lo..j] once its trailing whitespace is dropped. */
  function SkipTrailing(s: string, lo: nat, j: nat): (r: nat)
    requires lo <= j <= |s|
    ensures lo <= r <= j
    ensures forall m | r <= m < j :: IsWhitespace(s[m])
    ensures r > lo ==> !IsWhitespace(s[r - 1])
    decreases j
  {
    if j > lo && IsWhitespace(s[j - 1]) then SkipTrailing(s, lo, j - 1) else j
  }

  /**
   * `s.trim()`: the part of s after its leading whitespace and before its
   * trailing whitespace, which neither starts nor ends with whitespace.
   */
  function Trim(s: string): (r: string)
    ensures var a := SkipLeading(s, 0);
      && a + |r| <= |s| && r == s[a..a + |r|]
      && (forall j | 0 <= j < a :: IsWhitespace(s[j]))
      && (forall j | a + |r| <= j < |s| :: IsWhitespace(s[j]))
    ensures r == [] || (!IsWhitespace(r[0]) && !IsWhitespace(r[|r| - 1]))
  {
    var a := SkipLeading(s, 0);
    s[a..SkipTrailing(s, a, |s|)]
  }

  /** `!s.trim()` holds exactly for strings made only of whitespace. */
  lemma TrimBlank(s: string)
    ensures Trim(s) == "" <==> AllWhitespace(s)
  {
    var a := SkipLeading(s, 0);
    if a < |s| {
      assert !IsWhitespace(s[a]);
      assert SkipTrailing(s, a, |s|) > a;
    }
  }

  /** Trimming twice is trimming once. */
  lemma TrimIdempotent(s: string)
    ensures Trim(Trim(s)) == Trim(s)
  {
  }

  /** A non-blank input trims to a non-empty text that is already trimmed. */
  lemma TrimNonBlank(s: string)
    requires !AllWhitespace(s)
    ensures Trim(s) != "" && Trim(Trim(s)) == Trim(s)
  {
    TrimBlank(s);
    TrimIdempotent(s);
  }

  /** `!s.trim()`: the mini-program forms' test for a blank input. */
  method Blank(s: string) returns (b: bool)
    ensures b <==> AllWhitespace(s)
  {
    TrimBlank(s);
    b := Trim(s) == "";
  }
}

=== FILE: js_values.dfy ===
/**
 * Loosely typed JavaScript values, as they reach the import endpoint, the
 * mini-program's JSON import and the generic helpers of common.js.
 *
 * Numbers are integers: every numeric field the model reads (item order, set
 * version, counters) is an integer column or counter. Objects keep their own
 * properties in enumeration order; inherited properties do not exist here.
 */
module JsValues {
  import opened Wrappers

  datatype JsValue =
    | Undefined
    | Null
    | Bool(b: bool)
    | Num(n: int)
    | Str(s: string)
    | Arr(elems: seq<JsValue>)
    | Obj(props: seq<Prop>)
    | Date(time: int)

  /** One own enumerable property of an object. */
  datatype Prop = Prop(key: string, value: JsValue)

  /** JavaScript truthiness: `undefined`, `null`, `false`, `0` and `''` are falsy. */
  predicate Truthy(v: JsValue)
  {
    match v
    case Undefined => false
    case Null => false
    case Bool(b) => b
    case Num(n) => n != 0
    case Str(s) => s != ""
    case _ => true
  }

  /** The `typeof` operator. */
  function TypeOf(v: JsValue): (t: string)
    ensures t in {"undefined", "object", "boolean", "number", "string"}
    ensures t == "object" <==> v.Null? || v.Arr? || v.Obj? || v.Date?
  {
    match v
    case Undefined => "undefined"
    case Null => "object"
    case Bool(_) => "boolean"
    case Num(_) => "number"
    case Str(_) => "string"
    case Arr(_) => "object"
    case Obj(_) => "object"
    case Date(_) => "object"
  }

  /** `Array.isArray`. */
  predicate IsArray(v: JsValue)
  {
    v.Arr?
  }

  /** The value of the first own property named `key`, or None. */
  function Lookup(props: seq<Prop>, key: string): (r: Option<JsValue>)
    ensures r.Some? <==> exists i :: 0 <= i < |props| && props[i].key == key
    ensures r.Some? ==> exists i ::
      && 0 <= i < |props|
      && props[i].key == key && props[i].value == r.value
      && forall j | 0 <= j < i :: props[j].key != key
  {
    if props == [] then None
    else if props[0].key == key then Some(props[0].value)
    else Lookup(props[1..], key)
  }

  /**
   * Property access `v[key]` (and `v?.[key]`) for the data keys the model
   * reads: an object's own property, `undefined` for everything else.
   * The caller decides separately whether `v` is null or undefined, where
   * plain access would throw.
   */
  function Get(v: JsValue, key: string): (r: JsValue)
    ensures !v.Obj? ==> r == Undefined
    ensures v.Obj? && r != Undefined ==> exists i :: 0 <= i < |v.props| && v.props[i] == Prop(key, r)
    ensures v.Obj? && Lookup(v.props, key).Some? ==> r == Lookup(v.props, key).value
    ensures v.Obj? && Lookup(v.props, key).None? ==> r == Undefined
    ensures Plain(v) ==> Plain(r)
  {
    if v.Obj? then
      match Lookup(v.props, key)
      case Some(x) => x
      case None => Undefined
    else Undefined
  }

  /** True when the value holds no Date anywhere, as every parsed JSON value. */
  predicate Plain(v: JsValue)
  {
    match v
    case Date(_) => false
    case Arr(elems) => forall i | 0 <= i < |elems| :: Plain(elems[i])
    case Obj(props) => forall i | 0 <= i < |props| :: Plain(props[i].value)
    case _ => true
  }

  /** A text made only of decimal digits. */
  predicate Digits(s: string)
  {
    forall i | 0 <= i < |s| :: '0' <= s[i] <= '9'
  }

  /** The number decimal digits denote, most significant first. */
  function DigitsValue(s: string): nat
    requires Digits(s)
  {
    if s == [] then 0 else DigitsValue(s[..|s| - 1]) * 10 + (s[|s| - 1] as int - '0' as int)
  }

  /** Decimal digits of a natural number, most significant first, without leading zeros. */
  function NatToString(n: nat): (s: string)
    ensures |s| > 0 && Digits(s)
    ensures DigitsValue(s) == n
    ensures s[0] == '0' ==> s == "0"
    decreases n
  {
    var d := [['0', '1', '2', '3', '4', '5', '6', '7', '8', '9'][n % 10]];
    if n < 10 then d
    else
      var hi := NatToString(n / 10);
      assert (hi + d)[..|hi + d| - 1] == hi;
      hi + d
  }

  /** Different numbers print differently. */
  lemma NatToStringInjective(a: nat, b: nat)
    requires NatToString(a) == NatToString(b)
    ensures a == b
  {
  }

  /** `String(n)` for an integer: a minus sign for a negative number, then the digits of its magnitude. */
  function IntToString(n: int): (s: string)
    ensures |s| > 0
    ensures n < 0 <==> s[0] == '-'
    ensures n < 0 ==> |s| > 1 && Digits(s[1..]) && DigitsValue(s[1..]) == -n && s[1] != '0'
    ensures n >= 0 ==> Digits(s) && DigitsValue(s) == n && (s[0] == '0' ==> s == "0")
    ensures n >= 0 ==> s == NatToString(n)
    ensures n < 0 ==> s[1..] == NatToString(-n)
  {
    if n < 0 then
      var m := NatToString(-n);
      assert ("-" + m)[1..] == m;
      "-" + m
    else NatToString(n)
  }

  /** Different integers print differently. */
  lemma {:induction false} IntToStringInjective(a: int, b: int)
    requires IntToString(a) == IntToString(b)
    ensures a == b
  {
    var s := IntToString(a);
    if a < 0 {
      assert DigitsValue(s[1..]) == -a == -b;
    } else {
      assert DigitsValue(s) == a == b;
    }
  }

  /** `Array.prototype.join(',')`: `null` and `undefined` elements print empty. */
  function Join(elems: seq<JsValue>): string
    requires forall i | 0 <= i < |elems| :: Plain(elems[i])
    decreases elems, 0
  {
    if elems == [] then ""
    else
      var first := if elems[0].Undefined? || elems[0].Null? then "" else ToJsString(elems[0]);
      if |elems| == 1 then first else first + "," + Join(elems[1..])
  }

  /** The `String(v)` conversion of a value holding no Date. */
  function ToJsString(v: JsValue): string
    requires Plain(v)
    decreases v, 1
  {
    match v
    case Undefined => "undefined"
    case Null => "null"
    case Bool(b) => if b then "true" else "false"
    case Num(n) => IntToString(n)
    case Str(s) => s
    case Arr(elems) => Join(elems)
    case Obj(_) => "[object Object]"
  }
}

=== FILE: management_page.dfy ===
/**
 * The mini-program's management page (miniProgram/pages/management/
 * management.js): the list of wheel sets, the selected set, and the two
 * modal forms that create or edit a set and an item. Every change is
 * written back to the app's globalData and saved to storage.
 *
 * A handler that throws a TypeError in the source (reading a property of
 * undefined) stops before it has changed anything; the model leaves the
 * state unchanged in those cases. generateId() and the ISO timestamp are
 * parameters; toasts and modals are left out, a modal's answer is the
 * `confirmed` parameter.
 */
module Management {
  import opened Wrappers
  import opened JsArrays
  import opened JsText
  import opened MiniData
  import CommonUtils

  /** The page's colour choices: the same twelve colours as getRandomColor's palette. */
  const COLOR_OPTIONS: seq<string> := CommonUtils.PALETTE

  datatype ItemForm = ItemForm(name: string, description: string, color: string)

  /** The item form as it is reset: empty name and description, the first colour. */
  function EmptyItemForm(): (f: ItemForm)
    ensures f.name == "" && f.description == "" && f.color in COLOR_OPTIONS
  {
    ItemForm("", "", COLOR_OPTIONS[0])
  }

  /** `v || d` for an optional string: a missing or empty string gives d. */
  function OrElse(v: Option<string>, d: string): (r: string)
    ensures v.Some? && v.value != "" ==> r == v.value
    ensures v.None? || v.value == "" ==> r == d
  {
    if v.Some? && v.value != "" then v.value else d
  }

  /**
   * The set list after saveSet with the trimmed name: in edit mode the
   * first set with the edited id is renamed, otherwise a new empty set is
   * appended.
   */
  function SavedSets(sets: seq<MiniSet>, editing: Option<MiniSet>, name: string, newId: string, now: string): (r: seq<MiniSet>)
    ensures editing.Some? ==> |r| == |sets|
    ensures editing.Some? ==> forall j | 0 <= j < |sets| ::
      r[j].id == sets[j].id && r[j].items == sets[j].items && r[j].createdAt == sets[j].createdAt
    ensures editing.Some? ==> forall j | 0 <= j < |sets| && sets[j].id != editing.value.id :: r[j] == sets[j]
    ensures editing.Some? && (forall j | 0 <= j < |sets| :: sets[j].id != editing.value.id) ==> r == sets
    ensures editing.Some? && (exists j | 0 <= j < |sets| :: sets[j].id == editing.value.id) ==>
      exists k | 0 <= k < |sets| ::
        && sets[k].id == editing.value.id && (forall m | 0 <= m < k :: sets[m].id != editing.value.id)
        && r[k] == sets[k].(name := name, updatedAt := Some(now))
        && forall j | 0 <= j < |sets| && j != k :: r[j] == sets[j]
    ensures editing.None? ==> |r| == |sets| + 1 && r[..|sets|] == sets
    ensures editing.None? ==> r[|sets|] == MiniSet(newId, name, Some([]), Some(now), Some(now))
  {
    if editing.Some? then
      match FindSet(sets, Some(editing.value.id))
      case None => sets
      case Some(k) => sets[k := sets[k].(name := name, updatedAt := Some(now))]
    else
      sets + [MiniSet(newId, name, Some([]), Some(now), Some(now))]
  }

  /**
   * The item list after saveItem with the trimmed name and description: in
   * edit mode the first item with the edited id takes the form's values
   * and keeps its id and creation time, otherwise a new item is appended.
   */
  function SavedItems(items: seq<MiniItem>, editing: Option<MiniItem>, form: ItemForm, newId: string, now: string): (r: seq<MiniItem>)
    ensures editing.Some? ==> |r| == |items|
    ensures editing.Some? ==> forall j | 0 <= j < |items| ::
      r[j].id == items[j].id && r[j].createdAt == items[j].createdAt
    ensures editing.Some? ==> forall j | 0 <= j < |items| && items[j].id != editing.value.id :: r[j] == items[j]
    ensures editing.Some? && (forall j | 0 <= j < |items| :: items[j].id != editing.value.id) ==> r == items
    ensures editing.Some? && (exists j | 0 <= j < |items| :: items[j].id == editing.value.id) ==>
      exists k | 0 <= k < |items| ::
        && items[k].id == editing.value.id && (forall m | 0 <= m < k :: items[m].id != editing.value.id)
        && r[k] == items[k].(name := Trim(form.name), description := Some(Trim(form.description)),
                             color := Some(form.color), updatedAt := Some(now))
        && forall j | 0 <= j < |items| && j != k :: r[j] == items[j]
    ensures editing.None? ==> |r| == |items| + 1 && r[..|items|] == items
    ensures editing.None? ==>
      r[|items|] == MiniItem(newId, Trim(form.name), Some(Trim(form.description)), Some(form.color), Some(now), Some(now))
  {
    if editing.Some? then
      match FindItem(items, editing.value.id)
      case None => items
      case Some(i) =>
        items[i := items[i].(name := Trim(form.name), description := Some(Trim(form.description)),
                             color := Some(form.color), updatedAt := Some(now))]
    else
      items + [MiniItem(newId, Trim(form.name), Some(Trim(form.description)), Some(form.color), Some(now), Some(now))]
  }

  /** The page's `data`, which every handler changes through setData. */
  datatype PageData = PageData(
    wheelSets: seq<MiniSet>,
    currentSetId: Option<string>,
    currentSet: Option<MiniSet>,
    showSetModal: bool,
    editingSet: Option<MiniSet>,
    setFormName: string,
    showItemModal: bool,
    editingItem: Option<MiniItem>,
    itemForm: ItemForm)
  {
    /** The page's current set is one of its sets and carries the current id. */
    predicate Consistent()
    {
      currentSet.Some? ==> currentSet.value in wheelSets && currentSetId == Some(currentSet.value.id)
    }
  }

  /** The data the page starts with. */
  function InitialData(): (d: PageData)
    ensures d.wheelSets == [] && d.currentSet.None? && d.Consistent()
    ensures !d.showSetModal && !d.showItemModal && d.itemForm == EmptyItemForm()
  {
    PageData([], None, None, false, None, "", false, None, EmptyItemForm())
  }

  /**
   * The page data after saveSet accepts the form's name: the set list
   * becomes SavedSets with the trimmed name; a set created into an empty
   * list becomes current; the form closes; and a truthy current id is
   * looked up again in the new list. A consistent page stays consistent
   * unless a set was edited while the current id is "" (the source then
   * relies on the edited object being shared).
   */
  function SaveSetData(d: PageData, newId: string, now: string): (r: PageData)
    ensures r.wheelSets == SavedSets(d.wheelSets, d.editingSet, Trim(d.setFormName), newId, now)
    ensures r.currentSetId == if d.editingSet.None? && d.wheelSets == [] then Some(newId) else d.currentSetId
    ensures IdPresent(r.currentSetId) ==>
      r.currentSet == match FindSet(r.wheelSets, r.currentSetId) case Some(k) => Some(r.wheelSets[k]) case None => None
    ensures !IdPresent(r.currentSetId) && d.editingSet.None? && d.wheelSets == [] ==> r.currentSet == Some(r.wheelSets[0])
    ensures !IdPresent(r.currentSetId) && !(d.editingSet.None? && d.wheelSets == []) ==> r.currentSet == d.currentSet
    ensures d.Consistent() && (IdPresent(r.currentSetId) || d.editingSet.None?) ==> r.Consistent()
    ensures r == d.(wheelSets := r.wheelSets, currentSetId := r.currentSetId, currentSet := r.currentSet,
                    showSetModal := false, editingSet := None, setFormName := "")
  {
    var ws := SavedSets(d.wheelSets, d.editingSet, Trim(d.setFormName), newId, now);
    var created := d.editingSet.None? && d.wheelSets == [];
    var id := if created then Some(newId) else d.currentSetId;
    var cur :=
      if IdPresent(id) then (match FindSet(ws, id) case Some(k) => Some(ws[k]) case None => None)
      else if created then Some(ws[0])
      else d.currentSet;
    assert d.editingSet.None? && d.currentSet.Some? && d.currentSet.value in d.wheelSets ==> d.currentSet.value in ws by {
      if d.editingSet.None? {
        assert ws[..|d.wheelSets|] == d.wheelSets;
      }
    }
    d.(wheelSets := ws, currentSetId := id, currentSet := cur,
       showSetModal := false, editingSet := None, setFormName := "")
  }

  /**
   * A set created by saveSet is appended with the new id and a name that
   * is neither blank nor padded: trimming it again changes nothing.
   */
  lemma CreatedSetNamed(d: PageData, newId: string, now: string)
    requires !AllWhitespace(d.setFormName) && d.editingSet.None?
    ensures var ws := SaveSetData(d, newId, now).wheelSets;
      |ws| == |d.wheelSets| + 1 && ws[|d.wheelSets|].id == newId
      && ws[|d.wheelSets|].name != "" && Trim(ws[|d.wheelSets|].name) == ws[|d.wheelSets|].name
  {
    TrimBlank(d.setFormName);
    TrimIdempotent(d.setFormName);
  }

  class ManagementPage {
    const app: AppData
    var data: PageData

    constructor(app: AppData)
      ensures this.app == app && data == InitialData()
    {
      this.app := app;
      data := InitialData();
    }

    /**
     * loadData (run by onLoad and onShow): the page takes the app's sets;
     * the current set is the one with the app's current id when that id is
     * truthy and found, and otherwise the first set, whose id then becomes
     * the app's current id. The page then agrees with the app's current
     * set, and has one exactly when there are sets.
     */
    method LoadData()
      modifies this, app
      ensures data.wheelSets == app.wheelSets == old(app.wheelSets)
      ensures data.currentSet.Some? <==> data.wheelSets != []
      ensures data.currentSet == app.CurrentWheelSet()
      ensures data.Consistent()
      ensures data == old(data).(wheelSets := data.wheelSets, currentSet := data.currentSet,
        currentSetId := if data.currentSet.Some? then Some(data.currentSet.value.id) else None)
      ensures app.currentWheelSetId ==
        if data.wheelSets == [] || (IdPresent(old(app.currentWheelSetId)) && FindSet(data.wheelSets, old(app.currentWheelSetId)).Some?)
        then old(app.currentWheelSetId) else Some(data.wheelSets[0].id)
      ensures app.storedSets == old(app.storedSets) && app.storedCurrentId == old(app.storedCurrentId)
      ensures app.Rest() == old(app.Rest())
    {
      var ws := app.wheelSets;
      var cur: Option<MiniSet> := None;
      if IdPresent(app.currentWheelSetId) {
        var k := FindSet(ws, app.currentWheelSetId);
        if k.Some? {
          cur := Some(ws[k.value]);
        }
      }
      if cur.None? && |ws| > 0 {
        cur := Some(ws[0]);
        app.currentWheelSetId := Some(ws[0].id);
      }
      data := data.(wheelSets := ws, currentSetId := if cur.Some? then Some(cur.value.id) else None, currentSet := cur);
    }

    /**
     * selectSet: the tapped id becomes current on the page and in the app,
     * which is saved; the page shows the set at the tapped index. When the
     * index holds the set with that id, the page stays consistent.
     */
    method SelectSet(id: string, index: int)
      modifies this, app
      ensures data == old(data).(currentSetId := Some(id),
        currentSet := if 0 <= index < |old(data).wheelSets| then Some(old(data).wheelSets[index]) else None)
      ensures 0 <= index < |data.wheelSets| && data.wheelSets[index].id == id ==> data.Consistent()
      ensures app.wheelSets == old(app.wheelSets) && app.currentWheelSetId == Some(id)
      ensures app.storedSets == Some(app.wheelSets) && app.storedCurrentId == Some(id)
      ensures app.Rest() == old(app.Rest())
    {
      var ws := data.wheelSets;
      data := data.(currentSetId := Some(id), currentSet := if 0 <= index < |ws| then Some(ws[index]) else None);
      app.currentWheelSetId := Some(id);
      app.SaveLocalData();
    }

    /** showAddSetModal: the set form opens empty, in create mode. */
    method ShowAddSetModal()
      modifies this
      ensures data == old(data).(showSetModal := true, editingSet := None, setFormName := "")
    {
      data := data.(showSetModal := true, editingSet := None, setFormName := "");
    }

    /** editSet: the set form opens on the set at the index, holding its name; a bad index throws and changes nothing. */
    method EditSet(index: int)
      modifies this
      ensures !(0 <= index < |old(data).wheelSets|) ==> data == old(data)
      ensures 0 <= index < |old(data).wheelSets| ==>
        var s := old(data).wheelSets[index];
        data == old(data).(showSetModal := true, editingSet := Some(s), setFormName := s.name)
    {
      if 0 <= index < |data.wheelSets| {
        var s := data.wheelSets[index];
        data := data.(showSetModal := true, editingSet := Some(s), setFormName := s.name);
      }
    }

    /** hideSetModal: the set form closes and is cleared. */
    method HideSetModal()
      modifies this
      ensures data == old(data).(showSetModal := false, editingSet := None, setFormName := "")
    {
      data := data.(showSetModal := false, editingSet := None, setFormName := "");
    }

    /** onSetNameInput: the typed text becomes the form's name. */
    method OnSetNameInput(value: string)
      modifies this
      ensures data == old(data).(setFormName := value)
    {
      data := data.(setFormName := value);
    }

    /**
     * deleteSet, once confirmed: the set at the index is removed; if the
     * tapped id was the current one, the first remaining set (or none)
     * becomes current. The app takes the page's list and current id and is
     * saved. An index past the list throws and nothing changes. When the
     * tapped id is that set's own id, a consistent page stays consistent.
     */
    method DeleteSet(id: string, index: int, confirmed: bool)
      modifies this, app
      ensures !(0 <= index < |old(data).wheelSets| && confirmed) ==> data == old(data) && unchanged(app)
      ensures 0 <= index < |old(data).wheelSets| && confirmed ==>
        var ws := old(data).wheelSets[..index] + old(data).wheelSets[index + 1..];
        var replaced := old(data).currentSetId == Some(id);
        && data == old(data).(wheelSets := ws,
             currentSetId := if !replaced then old(data).currentSetId else if ws == [] then None else Some(ws[0].id),
             currentSet := if !replaced then old(data).currentSet else if ws == [] then None else Some(ws[0]))
        && app.wheelSets == ws && app.currentWheelSetId == data.currentSetId
        && app.storedSets == Some(ws) && app.storedCurrentId == data.currentSetId
      ensures 0 <= index < |old(data).wheelSets| && confirmed && old(data).Consistent() && id == old(data).wheelSets[index].id ==>
        data.Consistent()
      ensures app.Rest() == old(app.Rest())
    {
      var d := data;
      if !(0 <= index < |d.wheelSets| && confirmed) {
        return;
      }
      var ws := d.wheelSets[..index] + d.wheelSets[index + 1..];
      var newId := d.currentSetId;
      var newSet := d.currentSet;
      if Some(id) == d.currentSetId {
        if |ws| > 0 {
          newId := Some(ws[0].id);
          newSet := Some(ws[0]);
        } else {
          newId := None;
          newSet := None;
        }
      } else if d.Consistent() && d.currentSet.Some? && id == d.wheelSets[index].id {
        var j :| 0 <= j < |d.wheelSets| && d.wheelSets[j] == d.currentSet.value;
        assert j != index;
        if j < index {
          assert ws[j] == d.wheelSets[j];
        } else {
          assert ws[j - 1] == d.wheelSets[j];
        }
      }
      data := d.(wheelSets := ws, currentSetId := newId, currentSet := newSet);
      app.wheelSets := ws;
      app.currentWheelSetId := newId;
      app.SaveLocalData();
    }

    /**
     * saveSet: a name of only whitespace is refused and nothing changes.
     * Otherwise the page data becomes SaveSetData; a set created into an
     * empty list becomes current in the app as well. The app takes the
     * list and is saved.
     */
    method SaveSet(newId: string, now: string)
      modifies this, app
      ensures AllWhitespace(old(data).setFormName) ==> data == old(data) && unchanged(app)
      ensures !AllWhitespace(old(data).setFormName) ==>
        && data == SaveSetData(old(data), newId, now)
        && app.currentWheelSetId ==
             (if old(data).editingSet.None? && old(data).wheelSets == [] then Some(newId) else old(app.currentWheelSetId))
        && app.wheelSets == data.wheelSets && app.storedSets == Some(data.wheelSets)
        && app.storedCurrentId == app.currentWheelSetId
      ensures app.Rest() == old(app.Rest())
    {
      var blank := Blank(data.setFormName);
      if blank {
        return;
      }
      if data.editingSet.None? && data.wheelSets == [] {
        app.currentWheelSetId := Some(newId);
      }
      data := SaveSetData(data, newId, now);
      app.wheelSets := data.wheelSets;
      app.SaveLocalData();
    }

    /** showAddItemModal: with a current set, the item form opens empty in create mode; without one nothing changes. */
    method ShowAddItemModal()
      modifies this
      ensures old(data).currentSet.None? ==> data == old(data)
      ensures old(data).currentSet.Some? ==>
        data == old(data).(showItemModal := true, editingItem := None, itemForm := EmptyItemForm())
    {
      if data.currentSet.Some? {
        data := data.(showItemModal := true, editingItem := None, itemForm := EmptyItemForm());
      }
    }

    /**
     * editItem: the item form opens on the current set's item at the index,
     * with its description or "" and its colour or the first colour. A
     * missing set, item list or item throws and changes nothing.
     */
    method EditItem(index: int)
      modifies this
      ensures var cs := old(data).currentSet;
        !(cs.Some? && cs.value.items.Some? && 0 <= index < |cs.value.items.value|) ==> data == old(data)
      ensures var cs := old(data).currentSet;
        cs.Some? && cs.value.items.Some? && 0 <= index < |cs.value.items.value| ==>
          var item := cs.value.items.value[index];
          data == old(data).(showItemModal := true, editingItem := Some(item),
            itemForm := ItemForm(item.name, OrElse(item.description, ""), OrElse(item.color, COLOR_OPTIONS[0])))
    {
      var cs := data.currentSet;
      if cs.Some? && cs.value.items.Some? && 0 <= index < |cs.value.items.value| {
        var item := cs.value.items.value[index];
        data := data.(showItemModal := true, editingItem := Some(item),
          itemForm := ItemForm(item.name, OrElse(item.description, ""), OrElse(item.color, COLOR_OPTIONS[0])));
      }
    }

    /** hideItemModal: the item form closes and is reset. */
    method HideItemModal()
      modifies this
      ensures data == old(data).(showItemModal := false, editingItem := None, itemForm := EmptyItemForm())
    {
      data := data.(showItemModal := false, editingItem := None, itemForm := EmptyItemForm());
    }

    /** onItemNameInput, onItemDescInput and selectColor: each field given takes the input. */
    method OnItemInput(name: Option<string>, description: Option<string>, color: Option<string>)
      modifies this
      ensures data == old(data).(itemForm := ItemForm(
        if name.Some? then name.value else old(data).itemForm.name,
        if description.Some? then description.value else old(data).itemForm.description,
        if color.Some? then color.value else old(data).itemForm.color))
    {
      var f := data.itemForm;
      if name.Some? {
        f := f.(name := name.value);
      }
      if description.Some? {
        f := f.(description := description.value);
      }
      if color.Some? {
        f := f.(color := color.value);
      }
      data := data.(itemForm := f);
    }

    /**
     * deleteItem, once confirmed: in the set carrying the current id, the
     * item at the index is spliced out and the set's time renewed; that set
     * becomes the page's current set and the app takes the list and is
     * saved. Without a current set, an item list or an item at the index
     * the handler throws before asking; a set without an item list throws
     * at the splice. Those, an unconfirmed dialog and an unknown current
     * id change nothing.
     */
    method DeleteItem(index: int, confirmed: bool, now: string)
      modifies this, app
      ensures var d := old(data);
        var k := FindSet(d.wheelSets, d.currentSetId);
        var go := d.currentSet.Some? && d.currentSet.value.items.Some? && 0 <= index < |d.currentSet.value.items.value|
          && confirmed && k.Some? && d.wheelSets[k.value].items.Some?;
        !go ==> data == d && unchanged(app)
      ensures var d := old(data);
        var k := FindSet(d.wheelSets, d.currentSetId);
        var go := d.currentSet.Some? && d.currentSet.value.items.Some? && 0 <= index < |d.currentSet.value.items.value|
          && confirmed && k.Some? && d.wheelSets[k.value].items.Some?;
        go ==>
          var s := d.wheelSets[k.value];
          var ws := d.wheelSets[k.value := s.(items := Some(Splice(s.items.value, index, 1, []).result), updatedAt := Some(now))];
          && data == d.(wheelSets := ws, currentSet := Some(ws[k.value]))
          && data.Consistent()
          && app.wheelSets == ws && app.currentWheelSetId == old(app.currentWheelSetId)
          && app.storedSets == Some(ws) && app.storedCurrentId == app.currentWheelSetId
      ensures app.Rest() == old(app.Rest())
    {
      var d := data;
      var cs := d.currentSet;
      if !(cs.Some? && cs.value.items.Some? && 0 <= index < |cs.value.items.value| && confirmed) {
        return;
      }
      var k := FindSet(d.wheelSets, d.currentSetId);
      if k.None? || d.wheelSets[k.value].items.None? {
        return;
      }
      var s := d.wheelSets[k.value];
      var ws := d.wheelSets[k.value := s.(items := Some(Splice(s.items.value, index, 1, []).result), updatedAt := Some(now))];
      data := d.(wheelSets := ws, currentSet := Some(ws[k.value]));
      app.wheelSets := ws;
      app.SaveLocalData();
    }

    /**
     * saveItem: a name of only whitespace is refused; so is a save with no
     * set carrying the current id, and a set without an item list throws.
     * Otherwise that set's items become SavedItems with the trimmed form,
     * its time is renewed, it becomes the page's current set, the form
     * closes and resets, and the app takes the list and is saved.
     */
    method SaveItem(newId: string, now: string)
      modifies this, app
      ensures var d := old(data);
        var k := FindSet(d.wheelSets, d.currentSetId);
        AllWhitespace(d.itemForm.name) || k.None? || d.wheelSets[k.value].items.None? ==>
          data == d && unchanged(app)
      ensures var d := old(data);
        var k := FindSet(d.wheelSets, d.currentSetId);
        !AllWhitespace(d.itemForm.name) && k.Some? && d.wheelSets[k.value].items.Some? ==>
          var s := d.wheelSets[k.value];
          var ws := d.wheelSets[k.value := s.(
            items := Some(SavedItems(s.items.value, d.editingItem, d.itemForm, newId, now)),
            updatedAt := Some(now))];
          && data == d.(wheelSets := ws, currentSet := Some(ws[k.value]),
               showItemModal := false, editingItem := None, itemForm := EmptyItemForm())
          && data.Consistent()
          && app.wheelSets == ws && app.currentWheelSetId == old(app.currentWheelSetId)
          && app.storedSets == Some(ws) && app.storedCurrentId == app.currentWheelSetId
      ensures app.Rest() == old(app.Rest())
    {
      var d := data;
      var blank := Blank(d.itemForm.name);
      if blank {
        return;
      }
      var k := FindSet(d.wheelSets, d.currentSetId);
      if k.None? || d.wheelSets[k.value].items.None? {
        return;
      }
      var s := d.wheelSets[k.value];
      var items := SavedItems(s.items.value, d.editingItem, d.itemForm, newId, now);
      var ws := d.wheelSets[k.value := s.(items := Some(items), updatedAt := Some(now))];
      data := d.(wheelSets := ws, currentSet := Some(ws[k.value]),
                 showItemModal := false, editingItem := None, itemForm := EmptyItemForm());
      app.wheelSets := ws;
      app.SaveLocalData();
    }
  }
}

=== FILE: mini_data.dfy ===
/**
 * The mini-program's data: wheel sets and their items as the pages keep
 * them, the app's globalData with the local-storage keys it is saved to
 * (miniProgram/app.js), the default data created on first launch, and the
 * JSON shape of a set as export writes it and import reads it.
 */
module MiniData {
  import opened Wrappers
  import opened JsValues
  import opened JsArrays
  import CommonUtils

  /** One option of a wheel. Fields the source may leave out are options. */
  datatype MiniItem = MiniItem(
    id: string,
    name: string,
    description: Option<string>,
    color: Option<string>,
    createdAt: Option<string>,
    updatedAt: Option<string>)

  /** A wheel set. `items` is None when the property is missing or null. */
  datatype MiniSet = MiniSet(
    id: string,
    name: string,
    items: Option<seq<MiniItem>>,
    createdAt: Option<string>,
    updatedAt: Option<string>)

  /** `set.items || []`. */
  function ItemsOf(s: MiniSet): (r: seq<MiniItem>)
    ensures s.items.Some? ==> r == s.items.value
    ensures s.items.None? ==> r == []
  {
    if s.items.Some? then s.items.value else []
  }

  /** A truthy id: present and not the empty string. */
  predicate IdPresent(id: Option<string>)
  {
    id.Some? && id.value != ""
  }

  /** `sets.findIndex(set => set.id === id)`; a null id matches nothing. */
  function FindSet(sets: seq<MiniSet>, id: Option<string>): (r: Option<nat>)
    ensures r.Some? ==> r.value < |sets| && id == Some(sets[r.value].id)
    ensures r.Some? ==> forall k | 0 <= k < r.value :: id != Some(sets[k].id)
    ensures r.None? <==> forall k | 0 <= k < |sets| :: id != Some(sets[k].id)
  {
    FindIndex(sets, (s: MiniSet) => id == Some(s.id))
  }

  /** `items.findIndex(item => item.id === id)`. */
  function FindItem(items: seq<MiniItem>, id: string): (r: Option<nat>)
    ensures r.Some? ==> r.value < |items| && items[r.value].id == id
    ensures r.Some? ==> forall k | 0 <= k < r.value :: items[k].id != id
    ensures r.None? <==> forall k | 0 <= k < |items| :: items[k].id != id
  {
    FindIndex(items, (it: MiniItem) => it.id == id)
  }

  /** The contents of the 'spin_statistics' storage key. */
  datatype SpinStats = SpinStats(total: int, today: int, lastDate: string)

  /** The set created when there is no data: six numbered options in the first six palette colours. */
  function DefaultSet(ids: seq<string>, now: string): (s: MiniSet)
    requires |ids| == 7
    ensures s.id == ids[0] && s.name == "默认转盘"
    ensures s.items.Some? && |s.items.value| == 6
    ensures forall k | 0 <= k < 6 ::
      (s.items.value[k].id == ids[k + 1] && s.items.value[k].color == Some(CommonUtils.PALETTE[k]))
  {
    var names := ["选项1", "选项2", "选项3", "选项4", "选项5", "选项6"];
    MiniSet(ids[0], "默认转盘",
      Some(seq(6, k requires 0 <= k < 6 =>
        MiniItem(ids[k + 1], names[k], None, Some(CommonUtils.PALETTE[k]), None, None))),
      Some(now), Some(now))
  }

  /** The six default options have six different names. */
  lemma DefaultNamesDistinct(ids: seq<string>, now: string)
    requires |ids| == 7
    ensures forall j, k | 0 <= j < k < 6 ::
      DefaultSet(ids, now).items.value[j].name != DefaultSet(ids, now).items.value[k].name
  {
    var items := DefaultSet(ids, now).items.value;
    forall j, k | 0 <= j < k < 6
      ensures items[j].name != items[k].name
    {
      assert items[j].name[2] != items[k].name[2];
    }
  }

  /**
   * app.globalData together with the storage keys the core reads and
   * writes. A removed key and a stored null are both None.
   */
  class AppData {
    var wheelSets: seq<MiniSet>
    var currentWheelSetId: Option<string>
    var isSpinning: bool
    var lastResult: Option<MiniItem>
    // storage: 'wheel_sets', 'current_wheel_set_id', 'spin_statistics', 'user_info'
    var storedSets: Option<seq<MiniSet>>
    var storedCurrentId: Option<string>
    var spinStatistics: Option<SpinStats>
    var storedUserInfo: Option<seq<Prop>>

    constructor(wheelSets: seq<MiniSet>, currentWheelSetId: Option<string>)
      ensures this.wheelSets == wheelSets && this.currentWheelSetId == currentWheelSetId
      ensures !isSpinning && lastResult.None?
      ensures storedSets.None? && storedCurrentId.None? && spinStatistics.None? && storedUserInfo.None?
    {
      this.wheelSets := wheelSets;
      this.currentWheelSetId := currentWheelSetId;
      isSpinning := false;
      lastResult := None;
      storedSets := None;
      storedCurrentId := None;
      spinStatistics := None;
      storedUserInfo := None;
    }

    /** saveLocalData: the sets and the current id are written to storage. */
    method SaveLocalData()
      modifies this
      ensures storedSets == Some(wheelSets) && storedCurrentId == currentWheelSetId
      ensures wheelSets == old(wheelSets) && currentWheelSetId == old(currentWheelSetId)
      ensures isSpinning == old(isSpinning) && lastResult == old(lastResult)
      ensures spinStatistics == old(spinStatistics) && storedUserInfo == old(storedUserInfo)
    {
      storedSets := Some(wheelSets);
      storedCurrentId := currentWheelSetId;
    }

    /**
     * createDefaultData: the default set becomes the only set and the
     * current one, and both are saved. `ids` are the seven generateId()
     * results in call order, `now` the timestamp.
     */
    method CreateDefaultData(ids: seq<string>, now: string)
      requires |ids| == 7
      modifies this
      ensures wheelSets == [DefaultSet(ids, now)] && currentWheelSetId == Some(ids[0])
      ensures storedSets == Some(wheelSets) && storedCurrentId == currentWheelSetId
      ensures isSpinning == old(isSpinning) && lastResult == old(lastResult)
      ensures spinStatistics == old(spinStatistics) && storedUserInfo == old(storedUserInfo)
    {
      wheelSets := [DefaultSet(ids, now)];
      currentWheelSetId := Some(ids[0]);
      SaveLocalData();
    }

    /** The parts of the app state the list pages never write: spin state, statistics and the profile. */
    function Rest(): (bool, Option<MiniItem>, Option<SpinStats>, Option<seq<Prop>>)
      reads this
    {
      (isSpinning, lastResult, spinStatistics, storedUserInfo)
    }

    /** Everything but the stored user info, which only the profile writes. */
    function AllButUser(): (seq<MiniSet>, Option<string>, Option<seq<MiniSet>>, Option<string>, bool, Option<MiniItem>, Option<SpinStats>)
      reads this
    {
      (wheelSets, currentWheelSetId, storedSets, storedCurrentId, isSpinning, lastResult, spinStatistics)
    }

    /** getCurrentWheelSet: the first set carrying the current id, or null. */
    function CurrentWheelSet(): (r: Option<MiniSet>)
      reads this
      ensures r.Some? ==> r.value in wheelSets && currentWheelSetId == Some(r.value.id)
      ensures r.None? <==> forall k | 0 <= k < |wheelSets| :: currentWheelSetId != Some(wheelSets[k].id)
      ensures r.Some? ==> exists k | 0 <= k < |wheelSets| ::
        && r.value == wheelSets[k] && currentWheelSetId == Some(wheelSets[k].id)
        && forall m | 0 <= m < k :: currentWheelSetId != Some(wheelSets[m].id)
    {
      match FindSet(wheelSets, currentWheelSetId)
      case Some(k) => Some(wheelSets[k])
      case None => None
    }
  }

  // ---- the JSON shape of sets (export writes it, import reads it) ----

  /** An optional string property: left out when absent, as JSON.stringify drops undefined. */
  function OptProp(key: string, v: Option<string>): seq<Prop>
  {
    if v.Some? then [Prop(key, Str(v.value))] else []
  }

  function EncodeItem(it: MiniItem): JsValue
  {
    Obj(Head(it.id, it.name)
      + OptProp("description", it.description) + OptProp("color", it.color)
      + OptProp("createdAt", it.createdAt) + OptProp("updatedAt", it.updatedAt))
  }

  function EncodeItems(items: seq<MiniItem>): (r: seq<JsValue>)
    ensures |r| == |items|
  {
    seq(|items|, i requires 0 <= i < |items| => EncodeItem(items[i]))
  }

  function EncodeSet(s: MiniSet): JsValue
  {
    Obj(Head(s.id, s.name)
      + (if s.items.Some? then [Prop("items", Arr(EncodeItems(s.items.value)))] else [])
      + OptProp("createdAt", s.createdAt) + OptProp("updatedAt", s.updatedAt))
  }

  function EncodeSets(sets: seq<MiniSet>): (r: seq<JsValue>)
    ensures |r| == |sets|
  {
    seq(|sets|, i requires 0 <= i < |sets| => EncodeSet(sets[i]))
  }

  /** A property that must be a string, or is absent (Some(None)); anything else does not fit (None). */
  function OptString(v: JsValue): Option<Option<string>>
  {
    match v
    case Undefined => Some(None)
    case Str(s) => Some(Some(s))
    case _ => None
  }

  /** An object with string id and name and optional string fields reads as an item. */
  function DecodeItem(v: JsValue): Option<MiniItem>
  {
    var id, name := Get(v, "id"), Get(v, "name");
    var d, c := OptString(Get(v, "description")), OptString(Get(v, "color"));
    var ca, ua := OptString(Get(v, "createdAt")), OptString(Get(v, "updatedAt"));
    if id.Str? && name.Str? && d.Some? && c.Some? && ca.Some? && ua.Some? then
      Some(MiniItem(id.s, name.s, d.value, c.value, ca.value, ua.value))
    else None
  }

  function DecodeItems(elems: seq<JsValue>): (r: Option<seq<MiniItem>>)
    ensures r.Some? ==> |r.value| == |elems|
  {
    if elems == [] then Some([])
    else
      match (DecodeItem(elems[0]), DecodeItems(elems[1..]))
      case (Some(it), Some(rest)) => Some([it] + rest)
      case _ => None
  }

  /** `items` may be missing or null (no list) or an array of items. */
  function DecodeItemList(v: JsValue): Option<Option<seq<MiniItem>>>
  {
    match v
    case Undefined => Some(None)
    case Null => Some(None)
    case Arr(elems) =>
      (match DecodeItems(elems)
       case Some(items) => Some(Some(items))
       case None => None)
    case _ => None
  }

  function DecodeSet(v: JsValue): Option<MiniSet>
  {
    var id, name, items := Get(v, "id"), Get(v, "name"), DecodeItemList(Get(v, "items"));
    var ca, ua := OptString(Get(v, "createdAt")), OptString(Get(v, "updatedAt"));
    if id.Str? && name.Str? && items.Some? && ca.Some? && ua.Some? then
      Some(MiniSet(id.s, name.s, items.value, ca.value, ua.value))
    else None
  }

  function DecodeSets(elems: seq<JsValue>): (r: Option<seq<MiniSet>>)
    ensures r.Some? ==> |r.value| == |elems|
  {
    if elems == [] then Some([])
    else
      match (DecodeSet(elems[0]), DecodeSets(elems[1..]))
      case (Some(s), Some(rest)) => Some([s] + rest)
      case _ => None
  }

  // ---- round trip ----

  /** No property of `props` is named `key`. */
  predicate NoKey(props: seq<Prop>, key: string)
  {
    forall i | 0 <= i < |props| :: props[i].key != key
  }

  lemma NoKeyAppend(a: seq<Prop>, b: seq<Prop>, key: string)
    requires NoKey(a, key) && NoKey(b, key)
    ensures NoKey(a + b, key)
  {
    assert forall i | 0 <= i < |a + b| :: (a + b)[i] == if i < |a| then a[i] else b[i - |a|];
  }

  lemma NoKeyOpt(k: string, v: Option<string>, key: string)
    requires k != key
    ensures NoKey(OptProp(k, v), key)
  {
  }

  lemma {:induction false} LookupSkip(a: seq<Prop>, b: seq<Prop>, key: string)
    requires NoKey(a, key)
    ensures Lookup(a + b, key) == Lookup(b, key)
  {
    if a != [] {
      assert (a + b)[0] == a[0] && a[0].key != key;
      assert (a + b)[1..] == a[1..] + b;
      assert NoKey(a[1..], key) by {
        assert forall i | 0 <= i < |a[1..]| :: a[1..][i] == a[i + 1];
      }
      LookupSkip(a[1..], b, key);
      assert Lookup(a + b, key) == Lookup((a + b)[1..], key);
    } else {
      assert a + b == b;
    }
  }

  lemma LookupNone(props: seq<Prop>, key: string)
    requires NoKey(props, key)
    ensures Lookup(props, key) == None
  {
  }

  /** Reading back an optional string property that was written with OptProp. */
  lemma ReadOpt(pre: seq<Prop>, key: string, v: Option<string>, post: seq<Prop>)
    requires NoKey(pre, key) && NoKey(post, key)
    ensures OptString(Get(Obj(pre + OptProp(key, v) + post), key)) == Some(v)
  {
    assert pre + OptProp(key, v) + post == pre + (OptProp(key, v) + post);
    LookupSkip(pre, OptProp(key, v) + post, key);
    if v.Some? {
      assert (OptProp(key, v) + post)[0] == Prop(key, Str(v.value));
    } else {
      assert OptProp(key, v) + post == post;
      LookupNone(post, key);
    }
  }

  /** The head of every encoded object: id, then name. */
  function Head(id: string, name: string): seq<Prop>
  {
    [Prop("id", Str(id)), Prop("name", Str(name))]
  }

  lemma ReadHead(id: string, name: string, rest: seq<Prop>)
    ensures Get(Obj(Head(id, name) + rest), "id") == Str(id)
    ensures Get(Obj(Head(id, name) + rest), "name") == Str(name)
  {
    var ps := Head(id, name) + rest;
    assert ps[0] == Prop("id", Str(id)) && ps[1] == Prop("name", Str(name));
    assert "id"[0] != "name"[0];
    assert ps[1..][0] == ps[1];
    assert Lookup(ps, "name") == Lookup(ps[1..], "name");
  }

  lemma HeadAvoids(id: string, name: string, key: string)
    requires key != "id" && key != "name"
    ensures NoKey(Head(id, name), key)
  {
  }

  lemma KeysDiffer()
    ensures "description" != "id" && "description" != "name" && "color" != "id" && "color" != "name"
    ensures "createdAt" != "id" && "createdAt" != "name" && "updatedAt" != "id" && "updatedAt" != "name"
    ensures "items" != "id" && "items" != "name"
    ensures "description" != "color" && "description" != "createdAt" && "description" != "updatedAt"
    ensures "color" != "createdAt" && "color" != "updatedAt" && "createdAt" != "updatedAt"
    ensures "items" != "createdAt" && "items" != "updatedAt"
  {
    assert "description"[0] != "color"[0] && "description"[0] != "createdAt"[0] && "description"[0] != "updatedAt"[0];
    assert "color"[1] != "createdAt"[1] && "color"[0] != "updatedAt"[0] && "createdAt"[0] != "updatedAt"[0];
    assert "items"[0] != "createdAt"[0] && "items"[0] != "updatedAt"[0];
  }

  lemma ItemDescription(it: MiniItem)
    ensures OptString(Get(EncodeItem(it), "description")) == Some(it.description)
  {
    var c, ca, ua := OptProp("color", it.color), OptProp("createdAt", it.createdAt), OptProp("updatedAt", it.updatedAt);
    KeysDiffer();
    HeadAvoids(it.id, it.name, "description");
    NoKeyOpt("color", it.color, "description");
    NoKeyOpt("createdAt", it.createdAt, "description");
    NoKeyOpt("updatedAt", it.updatedAt, "description");
    NoKeyAppend(c, ca, "description");
    NoKeyAppend(c + ca, ua, "description");
    assert EncodeItem(it).props == Head(it.id, it.name) + OptProp("description", it.description) + (c + ca + ua);
    ReadOpt(Head(it.id, it.name), "description", it.description, c + ca + ua);
  }

  lemma ItemColor(it: MiniItem)
    ensures OptString(Get(EncodeItem(it), "color")) == Some(it.color)
  {
    var head, d := Head(it.id, it.name), OptProp("description", it.description);
    var ca, ua := OptProp("createdAt", it.createdAt), OptProp("updatedAt", it.updatedAt);
    KeysDiffer();
    HeadAvoids(it.id, it.name, "color");
    NoKeyOpt("description", it.description, "color");
    NoKeyAppend(head, d, "color");
    NoKeyOpt("createdAt", it.createdAt, "color");
    NoKeyOpt("updatedAt", it.updatedAt, "color");
    NoKeyAppend(ca, ua, "color");
    assert EncodeItem(it).props == (head + d) + OptProp("color", it.color) + (ca + ua);
    ReadOpt(head + d, "color", it.color, ca + ua);
  }

  lemma ItemCreatedAt(it: MiniItem)
    ensures OptString(Get(EncodeItem(it), "createdAt")) == Some(it.createdAt)
  {
    var head, d, c := Head(it.id, it.name), OptProp("description", it.description), OptProp("color", it.color);
    var ua := OptProp("updatedAt", it.updatedAt);
    KeysDiffer();
    HeadAvoids(it.id, it.name, "createdAt");
    NoKeyOpt("description", it.description, "createdAt");
    NoKeyOpt("color", it.color, "createdAt");
    NoKeyAppend(head, d, "createdAt");
    NoKeyAppend(head + d, c, "createdAt");
    NoKeyOpt("updatedAt", it.updatedAt, "createdAt");
    assert EncodeItem(it).props == (head + d + c) + OptProp("createdAt", it.createdAt) + ua;
    ReadOpt(head + d + c, "createdAt", it.createdAt, ua);
  }

  lemma ItemUpdatedAt(it: MiniItem)
    ensures OptString(Get(EncodeItem(it), "updatedAt")) == Some(it.updatedAt)
  {
    var head, d, c := Head(it.id, it.name), OptProp("description", it.description), OptProp("color", it.color);
    var ca := OptProp("createdAt", it.createdAt);
    KeysDiffer();
    HeadAvoids(it.id, it.name, "updatedAt");
    NoKeyOpt("description", it.description, "updatedAt");
    NoKeyOpt("color", it.color, "updatedAt");
    NoKeyOpt("createdAt", it.createdAt, "updatedAt");
    NoKeyAppend(head, d, "updatedAt");
    NoKeyAppend(head + d, c, "updatedAt");
    NoKeyAppend(head + d + c, ca, "updatedAt");
    assert EncodeItem(it).props == (head + d + c + ca) + OptProp("updatedAt", it.updatedAt) + [];
    ReadOpt(head + d + c + ca, "updatedAt", it.updatedAt, []);
  }

  /** An item written as a JSON value reads back as the same item. */
  lemma ItemRoundTrip(it: MiniItem)
    ensures DecodeItem(EncodeItem(it)) == Some(it)
  {
    ReadHead(it.id, it.name, OptProp("description", it.description) + OptProp("color", it.color)
      + OptProp("createdAt", it.createdAt) + OptProp("updatedAt", it.updatedAt));
    assert EncodeItem(it).props == Head(it.id, it.name) + (OptProp("description", it.description) + OptProp("color", it.color)
      + OptProp("createdAt", it.createdAt) + OptProp("updatedAt", it.updatedAt));
    ItemDescription(it);
    ItemColor(it);
    ItemCreatedAt(it);
    ItemUpdatedAt(it);
    DecodeItemOf(EncodeItem(it), it);
  }

  /** A value whose every field reads as the item's decodes to that item. */
  lemma DecodeItemOf(v: JsValue, it: MiniItem)
    requires Get(v, "id") == Str(it.id) && Get(v, "name") == Str(it.name)
    requires OptString(Get(v, "description")) == Some(it.description) && OptString(Get(v, "color")) == Some(it.color)
    requires OptString(Get(v, "createdAt")) == Some(it.createdAt) && OptString(Get(v, "updatedAt")) == Some(it.updatedAt)
    ensures DecodeItem(v) == Some(it)
  {
  }

  lemma ItemsRoundTrip(items: seq<MiniItem>)
    ensures DecodeItems(EncodeItems(items)) == Some(items)
  {
    var e := EncodeItems(items);
    forall i | 0 <= i < |items|
      ensures DecodeItem(e[i]) == Some(items[i])
    {
      ItemRoundTrip(items[i]);
    }
    DecodeItemsAll(e, items);
  }

  /** A list whose every value decodes to the matching item decodes to the list of items. */
  lemma {:induction false} DecodeItemsAll(elems: seq<JsValue>, items: seq<MiniItem>)
    requires |elems| == |items|
    requires forall i | 0 <= i < |elems| :: DecodeItem(elems[i]) == Some(items[i])
    ensures DecodeItems(elems) == Some(items)
  {
    if elems != [] {
      DecodeItemsAll(elems[1..], items[1..]);
      assert [items[0]] + items[1..] == items;
    }
  }

  lemma SetItems(s: MiniSet)
    ensures DecodeItemList(Get(EncodeSet(s), "items")) == Some(s.items)
  {
    if s.items.Some? {
      var v := Arr(EncodeItems(s.items.value));
      SetItemsPresent(s);
      ItemsRoundTrip(s.items.value);
      assert DecodeItemList(v) == Some(Some(s.items.value));
    } else {
      SetItemsAbsent(s);
    }
  }

  lemma SetItemsPresent(s: MiniSet)
    requires s.items.Some?
    ensures Get(EncodeSet(s), "items") == Arr(EncodeItems(s.items.value))
  {
    var its := [Prop("items", Arr(EncodeItems(s.items.value)))];
    var rest := its + OptProp("createdAt", s.createdAt) + OptProp("updatedAt", s.updatedAt);
    assert "items" != "id" && "items" != "name" by {
      KeysDiffer();
    }
    HeadAvoids(s.id, s.name, "items");
    assert EncodeSet(s).props == Head(s.id, s.name) + rest;
    LookupSkip(Head(s.id, s.name), rest, "items");
    assert rest[0] == its[0];
  }

  lemma SetItemsAbsent(s: MiniSet)
    requires s.items.None?
    ensures Get(EncodeSet(s), "items") == Undefined
  {
    var ca, ua := OptProp("createdAt", s.createdAt), OptProp("updatedAt", s.updatedAt);
    assert "items" != "id" && "items" != "name" && "items" != "createdAt" && "items" != "updatedAt" by {
      KeysDiffer();
    }
    HeadAvoids(s.id, s.name, "items");
    NoKeyOpt("createdAt", s.createdAt, "items");
    NoKeyOpt("updatedAt", s.updatedAt, "items");
    NoKeyAppend(ca, ua, "items");
    NoKeyAppend(Head(s.id, s.name), ca + ua, "items");
    assert EncodeSet(s).props == Head(s.id, s.name) + (ca + ua);
    LookupNone(Head(s.id, s.name) + (ca + ua), "items");
  }

  lemma SetCreatedAt(s: MiniSet)
    ensures OptString(Get(EncodeSet(s), "createdAt")) == Some(s.createdAt)
  {
    var head := Head(s.id, s.name);
    var its := if s.items.Some? then [Prop("items", Arr(EncodeItems(s.items.value)))] else [];
    var ua := OptProp("updatedAt", s.updatedAt);
    KeysDiffer();
    HeadAvoids(s.id, s.name, "createdAt");
    assert NoKey(its, "createdAt");
    NoKeyAppend(head, its, "createdAt");
    NoKeyOpt("updatedAt", s.updatedAt, "createdAt");
    assert EncodeSet(s).props == (head + its) + OptProp("createdAt", s.createdAt) + ua;
    ReadOpt(head + its, "createdAt", s.createdAt, ua);
  }

  lemma SetUpdatedAt(s: MiniSet)
    ensures OptString(Get(EncodeSet(s), "updatedAt")) == Some(s.updatedAt)
  {
    var head := Head(s.id, s.name);
    var its := if s.items.Some? then [Prop("items", Arr(EncodeItems(s.items.value)))] else [];
    var ca := OptProp("createdAt", s.createdAt);
    KeysDiffer();
    HeadAvoids(s.id, s.name, "updatedAt");
    assert NoKey(its, "updatedAt");
    NoKeyAppend(head, its, "updatedAt");
    NoKeyOpt("createdAt", s.createdAt, "updatedAt");
    NoKeyAppend(head + its, ca, "updatedAt");
    assert EncodeSet(s).props == (head + its + ca) + OptProp("updatedAt", s.updatedAt) + [];
    ReadOpt(head + its + ca, "updatedAt", s.updatedAt, []);
  }

  /** A set written as a JSON value reads back as the same set. */
  lemma SetRoundTrip(s: MiniSet)
    ensures DecodeSet(EncodeSet(s)) == Some(s)
  {
    var rest := (if s.items.Some? then [Prop("items", Arr(EncodeItems(s.items.value)))] else [])
      + OptProp("createdAt", s.createdAt) + OptProp("updatedAt", s.updatedAt);
    ReadHead(s.id, s.name, rest);
    assert EncodeSet(s).props == Head(s.id, s.name) + rest;
    SetItems(s);
    SetCreatedAt(s);
    SetUpdatedAt(s);
    DecodeSetOf(EncodeSet(s), s);
  }

  /** A value whose every field reads as the set's decodes to that set. */
  lemma DecodeSetOf(v: JsValue, s: MiniSet)
    requires Get(v, "id") == Str(s.id) && Get(v, "name") == Str(s.name)
    requires DecodeItemList(Get(v, "items")) == Some(s.items)
    requires OptString(Get(v, "createdAt")) == Some(s.createdAt) && OptString(Get(v, "updatedAt")) == Some(s.updatedAt)
    ensures DecodeSet(v) == Some(s)
  {
  }

  /** Every list of sets written as JSON values reads back as the same list. */
  lemma SetsRoundTrip(sets: seq<MiniSet>)
    ensures DecodeSets(EncodeSets(sets)) == Some(sets)
  {
    var e := EncodeSets(sets);
    forall i | 0 <= i < |sets|
      ensures DecodeSet(e[i]) == Some(sets[i])
    {
      SetRoundTrip(sets[i]);
    }
    DecodeSetsAll(e, sets);
  }

  /** A list whose every value decodes to the matching set decodes to the list of sets. */
  lemma {:induction false} DecodeSetsAll(elems: seq<JsValue>, sets: seq<MiniSet>)
    requires |elems| == |sets|
    requires forall i | 0 <= i < |elems| :: DecodeSet(elems[i]) == Some(sets[i])
    ensures DecodeSets(elems) == Some(sets)
  {
    if elems != [] {
      DecodeSetsAll(elems[1..], sets[1..]);
      assert [sets[0]] + sets[1..] == sets;
    }
  }
}

=== FILE: profile_page.dfy ===
/**
 * The mini-program's profile page (miniProgram/pages/profile/profile.js):
 * usage statistics, the user's nickname and avatar, and the data tools:
 * export to the clipboard as JSON, import from it, and reset to the
 * default set.
 *
 * The clipboard is a parameter: export returns the value it would write,
 * import receives the value the clipboard held after JSON parsing (None
 * when reading or parsing failed). The user's answers to the confirmation
 * dialogs and the date string of "today" are parameters too.
 */
module ProfilePage {
  import opened Wrappers
  import opened JsValues
  import opened JsText
  import opened MiniData

  const EXPORT_VERSION: string := "1.0.0"

  datatype Statistics = Statistics(totalSets: nat, totalItems: nat, totalSpins: int, todaySpins: int)

  /** `wheelSets.reduce((sum, set) => sum + (set.items ? set.items.length : 0), 0)`. */
  function TotalItems(sets: seq<MiniSet>): nat
  {
    if sets == [] then 0 else TotalItems(sets[..|sets| - 1]) + |ItemsOf(sets[|sets| - 1])|
  }

  /** Counting the items of two lists of sets one after the other adds up. */
  lemma {:induction false} TotalItemsAppend(a: seq<MiniSet>, b: seq<MiniSet>)
    ensures TotalItems(a + b) == TotalItems(a) + TotalItems(b)
    decreases |b|
  {
    if b == [] {
      assert a + b == a;
    } else {
      assert (a + b)[..|a + b| - 1] == a + b[..|b| - 1];
      assert (a + b)[|a + b| - 1] == b[|b| - 1];
      TotalItemsAppend(a, b[..|b| - 1]);
    }
  }

  /** The total is zero exactly when no set has an item. */
  lemma {:induction false} TotalItemsZero(sets: seq<MiniSet>)
    ensures TotalItems(sets) == 0 <==> forall k | 0 <= k < |sets| :: ItemsOf(sets[k]) == []
    decreases |sets|
  {
    if sets != [] {
      var init := sets[..|sets| - 1];
      TotalItemsZero(init);
      assert forall k | 0 <= k < |init| :: init[k] == sets[k];
    }
  }

  /** The total counts every item of every set, so no set has more items than it. */
  lemma {:induction false} TotalItemsCounts(sets: seq<MiniSet>, k: nat)
    requires k < |sets|
    ensures |ItemsOf(sets[k])| <= TotalItems(sets)
    decreases |sets|
  {
    if k < |sets| - 1 {
      var init := sets[..|sets| - 1];
      assert init[k] == sets[k];
      TotalItemsCounts(init, k);
    }
  }

  /** The total for a single set is its number of items. */
  lemma TotalItemsSingle(s: MiniSet)
    ensures TotalItems([s]) == |ItemsOf(s)|
  {
    assert [s][..0] == [];
  }

  /**
   * loadStatistics: the number of sets and of items, the stored spin total,
   * and today's spins, which count only when the stored counter is dated
   * today. Missing statistics read as zero spins.
   */
  function StatisticsOf(sets: seq<MiniSet>, stored: Option<SpinStats>, today: string): (r: Statistics)
    ensures r.totalSets == |sets| && r.totalItems == TotalItems(sets)
    ensures stored.None? ==> r.totalSpins == 0 && r.todaySpins == 0
    ensures stored.Some? ==> r.totalSpins == stored.value.total
    ensures stored.Some? && stored.value.lastDate == today ==> r.todaySpins == stored.value.today
    ensures stored.Some? && stored.value.lastDate != today ==> r.todaySpins == 0
  {
    var spin := if stored.Some? then stored.value else SpinStats(0, 0, "");
    Statistics(|sets|, TotalItems(sets), spin.total, if spin.lastDate == today then spin.today else 0)
  }

  /**
   * `{ ...props, [key]: v }`: the property keeps its place when present and
   * is appended otherwise.
   */
  function SetProp(props: seq<Prop>, key: string, v: JsValue): (r: seq<Prop>)
    ensures |r| == |props| || |r| == |props| + 1
  {
    if props == [] then [Prop(key, v)]
    else if props[0].key == key then [Prop(key, v)] + props[1..]
    else [props[0]] + SetProp(props[1..], key, v)
  }

  /** After the spread, the key reads as the new value and every other key as before. */
  lemma {:induction false} SetPropLookup(props: seq<Prop>, key: string, v: JsValue, other: string)
    requires other != key
    ensures Lookup(SetProp(props, key, v), key) == Some(v)
    ensures Lookup(SetProp(props, key, v), other) == Lookup(props, other)
  {
    if props != [] && props[0].key != key {
      var r := SetProp(props, key, v);
      assert r[1..] == SetProp(props[1..], key, v);
      SetPropLookup(props[1..], key, v, other);
    }
  }

  /** The spread adds a property only when the key was missing. */
  lemma {:induction false} SetPropLength(props: seq<Prop>, key: string, v: JsValue)
    ensures |SetProp(props, key, v)| == (if Lookup(props, key).Some? then |props| else |props| + 1)
  {
    if props != [] && props[0].key != key {
      SetPropLength(props[1..], key, v);
    }
  }

  /** `userInfo.nickName || ''` for a stored string nickname. */
  function Nickname(userInfo: seq<Prop>): (r: string)
    ensures r != "" ==> Lookup(userInfo, "nickName") == Some(Str(r))
  {
    match Lookup(userInfo, "nickName")
    case Some(Str(s)) => s
    case _ => ""
  }

  /** The JSON object exportData copies to the clipboard. */
  function ExportPayload(sets: seq<MiniSet>, now: string): JsValue
  {
    Obj([Prop("version", Str(EXPORT_VERSION)), Prop("exportTime", Str(now)), Prop("wheelSets", Arr(EncodeSets(sets)))])
  }

  /**
   * The sets importData takes from a parsed clipboard value: its
   * `wheelSets` must be a truthy array, and here every element must read
   * as a set.
   */
  function ImportedSets(v: JsValue): (r: Option<seq<MiniSet>>)
    ensures r.Some? ==> Get(v, "wheelSets").Arr? && |r.value| == |Get(v, "wheelSets").elems|
    ensures !Get(v, "wheelSets").Arr? ==> r.None?
  {
    var w := Get(v, "wheelSets");
    if Truthy(w) && IsArray(w) then DecodeSets(w.elems) else None
  }

  /** The exported payload's `wheelSets` is the array of encoded sets. */
  lemma PayloadWheelSets(sets: seq<MiniSet>, now: string)
    ensures Get(ExportPayload(sets, now), "wheelSets") == Arr(EncodeSets(sets))
  {
    var p := ExportPayload(sets, now);
    var w := Prop("wheelSets", Arr(EncodeSets(sets)));
    assert "version"[0] != "wheelSets"[0] && "exportTime"[0] != "wheelSets"[0];
    assert p.props[1..] == [Prop("exportTime", Str(now)), w] && p.props[1..][1..] == [w];
    assert Lookup([w], "wheelSets") == Some(w.value);
    assert Lookup(p.props, "wheelSets") == Lookup(p.props[1..], "wheelSets") == Lookup([w], "wheelSets");
  }

  /** Whatever exportData writes, importData reads back as the same sets. */
  lemma ExportImportRoundTrip(sets: seq<MiniSet>, now: string)
    ensures ImportedSets(ExportPayload(sets, now)) == Some(sets)
  {
    PayloadWheelSets(sets, now);
    SetsRoundTrip(sets);
  }

  /** What came of importData. */
  datatype ImportOutcome =
    | Cancelled                 // the first dialog was dismissed
    | BadFormat                 // the clipboard could not be read or held no list of sets
    | Declined(count: nat)      // the user saw how many sets would replace the data and said no
    | Imported(count: nat)      // the sets replaced the data

  /** The page's `data`; the settings toggles are not part of this model. */
  datatype ProfileData = ProfileData(
    userInfo: seq<Prop>,
    statistics: Statistics,
    showNicknameModal: bool,
    nicknameForm: string)

  function InitialData(): (d: ProfileData)
    ensures d.userInfo == [] && !d.showNicknameModal && d.nicknameForm == ""
    ensures d.statistics == Statistics(0, 0, 0, 0)
  {
    ProfileData([], Statistics(0, 0, 0, 0), false, "")
  }

  /**
   * The page after a non-blank nickname is saved: the trimmed text, which
   * is non-empty, is the nickname, the avatar and every other property are
   * kept, and the dialog is closed.
   */
  function NicknameSaved(d: ProfileData): (r: ProfileData)
    requires !AllWhitespace(d.nicknameForm)
    ensures var nick := Trim(d.nicknameForm);
      && nick != ""
      && r == d.(userInfo := SetProp(d.userInfo, "nickName", Str(nick)), showNicknameModal := false)
      && Lookup(r.userInfo, "nickName") == Some(Str(nick))
      && Lookup(r.userInfo, "avatarUrl") == Lookup(d.userInfo, "avatarUrl")
  {
    var nick := Trim(d.nicknameForm);
    TrimNonBlank(d.nicknameForm);
    assert "avatarUrl"[0] != "nickName"[0];
    SetPropLookup(d.userInfo, "nickName", Str(nick), "avatarUrl");
    d.(userInfo := SetProp(d.userInfo, "nickName", Str(nick)), showNicknameModal := false)
  }

  class Page {
    const app: AppData
    var data: ProfileData

    constructor(app: AppData)
      ensures this.app == app && data == InitialData()
    {
      this.app := app;
      data := InitialData();
    }

    /** loadUserInfo: the stored user info, or an empty object. */
    method LoadUserInfo()
      modifies this
      ensures data == old(data).(userInfo := if app.storedUserInfo.Some? then app.storedUserInfo.value else [])
    {
      var info := if app.storedUserInfo.Some? then app.storedUserInfo.value else [];
      data := data.(userInfo := info);
    }

    /** loadStatistics (run by onShow too): recomputes the statistics from the app and storage. */
    method LoadStatistics(today: string)
      modifies this
      ensures data == old(data).(statistics := StatisticsOf(app.wheelSets, app.spinStatistics, today))
    {
      data := data.(statistics := StatisticsOf(app.wheelSets, app.spinStatistics, today));
    }

    /** onLoad: user info, then statistics. */
    method OnLoad(today: string)
      modifies this
      ensures data == old(data).(userInfo := if app.storedUserInfo.Some? then app.storedUserInfo.value else [],
        statistics := StatisticsOf(app.wheelSets, app.spinStatistics, today))
    {
      LoadUserInfo();
      LoadStatistics(today);
    }

    /**
     * onChooseAvatar: the chosen avatar URL becomes the user's avatar, on
     * the page and in storage; every other property is kept.
     */
    method OnChooseAvatar(avatarUrl: string)
      modifies this, app
      ensures data == old(data).(userInfo := SetProp(old(data).userInfo, "avatarUrl", Str(avatarUrl)))
      ensures Lookup(data.userInfo, "avatarUrl") == Some(Str(avatarUrl))
      ensures Lookup(data.userInfo, "nickName") == Lookup(old(data).userInfo, "nickName")
      ensures app.storedUserInfo == Some(data.userInfo)
      ensures app.AllButUser() == old(app.AllButUser())
    {
      var info := SetProp(data.userInfo, "avatarUrl", Str(avatarUrl));
      assert "avatarUrl"[0] != "nickName"[0];
      SetPropLookup(data.userInfo, "avatarUrl", Str(avatarUrl), "nickName");
      data := data.(userInfo := info);
      app.storedUserInfo := Some(info);
    }

    /** showNicknameModal: opens the dialog with the current nickname. */
    method ShowNicknameModal()
      modifies this
      ensures data == old(data).(showNicknameModal := true, nicknameForm := Nickname(old(data).userInfo))
    {
      data := data.(showNicknameModal := true, nicknameForm := Nickname(data.userInfo));
    }

    /** hideNicknameModal: closes the dialog and empties the field. */
    method HideNicknameModal()
      modifies this
      ensures data == old(data).(showNicknameModal := false, nicknameForm := "")
    {
      data := data.(showNicknameModal := false, nicknameForm := "");
    }

    /** onNicknameInput: the field follows what is typed. */
    method OnNicknameInput(value: string)
      modifies this
      ensures data == old(data).(nicknameForm := value)
    {
      data := data.(nicknameForm := value);
    }

    /**
     * saveNickname: a blank field changes nothing. Otherwise the trimmed
     * text becomes the nickname, on the page and in storage, every other
     * property is kept, and the dialog closes (the field keeps its text).
     */
    method SaveNickname() returns (saved: bool)
      modifies this, app
      ensures saved <==> !AllWhitespace(old(data).nicknameForm)
      ensures !saved ==> data == old(data) && unchanged(app)
      ensures saved ==> data == NicknameSaved(old(data)) && app.storedUserInfo == Some(data.userInfo)
      ensures app.AllButUser() == old(app.AllButUser())
    {
      var blank := Blank(data.nicknameForm);
      saved := !blank;
      if saved {
        var d := NicknameSaved(data);
        data := d;
        app.storedUserInfo := Some(d.userInfo);
      }
    }

    /**
     * exportData: nothing to export without sets; otherwise the JSON
     * object with the version, the export time and every set.
     */
    method ExportData(now: string) returns (clipboard: Option<JsValue>)
      ensures clipboard.None? <==> app.wheelSets == []
      ensures clipboard.Some? ==> clipboard.value == ExportPayload(app.wheelSets, now)
      ensures clipboard.Some? ==> ImportedSets(clipboard.value) == Some(app.wheelSets)
    {
      if app.wheelSets == [] {
        return None;
      }
      ExportImportRoundTrip(app.wheelSets, now);
      return Some(ExportPayload(app.wheelSets, now));
    }

    /**
     * importData: after the first dialog is confirmed, a clipboard value
     * with a list of sets is offered for import, and once confirmed it
     * replaces the app's sets, the first one (if any) becomes current, the
     * data is saved and the statistics are recomputed. Any other path
     * leaves everything as it was.
     */
    method ImportData(confirmed: bool, clipboard: Option<JsValue>, confirmImport: bool, today: string)
      returns (outcome: ImportOutcome)
      modifies this, app
      ensures !confirmed ==> outcome == Cancelled
      ensures confirmed && (clipboard.None? || ImportedSets(clipboard.value).None?) ==> outcome == BadFormat
      ensures confirmed && clipboard.Some? && ImportedSets(clipboard.value).Some? ==>
        var sets := ImportedSets(clipboard.value).value;
        outcome == (if confirmImport then Imported(|sets|) else Declined(|sets|))
      ensures !outcome.Imported? ==> data == old(data) && unchanged(app)
      ensures outcome.Imported? ==>
        var sets := ImportedSets(clipboard.value).value;
        && app.wheelSets == sets
        && app.currentWheelSetId == (if sets != [] then Some(sets[0].id) else None)
        && app.storedSets == Some(sets) && app.storedCurrentId == app.currentWheelSetId
        && data == old(data).(statistics := StatisticsOf(sets, app.spinStatistics, today))
        && data.statistics.totalSets == outcome.count
      ensures app.Rest() == old(app.Rest())
    {
      if !confirmed {
        return Cancelled;
      }
      if clipboard.None? {
        return BadFormat;
      }
      var sets := ImportedSets(clipboard.value);
      if sets.None? {
        return BadFormat;
      }
      if !confirmImport {
        return Declined(|sets.value|);
      }
      app.wheelSets := sets.value;
      app.currentWheelSetId := if sets.value != [] then Some(sets.value[0].id) else None;
      app.SaveLocalData();
      LoadStatistics(today);
      outcome := Imported(|sets.value|);
    }

    /**
     * clearData: once confirmed, every set, the current id, the last
     * result, the stored sets and the spin statistics are dropped, the
     * default set is created (and saved) in their place, and the
     * statistics show one set of six items and no spins.
     */
    method ClearData(confirmed: bool, ids: seq<string>, now: string, today: string)
      requires |ids| == 7
      modifies this, app
      ensures !confirmed ==> data == old(data) && unchanged(app)
      ensures confirmed ==>
        && app.wheelSets == [DefaultSet(ids, now)] && app.currentWheelSetId == Some(ids[0])
        && app.storedSets == Some(app.wheelSets) && app.storedCurrentId == app.currentWheelSetId
        && app.lastResult.None? && app.spinStatistics.None?
        && app.isSpinning == old(app.isSpinning) && app.storedUserInfo == old(app.storedUserInfo)
        && data == old(data).(statistics := Statistics(1, 6, 0, 0))
    {
      if !confirmed {
        return;
      }
      app.wheelSets := [];
      app.currentWheelSetId := None;
      app.lastResult := None;
      app.storedSets := None;
      app.storedCurrentId := None;
      app.spinStatistics := None;
      app.CreateDefaultData(ids, now);
      TotalItemsSingle(DefaultSet(ids, now));
      LoadStatistics(today);
    }
  }
}

=== FILE: random_draws.dfy ===
/**
 * Math.random() draws. Every random choice in the mini-program has the form
 * Math.floor(Math.random() * n); the draw itself is a parameter of the
 * operation that uses it.
 */
module Draws {

  /** A value Math.random() can return. */
  type Draw = r: real | 0.0 <= r < 1.0

  lemma ScaleBelow(d: real, q: real, y: real)
    requires d > 0.0 && q < y
    ensures d * q < d * y
  {
  }

  lemma ScaleAtMost(d: real, q: real, y: real)
    requires d >= 0.0 && q <= y
    ensures d * q <= d * y
  {
  }

  /** Math.floor(draw * n): always a valid index into a list of n elements. */
  function Pick(n: nat, draw: Draw): (i: nat)
    requires n > 0
    ensures i < n
  {
    ScaleAtMost(n as real, 0.0, draw);
    ScaleBelow(n as real, draw, 1.0);
    (draw * n as real).Floor
  }

  /** Every index is picked by some draw: the draw k/n picks k. */
  lemma PickCovers(n: nat, k: nat)
    requires k < n
    ensures 0.0 <= k as real / n as real < 1.0
    ensures Pick(n, k as real / n as real) == k
  {
    var d := k as real / n as real;
    assert d * n as real == k as real;
    ScaleBelow(n as real, d, 1.0);
  }
}

=== FILE: web_store.dfy ===
/**
 * The web client's wheel store (src/stores/wheel.ts): the list of wheel
 * sets, the current set, and the actions that edit them. Every action that
 * changes something ends by saving the whole state to localStorage, which
 * is modelled as the `saved` snapshot. Date.now() and the ISO timestamp are
 * parameters.
 */
module WebStore {
  import opened Wrappers
  import opened JsValues
  import opened JsArrays

  datatype WheelItem = WheelItem(id: string, name: string, color: Option<string>)

  datatype WheelSet = WheelSet(id: string, name: string, items: seq<WheelItem>, createdAt: string, updatedAt: string)

  /** What save() writes under "wheel-turntable-data". */
  datatype AppState = AppState(
    wheelSets: seq<WheelSet>,
    currentWheelSetId: Option<string>,
    isSpinning: bool,
    lastResult: Option<WheelItem>)

  /** The payload of updateSet: a name when it is a string, items when they are an array. */
  datatype SetPatch = SetPatch(name: Option<string>, items: Option<seq<WheelItem>>)

  /** `wheelSets.find(s => s.id === id)`, as a position. */
  function FindSet(sets: seq<WheelSet>, id: Option<string>): (r: Option<nat>)
    ensures r.Some? ==> r.value < |sets| && id == Some(sets[r.value].id)
    ensures r.Some? ==> forall k | 0 <= k < r.value :: id != Some(sets[k].id)
    ensures r.None? <==> forall k | 0 <= k < |sets| :: id != Some(sets[k].id)
  {
    FindIndex(sets, (s: WheelSet) => id == Some(s.id))
  }

  function FindItem(items: seq<WheelItem>, id: string): (r: Option<nat>)
    ensures r.Some? ==> r.value < |items| && items[r.value].id == id
    ensures r.Some? ==> forall k | 0 <= k < r.value :: items[k].id != id
    ensures r.None? <==> forall k | 0 <= k < |items| :: items[k].id != id
  {
    FindIndex(items, (it: WheelItem) => it.id == id)
  }

  /** The demo set bootstrap installs. */
  function DemoSet(now: string): (s: WheelSet)
    ensures s.id == "food" && |s.items| == 4
  {
    WheelSet("food", "今天吃什么",
      [WheelItem("1", "汉堡", None), WheelItem("2", "披萨", None),
       WheelItem("3", "寿司", None), WheelItem("4", "麻辣烫", None)],
      now, now)
  }

  // ---- reorderItems ----

  function Lift(items: seq<WheelItem>): (r: seq<Option<WheelItem>>)
    ensures |r| == |items| && forall i | 0 <= i < |r| :: r[i] == Some(items[i])
  {
    seq(|items|, i requires 0 <= i < |items| => Some(items[i]))
  }

  /**
   * reorderItems as written: `[moved] = items.splice(fromIndex, 1)` and
   * `items.splice(toIndex, 0, moved)`; `undefined` is None.
   */
  function MoveAsWritten(items: seq<WheelItem>, fromIndex: int, toIndex: int): (r: seq<Option<WheelItem>>)
    ensures items != [] && fromIndex < |items| ==> |r| == |items| && multiset(r) == multiset(Lift(items))
    ensures !(items != [] && fromIndex < |items|) ==>
      |r| == |items| + 1 && multiset(r) == multiset(Lift(items)) + multiset{None}
  {
    var taken := Splice(Lift(items), fromIndex, 1, []);
    var moved := if taken.removed == [] then None else taken.removed[0];
    SpliceMoveCounts(Lift(items), fromIndex, toIndex, None);
    Splice(taken.result, toIndex, 0, [moved]).result
  }

  /**
   * A fromIndex past the end removes nothing, so `moved` is undefined and
   * an undefined entry is inserted: the list grows by one.
   */
  lemma MoveAsWrittenAddsUndefined(items: seq<WheelItem>, fromIndex: int, toIndex: int)
    requires fromIndex >= |items|
    ensures |MoveAsWritten(items, fromIndex, toIndex)| == |items| + 1
    ensures None in MoveAsWritten(items, fromIndex, toIndex)
  {
    SpliceRemovePast(Lift(items), fromIndex);
    var b := RelativeIndex(toIndex, |items|);
    SpliceInsert(Lift(items), toIndex, None);
    assert MoveAsWritten(items, fromIndex, toIndex)[b] == None;
  }

  /** The smallest case: one item, moved from position 1 to position 0. */
  lemma MoveAsWrittenExample(a: WheelItem)
    ensures MoveAsWritten([a], 1, 0) == [None, Some(a)]
  {
    assert Lift([a]) == [Some(a)];
  }

  /** reorderItems as intended: the item at fromIndex moves to toIndex; a fromIndex past the end changes nothing. */
  function Move(items: seq<WheelItem>, fromIndex: int, toIndex: int): (r: seq<WheelItem>)
    ensures |r| == |items|
    ensures fromIndex >= |items| ==> r == items
  {
    var taken := Splice(items, fromIndex, 1, []);
    if taken.removed == [] then items
    else Splice(taken.result, toIndex, 0, [taken.removed[0]]).result
  }

  /** Moving loses and invents no item. */
  lemma MovePermutes(items: seq<WheelItem>, fromIndex: int, toIndex: int)
    ensures multiset(Move(items, fromIndex, toIndex)) == multiset(items)
  {
    var taken := Splice(items, fromIndex, 1, []);
    if taken.removed != [] {
      var x := taken.removed[0];
      assert taken.removed == [x] by {
        assert |taken.removed| <= 1;
      }
      assert multiset(taken.result) + multiset{x} == multiset(items);
      var put := Splice(taken.result, toIndex, 0, [x]);
      assert put.removed == [];
      assert multiset(put.result) == multiset(taken.result) + multiset{x};
    }
  }

  /** The moved item ends up at toIndex, counted in the list without it. */
  lemma MoveLandsAt(items: seq<WheelItem>, fromIndex: int, toIndex: int)
    requires -|items| <= fromIndex < |items|
    ensures Move(items, fromIndex, toIndex)[RelativeIndex(toIndex, |items| - 1)]
      == items[RelativeIndex(fromIndex, |items|)]
  {
    var a := RelativeIndex(fromIndex, |items|);
    SpliceRemove(items, fromIndex);
    var rest := items[..a] + items[a + 1..];
    SpliceInsert(rest, toIndex, items[a]);
    var b := RelativeIndex(toIndex, |rest|);
    assert (rest[..b] + [items[a]] + rest[b..])[b] == items[a];
  }

  /** Wherever the written code finds an item to move, the corrected Move does the same. */
  lemma MoveAgrees(items: seq<WheelItem>, fromIndex: int, toIndex: int)
    requires -|items| <= fromIndex < |items|
    ensures Lift(Move(items, fromIndex, toIndex)) == MoveAsWritten(items, fromIndex, toIndex)
  {
    var a := RelativeIndex(fromIndex, |items|);
    var lifted := Lift(items);
    SpliceRemove(items, fromIndex);
    SpliceRemove(lifted, fromIndex);
    var rest := items[..a] + items[a + 1..];
    LiftRemove(items, a);
    assert Move(items, fromIndex, toIndex) == Splice(rest, toIndex, 0, [items[a]]).result;
    assert MoveAsWritten(items, fromIndex, toIndex) == Splice(Lift(rest), toIndex, 0, [Some(items[a])]).result;
    SpliceInsert(rest, toIndex, items[a]);
    SpliceInsert(Lift(rest), toIndex, Some(items[a]));
    LiftInsert(rest, RelativeIndex(toIndex, |rest|), items[a]);
  }

  lemma LiftRemove(s: seq<WheelItem>, a: nat)
    requires a < |s|
    ensures Lift(s[..a] + s[a + 1..]) == Lift(s)[..a] + Lift(s)[a + 1..]
  {
    var l, r := Lift(s[..a] + s[a + 1..]), Lift(s)[..a] + Lift(s)[a + 1..];
    assert |l| == |r|;
    forall i | 0 <= i < |l|
      ensures l[i] == r[i]
    {
      if i >= a {
        assert r[i] == Lift(s)[i + 1];
      }
    }
  }

  lemma LiftInsert(s: seq<WheelItem>, b: nat, x: WheelItem)
    requires b <= |s|
    ensures Lift(s[..b] + [x] + s[b..]) == Lift(s)[..b] + [Some(x)] + Lift(s)[b..]
  {
    var l, r := Lift(s[..b] + [x] + s[b..]), Lift(s)[..b] + [Some(x)] + Lift(s)[b..];
    assert |l| == |r|;
    forall i | 0 <= i < |l|
      ensures l[i] == r[i]
    {
      if i < b {
        assert r[i] == Lift(s)[i];
      } else if i > b {
        assert r[i] == Lift(s)[i - 1];
      }
    }
  }

  // ---- the store ----

  class Store {
    var wheelSets: seq<WheelSet>
    var currentWheelSetId: Option<string>
    var isSpinning: bool
    var lastResult: Option<WheelItem>
    /** The last state written to localStorage, if any. */
    var saved: Option<AppState>

    constructor()
      ensures wheelSets == [] && currentWheelSetId.None? && !isSpinning && lastResult.None? && saved.None?
    {
      wheelSets := [];
      currentWheelSetId := None;
      isSpinning := false;
      lastResult := None;
      saved := None;
    }

    function State(): AppState
      reads this
    {
      AppState(wheelSets, currentWheelSetId, isSpinning, lastResult)
    }

    /** The currentSet getter: the first set carrying the current id, or null. */
    function CurrentSet(): (r: Option<WheelSet>)
      reads this
      ensures r.Some? ==> r.value in wheelSets && currentWheelSetId == Some(r.value.id)
      ensures r.None? <==> forall k | 0 <= k < |wheelSets| :: currentWheelSetId != Some(wheelSets[k].id)
      ensures r.Some? ==> exists k | 0 <= k < |wheelSets| ::
        && r.value == wheelSets[k] && currentWheelSetId == Some(wheelSets[k].id)
        && forall m | 0 <= m < k :: currentWheelSetId != Some(wheelSets[m].id)
    {
      match FindSet(wheelSets, currentWheelSetId)
      case Some(k) => Some(wheelSets[k])
      case None => None
    }

    method Save()
      modifies this
      ensures saved == Some(State())
      ensures wheelSets == old(wheelSets) && currentWheelSetId == old(currentWheelSetId)
      ensures isSpinning == old(isSpinning) && lastResult == old(lastResult)
    {
      saved := Some(State());
    }

    /** bootstrap: the demo set becomes the only and current set; spinning and result are reset. */
    method Bootstrap(now: string)
      modifies this
      ensures State() == AppState([DemoSet(now)], Some("food"), false, None)
      ensures CurrentSet() == Some(DemoSet(now))
      ensures saved == Some(State())
    {
      wheelSets := [DemoSet(now)];
      currentWheelSetId := Some("food");
      isSpinning := false;
      lastResult := None;
      Save();
    }

    /**
     * load: the state stored under "wheel-turntable-data" replaces the
     * current one; when nothing is stored (or it does not parse, which
     * `stored` being None also stands for) the demo is bootstrapped.
     */
    method Load(stored: Option<AppState>, now: string)
      modifies this
      ensures stored.Some? ==> State() == stored.value && saved == old(saved)
      ensures stored.None? ==> State() == AppState([DemoSet(now)], Some("food"), false, None) && saved == Some(State())
    {
      if stored.Some? {
        wheelSets := stored.value.wheelSets;
        currentWheelSetId := stored.value.currentWheelSetId;
        isSpinning := stored.value.isSpinning;
        lastResult := stored.value.lastResult;
      } else {
        Bootstrap(now);
      }
    }

    /** setCurrentSet: the id is taken as given, even one no set carries. */
    method SetCurrentSet(id: string)
      modifies this
      ensures State() == old(State()).(currentWheelSetId := Some(id)) && saved == Some(State())
    {
      currentWheelSetId := Some(id);
      Save();
    }

    method SetSpinning(v: bool)
      modifies this
      ensures State() == old(State()).(isSpinning := v) && saved == Some(State())
    {
      isSpinning := v;
      Save();
    }

    method SetResult(item: Option<WheelItem>)
      modifies this
      ensures State() == old(State()).(lastResult := item) && saved == Some(State())
    {
      lastResult := item;
      Save();
    }

    /**
     * addSet: an empty set with id `${Date.now()}` is appended and becomes
     * the current one. It is what currentSet returns unless an older set
     * already has that id.
     */
    method AddSet(name: string, nowMs: nat, now: string)
      modifies this
      ensures var s := WheelSet(NatToString(nowMs), name, [], now, now);
        && wheelSets == old(wheelSets) + [s]
        && currentWheelSetId == Some(s.id)
        && ((forall k | 0 <= k < |old(wheelSets)| :: old(wheelSets)[k].id != s.id) ==> CurrentSet() == Some(s))
      ensures isSpinning == old(isSpinning) && lastResult == old(lastResult)
      ensures saved == Some(State())
    {
      var s := WheelSet(NatToString(nowMs), name, [], now, now);
      ghost var before := wheelSets;
      wheelSets := wheelSets + [s];
      currentWheelSetId := Some(s.id);
      Save();
      if forall k | 0 <= k < |before| :: before[k].id != s.id {
        assert wheelSets[|before|] == s;
        assert forall k | 0 <= k < |before| :: wheelSets[k] == before[k];
      }
    }

    /** renameSet: the first set with the id gets the name; an unknown id changes nothing. */
    method RenameSet(id: string, name: string, now: string)
      modifies this
      ensures match FindSet(old(wheelSets), Some(id))
        case None => unchanged(this)
        case Some(k) =>
          && wheelSets == old(wheelSets)[k := old(wheelSets)[k].(name := name, updatedAt := now)]
          && currentWheelSetId == old(currentWheelSetId) && saved == Some(State())
      ensures isSpinning == old(isSpinning) && lastResult == old(lastResult)
    {
      match FindSet(wheelSets, Some(id))
      case None =>
      case Some(k) =>
        wheelSets := wheelSets[k := wheelSets[k].(name := name, updatedAt := now)];
        Save();
    }

    /**
     * deleteSet: the first set with the id is removed; if it was the
     * current one, the first remaining set becomes current (none if the
     * list is now empty). A current set that existed still exists while
     * any set is left.
     */
    method DeleteSet(id: string)
      modifies this
      ensures match FindSet(old(wheelSets), Some(id))
        case None => unchanged(this)
        case Some(k) =>
          && wheelSets == old(wheelSets)[..k] + old(wheelSets)[k + 1..]
          && currentWheelSetId == (if old(currentWheelSetId) == Some(id)
               then (if wheelSets == [] then None else Some(wheelSets[0].id))
               else old(currentWheelSetId))
          && saved == Some(State())
      ensures old(CurrentSet()).Some? && wheelSets != [] ==> CurrentSet().Some?
      ensures isSpinning == old(isSpinning) && lastResult == old(lastResult)
    {
      ghost var before := wheelSets;
      ghost var current := CurrentSet();
      match FindSet(wheelSets, Some(id))
      case None =>
      case Some(k) =>
        wheelSets := wheelSets[..k] + wheelSets[k + 1..];
        if currentWheelSetId == Some(id) {
          currentWheelSetId := if wheelSets == [] then None else Some(wheelSets[0].id);
        } else if current.Some? && wheelSets != [] {
          var j :| 0 <= j < |before| && before[j] == current.value;
          assert j != k;
          if j < k {
            assert wheelSets[j] == before[j];
          } else {
            assert wheelSets[j - 1] == before[j];
          }
        }
        Save();
    }

    /** addItem: an item with id `${Date.now()}` is appended to the first set with the id. */
    method AddItem(setId: string, name: string, nowMs: nat, now: string)
      modifies this
      ensures match FindSet(old(wheelSets), Some(setId))
        case None => unchanged(this)
        case Some(k) =>
          var s := old(wheelSets)[k];
          && wheelSets == old(wheelSets)[k := s.(items := s.items + [WheelItem(NatToString(nowMs), name, None)], updatedAt := now)]
          && currentWheelSetId == old(currentWheelSetId) && saved == Some(State())
      ensures isSpinning == old(isSpinning) && lastResult == old(lastResult)
    {
      match FindSet(wheelSets, Some(setId))
      case None =>
      case Some(k) =>
        var s := wheelSets[k];
        wheelSets := wheelSets[k := s.(items := s.items + [WheelItem(NatToString(nowMs), name, None)], updatedAt := now)];
        Save();
    }

    /**
     * removeItem: the first item with the id is removed from the set; the
     * set's timestamp is renewed and the state saved even when no item
     * matched.
     */
    method RemoveItem(setId: string, itemId: string, now: string)
      modifies this
      ensures match FindSet(old(wheelSets), Some(setId))
        case None => unchanged(this)
        case Some(k) =>
          var s := old(wheelSets)[k];
          && |wheelSets| == |old(wheelSets)|
          && wheelSets == old(wheelSets)[k := wheelSets[k]]
          && wheelSets[k] == s.(items := wheelSets[k].items, updatedAt := now)
          && (match FindItem(s.items, itemId)
              case None => wheelSets[k].items == s.items
              case Some(i) => wheelSets[k].items == s.items[..i] + s.items[i + 1..])
          && currentWheelSetId == old(currentWheelSetId) && saved == Some(State())
      ensures isSpinning == old(isSpinning) && lastResult == old(lastResult)
    {
      match FindSet(wheelSets, Some(setId))
      case None =>
      case Some(k) =>
        var s := wheelSets[k];
        var items := s.items;
        var found := FindItem(items, itemId);
        if found.Some? {
          items := items[..found.value] + items[found.value + 1..];
        }
        wheelSets := wheelSets[k := s.(items := items, updatedAt := now)];
        Save();
    }

    /** updateSet: the name and the item list are replaced by those the payload carries. */
    method UpdateSet(setId: string, patch: SetPatch, now: string)
      modifies this
      ensures match FindSet(old(wheelSets), Some(setId))
        case None => unchanged(this)
        case Some(k) =>
          var s := old(wheelSets)[k];
          && wheelSets == old(wheelSets)[k := s.(
               name := if patch.name.Some? then patch.name.value else s.name,
               items := if patch.items.Some? then patch.items.value else s.items,
               updatedAt := now)]
          && currentWheelSetId == old(currentWheelSetId) && saved == Some(State())
      ensures isSpinning == old(isSpinning) && lastResult == old(lastResult)
    {
      match FindSet(wheelSets, Some(setId))
      case None =>
      case Some(k) =>
        var s := wheelSets[k];
        if patch.name.Some? {
          s := s.(name := patch.name.value);
        }
        if patch.items.Some? {
          s := s.(items := patch.items.value);
        }
        wheelSets := wheelSets[k := s.(updatedAt := now)];
        Save();
    }

    /** updateItemName: renames the first matching item; an unknown set or item changes nothing. */
    method UpdateItemName(setId: string, itemId: string, name: string, now: string)
      modifies this
      ensures match FindSet(old(wheelSets), Some(setId))
        case None => unchanged(this)
        case Some(k) =>
          var s := old(wheelSets)[k];
          match FindItem(s.items, itemId)
          case None => unchanged(this)
          case Some(i) =>
            && wheelSets == old(wheelSets)[k := s.(items := s.items[i := s.items[i].(name := name)], updatedAt := now)]
            && currentWheelSetId == old(currentWheelSetId) && saved == Some(State())
      ensures isSpinning == old(isSpinning) && lastResult == old(lastResult)
    {
      match FindSet(wheelSets, Some(setId))
      case None =>
      case Some(k) =>
        var s := wheelSets[k];
        match FindItem(s.items, itemId)
        case None =>
        case Some(i) =>
          wheelSets := wheelSets[k := s.(items := s.items[i := s.items[i].(name := name)], updatedAt := now)];
          Save();
    }

    /**
     * reorderItems, with the out-of-range case corrected: the set's items
     * become Move(items, fromIndex, toIndex), a permutation of them.
     */
    method ReorderItems(setId: string, fromIndex: int, toIndex: int, now: string)
      modifies this
      ensures match FindSet(old(wheelSets), Some(setId))
        case None => unchanged(this)
        case Some(k) =>
          var s := old(wheelSets)[k];
          && wheelSets == old(wheelSets)[k := s.(items := Move(s.items, fromIndex, toIndex), updatedAt := now)]
          && currentWheelSetId == old(currentWheelSetId) && saved == Some(State())
      ensures isSpinning == old(isSpinning) && lastResult == old(lastResult)
    {
      match FindSet(wheelSets, Some(setId))
      case None =>
      case Some(k) =>
        var s := wheelSets[k];
        wheelSets := wheelSets[k := s.(items := Move(s.items, fromIndex, toIndex), updatedAt := now)];
        Save();
    }
  }
}

=== FILE: wheel_canvas.dfy ===
/**
 * The wheel-canvas component of the mini-program
 * (miniProgram/components/wheel-canvas/wheel-canvas.js): which item the
 * pointer shows, which sector a tap lands on, the spin animation frame by
 * frame, the tick events sent while it turns, and the particle update.
 * Drawing, timers and particle creation are not part of this model; the
 * clock and Math.random() draws are parameters.
 */
module WheelCanvas {
  import opened Wrappers
  import opened Draws
  import opened WheelMath
  import opened JsArrays
  import opened MiniData

  // ---- particles ----

  /** A particle of the spin effects; `life` counts the frames left. */
  datatype Particle = Particle(
    x: real, y: real, vx: real, vy: real, gravity: real,
    life: int, maxLife: real, color: string, size: real)

  /** One frame of a particle: it moves by its velocity, falls by gravity and ages by one. */
  function Advance(p: Particle): Particle
  {
    p.(x := p.x + p.vx, y := p.y + p.vy, vy := p.vy + p.gravity, life := p.life - 1)
  }

  predicate Alive(p: Particle)
  {
    p.life > 0
  }

  function Advanced(ps: seq<Particle>): (r: seq<Particle>)
    ensures |r| == |ps|
  {
    seq(|ps|, i requires 0 <= i < |ps| => Advance(ps[i]))
  }

  /** What updateParticles keeps: every particle advanced one frame, the dead ones dropped. */
  function Survivors(ps: seq<Particle>): seq<Particle>
  {
    Filter(Advanced(ps), Alive)
  }

  /**
   * The survivors are the advanced particles that still have life, and no
   * more than there were.
   */
  lemma SurvivorsAreAlive(ps: seq<Particle>)
    ensures |Survivors(ps)| <= |ps|
    ensures forall q | q in Survivors(ps) :: q.life > 0 && exists p | p in ps :: q == Advance(p)
    ensures forall p | p in ps && p.life > 1 :: Advance(p) in Survivors(ps)
  {
    var a := Advanced(ps);
    forall q | q in Survivors(ps)
      ensures q.life > 0 && exists p | p in ps :: q == Advance(p)
    {
      assert Alive(q) by {
        var i :| 0 <= i < |Survivors(ps)| && Survivors(ps)[i] == q;
      }
      assert q in a;
      var i :| 0 <= i < |a| && a[i] == q;
      assert ps[i] in ps;
    }
    forall p | p in ps && p.life > 1
      ensures Advance(p) in Survivors(ps)
    {
      var i :| 0 <= i < |ps| && ps[i] == p;
      assert a[i] == Advance(p);
    }
  }

  lemma SurvivorsAppend(a: seq<Particle>, b: seq<Particle>)
    ensures Survivors(a + b) == Survivors(a) + Survivors(b)
  {
    assert Advanced(a + b) == Advanced(a) + Advanced(b);
    FilterAppend(Advanced(a), Advanced(b), Alive);
  }

  /**
   * Particles made by createParticles and createFireworkBurst start with
   * life 1, so the next update removes every one of them.
   */
  lemma FreshParticlesVanish(ps: seq<Particle>)
    requires forall i | 0 <= i < |ps| :: ps[i].life == 1
    ensures Survivors(ps) == []
  {
    assert forall i | 0 <= i < |ps| :: !Alive(Advanced(ps)[i]);
    FilterNone(Advanced(ps), Alive);
  }

  lemma SurvivorsStep(ps: seq<Particle>, i: nat)
    requires i < |ps|
    ensures Survivors(ps[..i + 1])
      == Survivors(ps[..i]) + (if Alive(Advance(ps[i])) then [Advance(ps[i])] else [])
  {
    assert ps[..i + 1] == ps[..i] + [ps[i]];
    SurvivorsAppend(ps[..i], [ps[i]]);
    assert Advanced([ps[i]]) == [Advance(ps[i])];
  }

  /** The filtering loop of updateParticles. */
  method FilterParticles(ps: seq<Particle>) returns (kept: seq<Particle>)
    ensures kept == Survivors(ps)
  {
    kept := [];
    var i := 0;
    while i < |ps|
      invariant 0 <= i <= |ps|
      invariant kept == Survivors(ps[..i])
    {
      var q := Advance(ps[i]);
      SurvivorsStep(ps, i);
      if q.life > 0 {
        kept := kept + [q];
      }
      i := i + 1;
    }
    assert ps[..i] == ps;
  }

  // ---- the component ----

  /** The events the component triggers: 'current-change' (item or null) and 'end'. */
  datatype Event = CurrentChange(item: Option<MiniItem>) | End(result: MiniItem)

  /** The spin in progress: the items it started with, its plan and its start time (ms). */
  datatype Animation = Animation(items: seq<MiniItem>, plan: SpinPlan, startTime: int)

  /** The label updateRealtimeText shows for the item under the pointer. */
  function RealtimeText(spinning: bool, name: string): string
  {
    if spinning then "正在转向: " + name else "结果: " + name
  }

  class Wheel {
    var items: seq<MiniItem>
    var currentRotation: real
    var isSpinning: bool
    var lastResult: Option<MiniItem>
    var lastTickSector: int
    var currentText: string
    var particles: seq<Particle>
    /** The pending animate() callback, if a spin is running. */
    var animation: Option<Animation>

    /**
     * A spin is running exactly while isSpinning is set, and the running
     * spin's plan ends with the pointer on its target item.
     */
    ghost predicate Valid()
      reads this
    {
      && isSpinning == animation.Some?
      && (animation.Some? ==>
        var a := animation.value;
        && 0 < |a.items| && a.plan.targetIdx < |a.items|
        && 3600.0 <= a.plan.duration && 0.0 <= a.plan.delta
        && FocusedIndex(|a.items|, a.plan.start + a.plan.delta) == a.plan.targetIdx)
    }

    constructor(items: seq<MiniItem>)
      ensures Valid()
      ensures this.items == items && currentRotation == 0.0 && !isSpinning
      ensures lastResult.None? && lastTickSector == -1 && currentText == "点击GO开始" && particles == []
    {
      this.items := items;
      currentRotation := 0.0;
      isSpinning := false;
      lastResult := None;
      lastTickSector := -1;
      currentText := "点击GO开始";
      particles := [];
      animation := None;
    }

    /**
     * emitCurrentChange: with items, the item under the pointer is sent
     * and the realtime text names it; without items, null is sent.
     */
    method EmitCurrentChange() returns (ev: Event)
      modifies this
      ensures items == [] ==> ev == CurrentChange(None) && currentText == old(currentText)
      ensures items != [] ==>
        var it := items[FocusedIndex(|items|, currentRotation)];
        ev == CurrentChange(Some(it)) && currentText == RealtimeText(isSpinning, it.name)
      ensures items == old(items) && currentRotation == old(currentRotation) && isSpinning == old(isSpinning)
      ensures lastResult == old(lastResult) && lastTickSector == old(lastTickSector)
      ensures particles == old(particles) && animation == old(animation)
    {
      if |items| > 0 {
        var idx := FocusedIndex(|items|, currentRotation);
        currentText := RealtimeText(isSpinning, items[idx].name);
        ev := CurrentChange(Some(items[idx]));
      } else {
        ev := CurrentChange(None);
      }
    }

    /**
     * playTickIfNewSector: an event is sent exactly when the pointer has
     * entered a different sector since the last tick, and the new sector
     * is recorded.
     */
    method PlayTickIfNewSector() returns (events: seq<Event>)
      modifies this
      ensures lastTickSector == FocusedIndex(|items|, currentRotation)
      ensures events == [] <==> old(lastTickSector) == lastTickSector
      ensures events != [] ==> events == [CurrentChange(
        if items == [] then None else Some(items[FocusedIndex(|items|, currentRotation)]))]
      ensures items == old(items) && currentRotation == old(currentRotation) && isSpinning == old(isSpinning)
      ensures lastResult == old(lastResult) && particles == old(particles) && animation == old(animation)
      ensures events != [] && items != [] ==>
        currentText == RealtimeText(isSpinning, items[FocusedIndex(|items|, currentRotation)].name)
      ensures events == [] || items == [] ==> currentText == old(currentText)
    {
      var idx := FocusedIndex(|items|, currentRotation);
      if idx != lastTickSector {
        lastTickSector := idx;
        var ev := EmitCurrentChange();
        events := [ev];
      } else {
        events := [];
      }
    }

    /** handleItemClick: the item in the sector at `clickAngle` (atan2 of the tap), none without items. */
    function ClickedItem(clickAngle: real): (r: Option<MiniItem>)
      reads this
      ensures r.Some? <==> items != []
      ensures r.Some? ==> r.value in items
    {
      if items == [] then None else Some(items[ClickedIndex(|items|, clickAngle, currentRotation)])
    }

    /** Tapping straight below the centre, where the pointer is, selects the item the pointer shows. */
    lemma TapUnderPointer()
      requires items != []
      ensures ClickedItem(-(PI as real) / 2.0) == Some(items[FocusedIndex(|items|, currentRotation)])
    {
      ClickAtPointer(|items|, currentRotation);
    }

    /** updateParticles: every particle advances one frame and those without life left are dropped. */
    method UpdateParticles()
      modifies this
      ensures particles == Survivors(old(particles))
      ensures items == old(items) && currentRotation == old(currentRotation) && isSpinning == old(isSpinning)
      ensures lastResult == old(lastResult) && lastTickSector == old(lastTickSector)
      ensures currentText == old(currentText) && animation == old(animation)
    {
      particles := FilterParticles(particles);
    }

    /**
     * One call of animate(), at clock reading `now`: the wheel turns to
     * the eased rotation, a tick is sent on entering a new sector, and once
     * the duration has elapsed the spin ends on the target item, which is
     * then the item under the pointer, and 'end' is sent with it.
     */
    method Frame(now: int) returns (events: seq<Event>, finished: bool)
      requires Valid() && animation.Some?
      modifies this
      ensures Valid()
      ensures var a := old(animation).value;
        && currentRotation == RotationAt(a.plan, (now - a.startTime) as real)
        && (finished <==> (now - a.startTime) as real >= a.plan.duration)
        && (now >= a.startTime ==> a.plan.start <= currentRotation <= a.plan.start + a.plan.delta)
      ensures lastTickSector == FocusedIndex(|items|, currentRotation)
      ensures !finished ==> animation == old(animation) && lastResult == old(lastResult)
      ensures finished ==> var a := old(animation).value;
        && animation.None? && !isSpinning
        && currentRotation == a.plan.start + a.plan.delta
        && lastResult == Some(a.items[a.plan.targetIdx])
        && lastResult == Some(a.items[FocusedIndex(|a.items|, currentRotation)])
        && currentText == "恭喜！结果是: " + a.items[a.plan.targetIdx].name
        && |events| >= 1 && events[|events| - 1] == End(a.items[a.plan.targetIdx])
      ensures !finished ==> isSpinning && (events == [] <==> old(lastTickSector) == lastTickSector)
      ensures !finished && events != [] ==> events == [CurrentChange(
        if items == [] then None else Some(items[FocusedIndex(|items|, currentRotation)]))]
      ensures !finished && events != [] && items != [] ==>
        currentText == RealtimeText(true, items[FocusedIndex(|items|, currentRotation)].name)
      ensures items == old(items) && particles == old(particles)
    {
      var a := animation.value;
      var elapsed := (now - a.startTime) as real;
      var progress := Progress(elapsed, a.plan.duration);
      currentRotation := RotationAt(a.plan, elapsed);
      if now >= a.startTime {
        RotationWithinSpin(a.plan, elapsed);
      }
      events := PlayTickIfNewSector();
      finished := progress >= 1.0;
      if finished {
        RotationAtEnd(a.plan, elapsed);
        isSpinning := false;
        lastResult := Some(a.items[a.plan.targetIdx]);
        currentText := "恭喜！结果是: " + a.items[a.plan.targetIdx].name;
        animation := None;
        events := events + [End(a.items[a.plan.targetIdx])];
      }
    }

    /**
     * spin: ignored while spinning or without items; otherwise the target
     * and the animation are planned from the draws and the first frame
     * runs at once, at the start time. That frame leaves the wheel where it
     * was and sends the item under the pointer, since no tick was recorded.
     */
    method Spin(roundsDraw: Draw, targetDraw: Draw, durationDraw: Draw, now: int)
      returns (started: bool, events: seq<Event>)
      requires Valid()
      modifies this
      ensures Valid()
      ensures started <==> !old(isSpinning) && old(items) != []
      ensures !started ==> events == [] && unchanged(this)
      ensures started ==>
        && items != []
        && animation == Some(Animation(items, PlanSpin(|items|, old(currentRotation), roundsDraw, targetDraw, durationDraw), now))
        && isSpinning && lastResult.None?
        && currentRotation == old(currentRotation)
        && lastTickSector == FocusedIndex(|items|, currentRotation)
        && events == [CurrentChange(Some(items[FocusedIndex(|items|, currentRotation)]))]
        && currentText == RealtimeText(true, items[FocusedIndex(|items|, currentRotation)].name)
      ensures items == old(items) && particles == old(particles)
    {
      if isSpinning || |items| == 0 {
        return false, [];
      }
      started := true;
      isSpinning := true;
      lastResult := None;
      lastTickSector := -1;
      currentText := "转盘旋转中...";
      var plan := PlanSpin(|items|, currentRotation, roundsDraw, targetDraw, durationDraw);
      animation := Some(Animation(items, plan, now));
      RotationAtStart(plan);
      var finished;
      events, finished := Frame(now);
    }
  }
}

=== FILE: wheel_math.dfy ===
/**
 * Angle and index arithmetic of the mini-program wheel component
 * (miniProgram/components/wheel-canvas/wheel-canvas.js).
 *
 * Angles are idealised as exact reals and PI as an unspecified positive
 * constant standing for Math.PI: every result below holds whatever its value.
 * JavaScript's `%` truncates toward zero, so it is modelled by JsRem and not
 * by Dafny's Euclidean `%`.
 */
module WheelMath {
  import opened Draws

  type PositiveReal = r: real | r > 0.0 witness 1.0

  const PI: PositiveReal
  const TWO_PI: real := 2.0 * PI
  /** The pointer sits at 3π/2 in the wheel's drawing frame. */
  const POINTER_ANGLE: real := 3.0 * PI / 2.0

  // ---- small facts of real arithmetic ----

  lemma UpperStep(x: real, d: real, q: real, t: real)
    requires d > 0.0 && d * q == x && q < t + 1.0
    ensures x < d * t + d
  {
    ScaleBelow(d, q, t + 1.0);
  }

  lemma LowerStep(x: real, d: real, q: real, t: real)
    requires d > 0.0 && d * q == x && t <= q
    ensures d * t <= x
  {
    ScaleAtMost(d, t, q);
  }

  lemma AtLeastNext(x: real, d: real, q: real, t: real)
    requires d > 0.0 && d * q == x && t + 1.0 <= q
    ensures d * t + d <= x
  {
    ScaleAtMost(d, t + 1.0, q);
  }

  lemma UpperStepNeg(x: real, d: real, q: real, t: real)
    requires d > 0.0 && d * q == x && q <= t
    ensures x <= d * t
  {
    ScaleAtMost(d, q, t);
  }

  lemma LowerStepNeg(x: real, d: real, q: real, t: real)
    requires d > 0.0 && d * q == x && t - 1.0 < q
    ensures d * t - d < x
  {
    ScaleBelow(d, t - 1.0, q);
  }

  lemma ModOfSmall(f: int, n: int)
    requires 0 <= f < n
    ensures f % n == f
  {
  }

  lemma DivTimes(x: real, d: real)
    requires d != 0.0
    ensures x / d * d == x
  {
  }

  lemma TimesDiv(y: real, d: real)
    requires d != 0.0
    ensures y * d / d == y
  {
  }

  /** Math.trunc on reals. */
  function Trunc(x: real): (t: int)
    ensures x >= 0.0 ==> t as real <= x < t as real + 1.0
    ensures x < 0.0 ==> t as real - 1.0 < x <= t as real
  {
    if x >= 0.0 then x.Floor else -((-x).Floor)
  }

  /** Bounds of x - d*t when t is x/d truncated; q stands for x/d. */
  lemma RemBounds(x: real, d: real, q: real, t: real)
    requires d > 0.0 && d * q == x
    requires x >= 0.0 ==> t <= q < t + 1.0
    requires x < 0.0 ==> t - 1.0 < q <= t
    ensures -d < x - d * t < d
    ensures x >= 0.0 ==> 0.0 <= x - d * t
    ensures x < 0.0 ==> x - d * t <= 0.0
  {
    if x >= 0.0 {
      LowerStep(x, d, q, t);
      UpperStep(x, d, q, t);
    } else {
      LowerStepNeg(x, d, q, t);
      UpperStepNeg(x, d, q, t);
    }
  }

  lemma TruncatedRemainderBounds(x: real, d: real)
    requires d > 0.0
    ensures -d < x - d * Trunc(x / d) as real < d
    ensures x >= 0.0 ==> 0.0 <= x - d * Trunc(x / d) as real
    ensures x <= 0.0 ==> x - d * Trunc(x / d) as real <= 0.0
  {
    if x == 0.0 {
      assert x / d == 0.0;
    } else {
      DivTimes(x, d);
      RemBounds(x, d, x / d, Trunc(x / d) as real);
    }
  }

  /** JavaScript's `x % d` for d > 0: the remainder keeps the sign of x. */
  function JsRem(x: real, d: real): (r: real)
    requires d > 0.0
    ensures -d < r < d
    ensures x >= 0.0 ==> 0.0 <= r
    ensures x <= 0.0 ==> r <= 0.0
  {
    TruncatedRemainderBounds(x, d);
    x - d * Trunc(x / d) as real
  }

  /** A remainder is the dividend minus a whole number of divisors. */
  lemma JsRemCongruent(x: real, d: real) returns (k: int)
    requires d > 0.0
    ensures JsRem(x, d) == x - d * k as real
  {
    k := Trunc(x / d);
  }

  /**
   * For a non-negative dividend congruent to c with 0 <= c < d,
   * JavaScript's remainder is exactly c.
   */
  lemma JsRemOfCongruent(x: real, d: real, c: real, m: int)
    requires d > 0.0 && 0.0 <= c < d && x >= 0.0
    requires x == c + d * m as real
    ensures JsRem(x, d) == c
  {
    var q := x / d;
    var mr := m as real;
    DivTimes(x, d);
    if q < mr {
      ScaleBelow(d, q, mr);
      assert false;
    }
    if mr + 1.0 <= q {
      AtLeastNext(x, d, q, mr);
      assert false;
    }
    assert q.Floor == m;
    assert Trunc(q) == m;
  }

  /** An empty wheel is drawn with one placeholder sector. */
  function SectorCount(itemCount: nat): (n: nat)
    ensures n >= 1
    ensures itemCount > 0 ==> n == itemCount
  {
    if itemCount == 0 then 1 else itemCount
  }

  function SectorAngle(count: nat): (a: real)
    requires count > 0
    ensures a > 0.0 && a * count as real == TWO_PI
  {
    DivTimes(TWO_PI, count as real);
    TWO_PI / count as real
  }

  /** The pointer's position in the wheel's own frame, in [0, 2π). */
  function PointerPosition(rotation: real): (pos: real)
    ensures 0.0 <= pos < TWO_PI
  {
    var normalized := JsRem(POINTER_ANGLE - rotation, TWO_PI);
    JsRem(normalized + TWO_PI, TWO_PI)
  }

  /** Where pos lies relative to the sector boundaries; q stands for pos/a. */
  lemma SectorBounds(pos: real, a: real, q: real, count: nat)
    requires count > 0 && a > 0.0 && a * q == pos && 0.0 <= pos < a * count as real
    ensures 0 <= q.Floor < count
    ensures q.Floor as real * a <= pos < (q.Floor + 1) as real * a
  {
    var f := q.Floor as real;
    if q < 0.0 {
      ScaleBelow(a, q, 0.0);
    }
    if q >= count as real {
      ScaleAtMost(a, count as real, q);
    }
    LowerStep(pos, a, q, f);
    UpperStep(pos, a, q, f);
  }

  /** Index of the sector containing `pos`, for 0 <= pos < 2π. */
  function SectorOf(pos: real, count: nat): (i: nat)
    requires count > 0 && 0.0 <= pos < TWO_PI
    ensures i < count
    ensures i as real * SectorAngle(count) <= pos < (i + 1) as real * SectorAngle(count)
  {
    var a := SectorAngle(count);
    var q := pos / a;
    DivTimes(pos, a);
    SectorBounds(pos, a, q, count);
    ModOfSmall(q.Floor, count);
    q.Floor % count
  }

  /** getFocusedIndex: the sector under the pointer at rotation `rotation`. */
  function FocusedIndex(itemCount: nat, rotation: real): (i: nat)
    ensures i < SectorCount(itemCount)
  {
    SectorOf(PointerPosition(rotation), SectorCount(itemCount))
  }

  /**
   * handleItemClick's index: `clickAngle` is Math.atan2's result, in (-π, π];
   * the sector at that angle in the wheel's own frame.
   */
  function ClickedIndex(itemCount: nat, clickAngle: real, rotation: real): (i: nat)
    requires itemCount > 0
    ensures i < itemCount
  {
    var angle := if clickAngle < 0.0 then clickAngle + 2.0 * PI else clickAngle;
    var adjusted := JsRem(JsRem(angle - rotation, TWO_PI) + TWO_PI, TWO_PI);
    SectorOf(adjusted, itemCount)
  }

  /** What spin computes before the animation starts. */
  datatype SpinPlan = SpinPlan(baseRounds: int, targetIdx: nat, start: real, delta: real, duration: real)

  /** baseRounds = 4 + floor(random * 2). */
  function BaseRounds(draw: Draw): (b: int)
    ensures b == 4 || b == 5
  {
    4 + Pick(2, draw)
  }

  /** The rotation that puts the centre of sector targetIdx under the pointer, plus baseRounds turns. */
  function TargetRotation(n: nat, targetIdx: nat, baseRounds: int): real
    requires n > 0
  {
    baseRounds as real * TWO_PI + (POINTER_ANGLE - (targetIdx as real + 0.5) * SectorAngle(n))
  }

  /** delta = ((finalRotation - start) % 2π) + baseRounds * 2π. */
  function SpinDelta(n: nat, targetIdx: nat, baseRounds: int, start: real): real
    requires n > 0
  {
    JsRem(TargetRotation(n, targetIdx, baseRounds) - start, TWO_PI) + baseRounds as real * TWO_PI
  }

  /**
   * spin's target and delta computation from its three Math.random draws:
   * 4 or 5 base rounds, a valid target, a forward turn of more than
   * (baseRounds - 1) and less than (baseRounds + 1) whole turns, and the
   * pointer ends over the target.
   */
  function PlanSpin(n: nat, start: real, roundsDraw: Draw, targetDraw: Draw, durationDraw: Draw): (p: SpinPlan)
    requires n > 0
    ensures p.baseRounds == 4 || p.baseRounds == 5
    ensures p.targetIdx < n && p.start == start
    ensures (p.baseRounds - 1) as real * TWO_PI < p.delta < (p.baseRounds + 1) as real * TWO_PI
    ensures p.delta > 3.0 * TWO_PI
    ensures 3600.0 <= p.duration < 4500.0
    ensures FocusedIndex(n, p.start + p.delta) == p.targetIdx
  {
    var b := BaseRounds(roundsDraw);
    var t := Pick(n, targetDraw);
    SpinLandsOnTarget(n, t, b, start);
    ScaleAtMost(900.0, 0.0, durationDraw);
    ScaleBelow(900.0, durationDraw, 1.0);
    SpinPlan(b, t, start, SpinDelta(n, t, b, start), 3600.0 + durationDraw * 900.0)
  }

  lemma CancelFactor(a: real, q: real, y: real)
    requires a > 0.0 && a * q == a * y
    ensures q == y
  {
    if q < y {
      ScaleBelow(a, q, y);
    } else if y < q {
      ScaleBelow(a, y, q);
    }
  }

  /** The centre of sector t lies strictly inside one turn. */
  lemma SectorCentreInTurn(n: nat, t: nat)
    requires n > 0 && t < n
    ensures 0.0 < (t as real + 0.5) * SectorAngle(n) < TWO_PI
  {
    var a := SectorAngle(n);
    ScaleBelow(a, 0.0, t as real + 0.5);
    ScaleBelow(a, t as real + 0.5, n as real);
    assert a * (t as real + 0.5) == (t as real + 0.5) * a;
  }

  lemma Regroup(c: real, d: real, j: real, k: real)
    ensures c - d * j - d * k + d == c + d * (1.0 - j - k)
  {
  }

  lemma Shift(x: real, d: real, b: real, k: real)
    ensures x - d * k + b * d == x + d * (b - k)
  {
  }

  /** The end rotation of a spin is its target rotation plus whole turns. */
  lemma EndRotation(n: nat, t: nat, b: int, start: real) returns (j: int)
    requires n > 0
    ensures start + SpinDelta(n, t, b, start) == TargetRotation(n, t, b) + TWO_PI * j as real
  {
    var final := TargetRotation(n, t, b);
    var k := JsRemCongruent(final - start, TWO_PI);
    Shift(final, TWO_PI, b as real, k as real);
    j := b - k;
  }

  /** At a rotation congruent to POINTER_ANGLE - c, the pointer is at c. */
  lemma PointerAt(rot: real, c: real, j: int)
    requires 0.0 <= c < TWO_PI
    requires rot == POINTER_ANGLE - c + TWO_PI * j as real
    ensures PointerPosition(rot) == c
  {
    var d := TWO_PI;
    var k := JsRemCongruent(POINTER_ANGLE - rot, d);
    var normalized := JsRem(POINTER_ANGLE - rot, d);
    assert normalized == c - d * j as real - d * k as real;
    Regroup(c, d, j as real, k as real);
    JsRemOfCongruent(normalized + d, d, c, 1 - j - k);
  }

  /** The centre of sector t lies in sector t. */
  lemma CentreInSector(n: nat, t: nat)
    requires n > 0 && t < n
    ensures 0.0 <= (t as real + 0.5) * SectorAngle(n) < TWO_PI
    ensures SectorOf((t as real + 0.5) * SectorAngle(n), n) == t
  {
    var a := SectorAngle(n);
    var c := (t as real + 0.5) * a;
    SectorCentreInTurn(n, t);
    var q := c / a;
    DivTimes(c, a);
    CancelFactor(a, q, t as real + 0.5);
    assert q.Floor == t;
  }

  /** The end rotation of a spin is POINTER_ANGLE minus the target's centre, plus whole turns. */
  lemma EndRotationForm(n: nat, t: nat, b: int, start: real) returns (m: int)
    requires n > 0
    ensures start + SpinDelta(n, t, b, start)
         == POINTER_ANGLE - (t as real + 0.5) * SectorAngle(n) + TWO_PI * m as real
  {
    var j := EndRotation(n, t, b, start);
    Shift(POINTER_ANGLE - (t as real + 0.5) * SectorAngle(n), TWO_PI, b as real, -j as real);
    m := b + j;
  }

  /**
   * The angle round trip: after turning by SpinDelta from any start, the
   * pointer is over sector t.
   */
  lemma SpinLandsOnTarget(n: nat, t: nat, b: int, start: real)
    requires n > 0 && t < n
    ensures FocusedIndex(n, start + SpinDelta(n, t, b, start)) == t
  {
    var m := EndRotationForm(n, t, b, start);
    CentreInSector(n, t);
    PointerAt(start + SpinDelta(n, t, b, start), (t as real + 0.5) * SectorAngle(n), m);
  }

  /** The easing curve of the spin animation (cubic ease-in-out); Math.pow(x, 3) is x*x*x. */
  function Ease(p: real): real
  {
    if p < 0.5 then 4.0 * p * p * p else 1.0 - Cube(-2.0 * p + 2.0) / 2.0
  }

  function Cube(x: real): real
  {
    x * x * x
  }

  /** progress = min(1, elapsed / duration): capped at 1, and 1 exactly once the duration has elapsed. */
  function Progress(elapsed: real, duration: real): (p: real)
    requires duration > 0.0
    ensures p <= 1.0
    ensures elapsed >= 0.0 ==> p >= 0.0
    ensures p == 1.0 <==> elapsed >= duration
  {
    var q := elapsed / duration;
    QuotientSide(elapsed, duration);
    if 1.0 < q then 1.0 else q
  }

  lemma QuotientSide(x: real, d: real)
    requires d > 0.0
    ensures x >= 0.0 ==> x / d >= 0.0
    ensures x / d < 1.0 <==> x < d
  {
    var q := x / d;
    DivTimes(x, d);
    if q < 0.0 {
      ScaleBelow(d, q, 0.0);
    }
    if q < 1.0 {
      ScaleBelow(d, q, 1.0);
    } else {
      ScaleAtMost(d, 1.0, q);
    }
  }

  /** The curve starts at 0, ends at 1, and its two branches meet at 1/2. */
  lemma EaseEndpoints()
    ensures Ease(0.0) == 0.0
    ensures Ease(1.0) == 1.0
    ensures Ease(0.5) == 0.5
    ensures 4.0 * Cube(0.5) == Ease(0.5)
  {
    assert Cube(0.0) == 0.0;
    assert Cube(1.0) == 1.0;
    assert Cube(0.5) == 0.125;
  }

  lemma CubeMonotone(x: real, y: real)
    requires 0.0 <= x <= y
    ensures 0.0 <= Cube(x) <= Cube(y)
  {
    ScaleAtMost(x, x, y);
    ScaleAtMost(y, x, y);
    assert x * x <= y * y;
    ScaleAtMost(x, x * x, y * y);
    ScaleAtMost(y * y, x, y);
    assert x * (x * x) <= y * y * y;
  }

  /** The eased progress never decreases on [0, 1] and stays within [0, 1]. */
  lemma EaseMonotone(p: real, q: real)
    requires 0.0 <= p <= q <= 1.0
    ensures 0.0 <= Ease(p) <= Ease(q) <= 1.0
  {
    var u := -2.0 * q + 2.0;
    if q < 0.5 {
      CubeMonotone(p, q);
      CubeMonotone(q, 0.5);
      assert Ease(p) == 4.0 * Cube(p) && Ease(q) == 4.0 * Cube(q);
    } else if p < 0.5 {
      CubeMonotone(p, 0.5);
      CubeMonotone(0.0, u);
      CubeMonotone(u, 1.0);
      assert Ease(p) == 4.0 * Cube(p);
    } else {
      CubeMonotone(u, -2.0 * p + 2.0);
      CubeMonotone(-2.0 * p + 2.0, 1.0);
      CubeMonotone(0.0, u);
    }
  }

  lemma DivMonotone(x: real, y: real, d: real)
    requires d > 0.0 && x <= y
    ensures x / d <= y / d
  {
    DivTimes(x, d);
    DivTimes(y, d);
  }

  /** The rotation an animation frame shows `elapsed` ms into a spin: start + delta * ease(progress). */
  function RotationAt(p: SpinPlan, elapsed: real): (r: real)
    requires p.duration > 0.0
  {
    p.start + p.delta * Ease(Progress(elapsed, p.duration))
  }

  /** The first frame shows the start rotation. */
  lemma RotationAtStart(p: SpinPlan)
    requires p.duration > 0.0
    ensures RotationAt(p, 0.0) == p.start
  {
    assert Progress(0.0, p.duration) == 0.0;
    EaseEndpoints();
  }

  /** Every frame from the duration on shows the end rotation start + delta. */
  lemma RotationAtEnd(p: SpinPlan, e: real)
    requires p.duration > 0.0 && e >= p.duration
    ensures RotationAt(p, e) == p.start + p.delta
  {
    assert Progress(e, p.duration) == 1.0;
    EaseEndpoints();
  }

  /**
   * A spin only ever turns forward: a frame at a later time shows a
   * rotation no smaller than an earlier one.
   */
  lemma RotationForward(p: SpinPlan, e1: real, e2: real)
    requires p.duration > 0.0 && p.delta >= 0.0
    requires 0.0 <= e1 <= e2
    ensures RotationAt(p, e1) <= RotationAt(p, e2)
  {
    ProgressMonotone(e1, e2, p.duration);
    EaseMonotone(Progress(e1, p.duration), Progress(e2, p.duration));
    ScaleAtMost(p.delta, Ease(Progress(e1, p.duration)), Ease(Progress(e2, p.duration)));
  }

  /** Every frame of a spin shows a rotation between its start and its end rotation. */
  lemma RotationWithinSpin(p: SpinPlan, e: real)
    requires p.duration > 0.0 && p.delta >= 0.0 && e >= 0.0
    ensures p.start <= RotationAt(p, e) <= p.start + p.delta
  {
    ProgressMonotone(e, e, p.duration);
    EaseMonotone(Progress(e, p.duration), Progress(e, p.duration));
    var s := Ease(Progress(e, p.duration));
    ScaledBetween(p.start, p.delta, s, s);
    assert RotationAt(p, e) == p.start + p.delta * s;
  }

  lemma ScaledBetween(start: real, delta: real, s1: real, s2: real)
    requires delta >= 0.0 && 0.0 <= s1 <= s2 <= 1.0
    ensures start <= start + delta * s1 <= start + delta * s2 <= start + delta
  {
    ScaleAtMost(delta, 0.0, s1);
    ScaleAtMost(delta, s1, s2);
    ScaleAtMost(delta, s2, 1.0);
  }

  lemma ProgressMonotone(e1: real, e2: real, d: real)
    requires d > 0.0 && 0.0 <= e1 <= e2
    ensures 0.0 <= Progress(e1, d) <= Progress(e2, d) <= 1.0
  {
    DivMonotone(e1, e2, d);
  }

  /**
   * Clicking straight under the pointer (atan2 gives -π/2 there) selects
   * the item the pointer shows.
   */
  lemma ClickAtPointer(n: nat, rotation: real)
    requires n > 0
    ensures ClickedIndex(n, -(PI as real) / 2.0, rotation) == FocusedIndex(n, rotation)
  {
    assert -(PI as real) / 2.0 + 2.0 * PI == POINTER_ANGLE;
  }
}

=== FILE: wheel_service.dfy ===
/**
 * The server-side wheel repository (WheelService of the API): wheel sets
 * owned by users and the items on each set, stored as two tables.
 *
 * The two tables are maps from row id to row. Ids come from one counter,
 * `nextId`, so a larger id means a later `createdAt`. Every database call of
 * the service becomes one step on these maps; a Prisma "record not found"
 * failure becomes `Internal`, a NotFoundException becomes `NotFound`.
 */
module WheelApi {
  import opened Wrappers
  import opened JsValues

  type Id = nat

  datatype SetRow = SetRow(userId: string, name: string, version: int)

  datatype ItemRow = ItemRow(setId: Id, name: string, description: Option<string>, color: Option<string>, order: int)

  /** The data of an item to create; `description ?? null` and `color ?? null` are already applied. */
  datatype NewItem = NewItem(name: string, description: Option<string>, color: Option<string>, order: int)

  /** An item as returned to the client: its id and its row. */
  datatype ItemView = ItemView(id: Id, row: ItemRow)

  /** A set with its items, as returned by the `include: { items }` queries. */
  datatype SetView = SetView(id: Id, userId: string, name: string, version: int, items: seq<ItemView>)

  datatype ServiceError = NotFound(message: string) | Internal(message: string)

  const SET_NOT_FOUND: string := "Wheel set not found"
  const ITEM_NOT_FOUND: string := "Wheel item not found"
  const NO_VALID_ITEMS: string := "No valid wheel items found for reordering"
  /** Prisma's error when `delete` finds no row. */
  const RECORD_MISSING: string := "Record to delete does not exist."
  /** The TypeError thrown by `s.name` when an imported set entry is null. */
  const NULL_ENTRY: string := "Cannot read properties of null (reading 'name')"
  /** Prisma's validation error for a `color` that is not a string. */
  const BAD_COLOR: string := "Invalid value provided for argument `color`: expected String or Null"
  const UNNAMED: string := "未命名"

  function Row(item: NewItem, setId: Id): ItemRow
  {
    ItemRow(setId, item.name, item.description, item.color, item.order)
  }

  /** The `findFirst({ where: { id, userId } })` ownership test. */
  predicate Owned(sets: map<Id, SetRow>, id: Id, userId: string)
  {
    id in sets && sets[id].userId == userId
  }

  // ---------------------------------------------------------------------
  // Reading a set with its items ordered by `order` ascending

  predicate SortedByOrder(s: seq<ItemView>)
  {
    forall i, j | 0 <= i < j < |s| :: s[i].row.order <= s[j].row.order
  }

  predicate DistinctIds(s: seq<ItemView>)
  {
    forall i, j | 0 <= i < j < |s| :: s[i].id != s[j].id
  }

  /** Inserts `x` before the first element whose order is not smaller. */
  function Insert(x: ItemView, s: seq<ItemView>): (r: seq<ItemView>)
    requires SortedByOrder(s)
    ensures SortedByOrder(r)
    ensures forall w :: w in r <==> w == x || w in s
  {
    if s == [] || x.row.order <= s[0].row.order then [x] + s
    else
      var rest := Insert(x, s[1..]);
      assert forall j | 0 <= j < |rest| :: s[0].row.order <= rest[j].row.order by {
        forall j | 0 <= j < |rest|
          ensures s[0].row.order <= rest[j].row.order
        {
          assert rest[j] in rest;
          if rest[j] != x {
            var m :| 0 <= m < |s[1..]| && s[1..][m] == rest[j];
            assert s[m + 1] == rest[j];
          }
        }
      }
      [s[0]] + rest
  }

  lemma DistinctTail(s: seq<ItemView>)
    requires s != [] && DistinctIds(s)
    ensures DistinctIds(s[1..]) && forall w | w in s[1..] :: w.id != s[0].id
  {
    var t := s[1..];
    forall i, j | 0 <= i < j < |t| ensures t[i].id != t[j].id {
      assert t[i] == s[i + 1] && t[j] == s[j + 1];
    }
    forall w | w in t ensures w.id != s[0].id {
      var m :| 0 <= m < |t| && t[m] == w;
      assert w == s[m + 1];
    }
  }

  lemma DistinctCons(h: ItemView, rest: seq<ItemView>)
    requires DistinctIds(rest) && forall w | w in rest :: w.id != h.id
    ensures DistinctIds([h] + rest)
  {
    var r := [h] + rest;
    forall i, j | 0 <= i < j < |r|
      ensures r[i].id != r[j].id
    {
      assert r[j] == rest[j - 1] && r[j] in rest;
      if i > 0 {
        assert r[i] == rest[i - 1];
      }
    }
  }

  lemma {:induction false} InsertDistinct(x: ItemView, s: seq<ItemView>)
    requires SortedByOrder(s) && DistinctIds(s)
    requires forall w | w in s :: w.id != x.id
    ensures DistinctIds(Insert(x, s))
  {
    if s == [] || x.row.order <= s[0].row.order {
      DistinctCons(x, s);
    } else {
      DistinctTail(s);
      InsertDistinct(x, s[1..]);
      DistinctCons(s[0], Insert(x, s[1..]));
    }
  }

  /** Insertion sort by `order`: the `orderBy: { order: 'asc' }` of the item queries. */
  function SortByOrder(s: seq<ItemView>): (r: seq<ItemView>)
    ensures SortedByOrder(r)
    ensures forall w :: w in r <==> w in s
  {
    if s == [] then []
    else Insert(s[0], SortByOrder(s[1..]))
  }

  /** Sorting keeps distinct ids distinct. */
  lemma {:induction false} SortDistinct(s: seq<ItemView>)
    requires DistinctIds(s)
    ensures DistinctIds(SortByOrder(s))
  {
    if s != [] {
      SortDistinct(s[1..]);
      assert forall w | w in s[1..] :: w.id != s[0].id;
      InsertDistinct(s[0], SortByOrder(s[1..]));
    }
  }

  /** The ids below `bound` of the items of set `setId`, in ascending order. */
  function SetItemIds(items: map<Id, ItemRow>, setId: Id, bound: nat): (ids: seq<Id>)
    ensures forall i | 0 <= i < |ids| :: ids[i] < bound
    ensures forall i, j | 0 <= i < j < |ids| :: ids[i] < ids[j]
    ensures forall k :: k in ids <==> k < bound && k in items && items[k].setId == setId
  {
    if bound == 0 then []
    else
      var prefix := SetItemIds(items, setId, bound - 1);
      if bound - 1 in items && items[bound - 1].setId == setId then prefix + [bound - 1] else prefix
  }

  /**
   * `v` is what the service returns for set `id`: the set's own fields and
   * exactly the set's items, each once, sorted by `order`.
   */
  predicate Describes(v: SetView, id: Id, sets: map<Id, SetRow>, items: map<Id, ItemRow>)
  {
    && id in sets
    && v.id == id
    && v.userId == sets[id].userId
    && v.name == sets[id].name
    && v.version == sets[id].version
    && SortedByOrder(v.items)
    && DistinctIds(v.items)
    && (forall w | w in v.items :: w.id in items && items[w.id] == w.row && w.row.setId == id)
    && (forall k | k in items && items[k].setId == id :: ItemView(k, items[k]) in v.items)
  }

  /** The set `id` with its items ordered by `order`, as `findFirst`/`findMany` return it. */
  function SetViewOf(sets: map<Id, SetRow>, items: map<Id, ItemRow>, bound: nat, id: Id): (v: SetView)
    requires id in sets
    requires forall k | k in items :: k < bound
    ensures Describes(v, id, sets, items)
  {
    var ids := SetItemIds(items, id, bound);
    var views := seq(|ids|, i requires 0 <= i < |ids| => ItemView(ids[i], items[ids[i]]));
    assert forall w | w in views :: w.id in items && items[w.id] == w.row && w.row.setId == id;
    assert forall k | k in items && items[k].setId == id :: ItemView(k, items[k]) in views by {
      forall k | k in items && items[k].setId == id
        ensures ItemView(k, items[k]) in views
      {
        var i :| 0 <= i < |ids| && ids[i] == k;
        assert views[i] == ItemView(k, items[k]);
      }
    }
    assert DistinctIds(views);
    SortDistinct(views);
    SetView(id, sets[id].userId, sets[id].name, sets[id].version, SortByOrder(views))
  }

  /** Once described, a view stays correct while its set and its items are left alone. */
  lemma {:induction false} DescribesStable(v: SetView, id: Id, sets: map<Id, SetRow>, items: map<Id, ItemRow>,
                                           sets': map<Id, SetRow>, items': map<Id, ItemRow>)
    requires Describes(v, id, sets, items)
    requires id in sets' && sets'[id] == sets[id]
    requires forall k | k in items :: k in items' && items'[k] == items[k]
    requires forall k | k in items' && k !in items :: items'[k].setId != id
    ensures Describes(v, id, sets', items')
  {
    forall k | k in items' && items'[k].setId == id
      ensures ItemView(k, items'[k]) in v.items
    {
      assert k in items;
    }
  }

  // ---------------------------------------------------------------------
  // Partial updates of an item

  /** An optional field of an update: left out (`undefined`) or given. */
  datatype Field<+T> = Keep | Put(value: T)

  /** The `data` of updateItem; an explicit `null` is `Put(None)`. */
  datatype ItemPatch = ItemPatch(name: Field<string>, description: Field<Option<string>>,
                                 color: Field<Option<string>>, order: Field<int>)

  function PatchField<T>(f: Field<T>, current: T): T
  {
    if f.Put? then f.value else current
  }

  function Patched(row: ItemRow, p: ItemPatch): ItemRow
  {
    ItemRow(row.setId, PatchField(p.name, row.name), PatchField(p.description, row.description),
            PatchField(p.color, row.color), PatchField(p.order, row.order))
  }

  // ---------------------------------------------------------------------
  // Reordering

  datatype OrderEntry = OrderEntry(id: Id, order: int)

  /** `orders.filter(o => existingIds.has(o.id))`: entries naming an item of set `setId`. */
  function ValidOrders(items: map<Id, ItemRow>, setId: Id, orders: seq<OrderEntry>): (r: seq<OrderEntry>)
    ensures |r| <= |orders|
    ensures forall e :: e in r <==> e in orders && e.id in items && items[e.id].setId == setId
  {
    if orders == [] then []
    else
      var e := orders[0];
      var rest := ValidOrders(items, setId, orders[1..]);
      assert orders == [e] + orders[1..];
      if e.id in items && items[e.id].setId == setId then [e] + rest else rest
  }

  /** The order the last entry for `k` gives it, if any entry names `k`. */
  function LastOrderFor(entries: seq<OrderEntry>, k: Id): Option<int>
  {
    if entries == [] then None
    else if entries[|entries| - 1].id == k then Some(entries[|entries| - 1].order)
    else LastOrderFor(entries[..|entries| - 1], k)
  }

  /** The item table after the updates of the entries, applied one after another. */
  function Reordered(items: map<Id, ItemRow>, entries: seq<OrderEntry>): map<Id, ItemRow>
    requires forall e | e in entries :: e.id in items
  {
    if entries == [] then items
    else
      var before := Reordered(items, entries[..|entries| - 1]);
      var e := entries[|entries| - 1];
      before[e.id := if e.id in before then before[e.id].(order := e.order) else items[e.id].(order := e.order)]
  }

  /** Reordering keeps every item and changes only `order`, to the last order given for it. */
  lemma {:induction false} ReorderedAt(items: map<Id, ItemRow>, entries: seq<OrderEntry>)
    requires forall e | e in entries :: e.id in items
    ensures Reordered(items, entries).Keys == items.Keys
    ensures forall k | k in items ::
      Reordered(items, entries)[k] ==
        (match LastOrderFor(entries, k) case None => items[k] case Some(o) => items[k].(order := o))
  {
    if entries != [] {
      var prefix := entries[..|entries| - 1];
      assert forall e | e in prefix :: e in entries;
      ReorderedAt(items, prefix);
    }
  }

  // ---------------------------------------------------------------------
  // Legacy import: the defaulting rules for a loosely typed payload

  /** `Array.isArray(payload?.wheelSets) ? payload.wheelSets : []`. */
  function ImportEntries(payload: JsValue): (r: seq<JsValue>)
    requires Plain(payload)
    ensures forall i | 0 <= i < |r| :: Plain(r[i])
    ensures Get(payload, "wheelSets").Arr? ==> r == Get(payload, "wheelSets").elems
    ensures !Get(payload, "wheelSets").Arr? ==> r == []
  {
    var w := Get(payload, "wheelSets");
    if w.Arr? then w.elems else []
  }

  /** `Array.isArray(s.items) ? s.items : []`. */
  function EntryItems(entry: JsValue): (r: seq<JsValue>)
    requires Plain(entry)
    ensures forall i | 0 <= i < |r| :: Plain(r[i])
    ensures Get(entry, "items").Arr? ==> r == Get(entry, "items").elems
    ensures !Get(entry, "items").Arr? ==> r == []
  {
    var w := Get(entry, "items");
    if w.Arr? then w.elems else []
  }

  /** `String(s.name || '未命名')`. */
  function ImportedSetName(entry: JsValue): string
    requires Plain(entry)
  {
    var n := Get(entry, "name");
    if Truthy(n) then ToJsString(n) else UNNAMED
  }

  /** `it?.color ?? null` is accepted by the database only when it is a string or null. */
  predicate ValidColor(it: JsValue)
  {
    var c := Get(it, "color");
    c.Undefined? || c.Null? || c.Str?
  }

  predicate AllColorsValid(its: seq<JsValue>)
  {
    forall j | 0 <= j < |its| :: ValidColor(its[j])
  }

  /** One imported item: name `Item {idx+1}` when falsy, order `idx` when not a number. */
  function ImportedItem(it: JsValue, idx: nat): (r: NewItem)
    requires Plain(it) && ValidColor(it)
    ensures Truthy(Get(it, "name")) ==> r.name == ToJsString(Get(it, "name"))
    ensures !Truthy(Get(it, "name")) ==> r.name == "Item " + IntToString(idx + 1)
    ensures Get(it, "order").Num? ==> r.order == Get(it, "order").n
    ensures !Get(it, "order").Num? ==> r.order == idx
    ensures Get(it, "color").Str? <==> r.color.Some?
    ensures r.description == None
  {
    var n := Get(it, "name");
    var c := Get(it, "color");
    var o := Get(it, "order");
    NewItem(if Truthy(n) then ToJsString(n) else "Item " + IntToString(idx + 1),
            None,
            if c.Str? then Some(c.s) else None,
            if o.Num? then o.n else idx)
  }

  /** The items of one entry, each defaulted by its position. */
  function ImportedItems(its: seq<JsValue>): (r: seq<NewItem>)
    requires forall j | 0 <= j < |its| :: Plain(its[j])
    requires AllColorsValid(its)
    ensures |r| == |its|
    ensures forall j | 0 <= j < |its| :: r[j] == ImportedItem(its[j], j)
  {
    seq(|its|, j requires 0 <= j < |its| => ImportedItem(its[j], j))
  }

  /** A set entry the import can process: not null, with string-or-null colours. */
  predicate ImportableEntry(entry: JsValue)
    requires Plain(entry)
  {
    !entry.Null? && !entry.Undefined? && AllColorsValid(EntryItems(entry))
  }

  /** The rows `rows` of set `setId` are stored, in order, at the ids from `start` on. */
  predicate CreatedAt(items: map<Id, ItemRow>, start: Id, rows: seq<NewItem>, setId: Id)
  {
    forall k | start <= k < start + |rows| :: k in items && items[k] == Row(rows[k - start], setId)
  }

  lemma CreatedAtExtend(items: map<Id, ItemRow>, start: Id, rows: seq<NewItem>, setId: Id, row: NewItem)
    requires CreatedAt(items, start, rows, setId)
    ensures CreatedAt(items[start + |rows| := Row(row, setId)], start, rows + [row], setId)
  {
  }

  lemma CreatedAtUpdate(items: map<Id, ItemRow>, start: Id, rows: seq<NewItem>, setId: Id, u: Id, row: ItemRow)
    requires CreatedAt(items, start, rows, setId) && u < start
    ensures CreatedAt(items[u := row], start, rows, setId)
  {
  }

  /**
   * Exactly the items of set `sid` are the rows `rows`, stored in order at
   * the ids following `sid`.
   */
  predicate HoldsRows(sid: Id, rows: seq<NewItem>, items: map<Id, ItemRow>)
  {
    && CreatedAt(items, sid + 1, rows, sid)
    && (forall k | k in items && items[k].setId == sid :: sid < k <= sid + |rows|)
  }

  lemma HoldsRowsStable(sid: Id, rows: seq<NewItem>, items: map<Id, ItemRow>, items': map<Id, ItemRow>)
    requires HoldsRows(sid, rows, items)
    requires forall k | k in items :: k in items' && items'[k] == items[k]
    requires forall k | k in items' && k !in items :: items'[k].setId != sid
    ensures HoldsRows(sid, rows, items')
  {
    forall k | k in items' && items'[k].setId == sid
      ensures sid < k <= sid + |rows|
    {
      assert k in items;
    }
  }

  /**
   * `v` is the set imported from entry `e` for `userId`: its name, version 0,
   * and exactly the entry's defaulted items, at the ids following the set's.
   */
  predicate ImportedAs(v: SetView, e: JsValue, userId: string, sets: map<Id, SetRow>, items: map<Id, ItemRow>)
    requires Plain(e)
  {
    && Describes(v, v.id, sets, items)
    && v.userId == userId && v.name == ImportedSetName(e) && v.version == 0
    && AllColorsValid(EntryItems(e))
    && HoldsRows(v.id, ImportedItems(EntryItems(e)), items)
  }

  /** An imported set stays as imported while its set and its items are left alone. */
  lemma ImportedAsStable(v: SetView, e: JsValue, userId: string, sets: map<Id, SetRow>, items: map<Id, ItemRow>,
                         sets': map<Id, SetRow>, items': map<Id, ItemRow>)
    requires Plain(e) && ImportedAs(v, e, userId, sets, items)
    requires forall k | k in sets :: k in sets' && sets'[k] == sets[k]
    requires forall k | k in items :: k in items' && items'[k] == items[k]
    requires forall k | k in items' && k !in items :: items'[k].setId !in sets
    ensures ImportedAs(v, e, userId, sets', items')
  {
    assert v.id in sets;
    assert forall k | k in items' && k !in items :: items'[k].setId != v.id;
    DescribesStable(v, v.id, sets, items, sets', items');
    HoldsRowsStable(v.id, ImportedItems(EntryItems(e)), items, items');
  }

  /**
   * A set `sid` owning none of the earlier items, whose rows were then
   * created at the ids after it, holds exactly those rows.
   */
  lemma CreatedHoldsRows(sid: Id, rows: seq<NewItem>, items0: map<Id, ItemRow>, items: map<Id, ItemRow>)
    requires forall k | k in items0 :: items0[k].setId != sid
    requires forall k | k in items0 :: k in items && items[k] == items0[k]
    requires CreatedAt(items, sid + 1, rows, sid)
    requires forall k | k in items :: k in items0 || sid + 1 <= k < sid + 1 + |rows|
    ensures HoldsRows(sid, rows, items)
  {
    forall k | k in items && items[k].setId == sid
      ensures sid < k <= sid + |rows|
    {
      assert k !in items0;
    }
  }

  predicate AllImportable(entries: seq<JsValue>)
    requires forall j | 0 <= j < |entries| :: Plain(entries[j])
  {
    forall j | 0 <= j < |entries| :: ImportableEntry(entries[j])
  }

  /** `results[p]` is the set imported from `entries[p]`, for every `p`. */
  predicate AllImported(results: seq<SetView>, entries: seq<JsValue>, userId: string, oldSets: map<Id, SetRow>,
                        sets: map<Id, SetRow>, items: map<Id, ItemRow>)
    requires forall j | 0 <= j < |entries| :: Plain(entries[j])
  {
    && |results| == |entries|
    && forall p | 0 <= p < |results| ::
         && results[p].id !in oldSets
         && ImportableEntry(entries[p])
         && ImportedAs(results[p], entries[p], userId, sets, items)
  }

  /** One more imported set, after a step that left the earlier sets and their items alone. */
  lemma AllImportedStep(results: seq<SetView>, entries: seq<JsValue>, v: SetView, e: JsValue, userId: string,
                        oldSets: map<Id, SetRow>, sets: map<Id, SetRow>, items: map<Id, ItemRow>,
                        sets': map<Id, SetRow>, items': map<Id, ItemRow>)
    requires forall j | 0 <= j < |entries| :: Plain(entries[j])
    requires Plain(e)
    requires AllImported(results, entries, userId, oldSets, sets, items)
    requires forall k | k in sets :: k in sets' && sets'[k] == sets[k]
    requires forall k | k in items :: k in items' && items'[k] == items[k]
    requires forall k | k in items' && k !in items :: items'[k].setId !in sets
    requires v.id !in oldSets && ImportableEntry(e) && ImportedAs(v, e, userId, sets', items')
    ensures forall j | 0 <= j < |entries + [e]| :: Plain((entries + [e])[j])
    ensures AllImported(results + [v], entries + [e], userId, oldSets, sets', items')
  {
    forall p | 0 <= p < |results|
      ensures ImportedAs(results[p], entries[p], userId, sets', items')
    {
      ImportedAsStable(results[p], entries[p], userId, sets, items, sets', items');
    }
    var rs, es := results + [v], entries + [e];
    assert forall p | 0 <= p < |results| :: rs[p] == results[p] && es[p] == entries[p];
  }

  datatype ImportSummary = ImportSummary(imported: nat, wheelSets: seq<SetView>)

  // ---------------------------------------------------------------------
  // Batch replace of a set's items

  /** One entry of the new item list; `id` is None when absent or empty. */
  datatype BatchEntry = BatchEntry(id: Option<Id>, item: NewItem)

  /** The ids the new list names. */
  function EntryIds(entries: seq<BatchEntry>): (ids: set<Id>)
    ensures forall k :: k in ids <==> exists i | 0 <= i < |entries| :: entries[i].id == Some(k)
  {
    if entries == [] then {}
    else
      var last := entries[|entries| - 1];
      var prefix := entries[..|entries| - 1];
      assert forall i | 0 <= i < |prefix| :: prefix[i] == entries[i];
      EntryIds(prefix) + (if last.id.Some? then {last.id.value} else {})
  }

  /** The data of the last entry naming `k`: the update that wins. */
  function LastEntryFor(entries: seq<BatchEntry>, k: Id): (r: Option<NewItem>)
    ensures r.Some? <==> k in EntryIds(entries)
    ensures r.Some? ==> exists i | 0 <= i < |entries| ::
      && entries[i].id == Some(k) && r.value == entries[i].item
      && forall j | i < j < |entries| :: entries[j].id != Some(k)
  {
    if entries == [] then None
    else if entries[|entries| - 1].id == Some(k) then Some(entries[|entries| - 1].item)
    else LastEntryFor(entries[..|entries| - 1], k)
  }

  /** The entries that create a new item: no id, or an id that is not a current item of the set. */
  function CreatingEntries(entries: seq<BatchEntry>, current: set<Id>): (r: seq<NewItem>)
    ensures |r| <= |entries|
  {
    if entries == [] then []
    else
      var last := entries[|entries| - 1];
      CreatingEntries(entries[..|entries| - 1], current) +
        (if last.id.Some? && last.id.value in current then [] else [last.item])
  }

  /** The item table and the id counter. */
  datatype Table = Table(items: map<Id, ItemRow>, next: Id)

  /** The table after batchUpdateSet's loop has processed `entries`, one after another. */
  function ApplyEntries(t: Table, setId: Id, current: set<Id>, entries: seq<BatchEntry>): Table
  {
    if entries == [] then t
    else
      var before := ApplyEntries(t, setId, current, entries[..|entries| - 1]);
      var e := entries[|entries| - 1];
      if e.id.Some? && e.id.value in current then Table(before.items[e.id.value := Row(e.item, setId)], before.next)
      else Table(before.items[before.next := Row(e.item, setId)], before.next + 1)
  }

  /**
   * The loop creates the entries that name no current item at consecutive
   * fresh ids and adds no other key.
   */
  lemma {:induction false} ApplyEntriesCreates(t: Table, setId: Id, current: set<Id>, entries: seq<BatchEntry>)
    requires forall k | k in t.items :: k < t.next
    requires forall i | 0 <= i < |entries| :: entries[i].id.Some? && entries[i].id.value in current ==> entries[i].id.value in t.items
    ensures ApplyEntries(t, setId, current, entries).next == t.next + |CreatingEntries(entries, current)|
    ensures CreatedAt(ApplyEntries(t, setId, current, entries).items, t.next, CreatingEntries(entries, current), setId)
    ensures forall k | k in ApplyEntries(t, setId, current, entries).items ::
      k in t.items || t.next <= k < ApplyEntries(t, setId, current, entries).next
  {
    if entries != [] {
      var prefix := entries[..|entries| - 1];
      var e := entries[|entries| - 1];
      assert forall i | 0 <= i < |prefix| :: prefix[i] == entries[i];
      ApplyEntriesCreates(t, setId, current, prefix);
      var before := ApplyEntries(t, setId, current, prefix);
      var made := CreatingEntries(prefix, current);
      if e.id.Some? && e.id.value in current {
        CreatedAtUpdate(before.items, t.next, made, setId, e.id.value, Row(e.item, setId));
      } else {
        CreatedAtExtend(before.items, t.next, made, setId, e.item);
      }
    }
  }

  /**
   * The loop gives each current item the data of the last entry naming it
   * and leaves every other item of the table alone.
   */
  lemma {:induction false} ApplyEntriesUpdates(t: Table, setId: Id, current: set<Id>, entries: seq<BatchEntry>)
    requires forall k | k in t.items :: k < t.next
    requires forall i | 0 <= i < |entries| :: entries[i].id.Some? && entries[i].id.value in current ==> entries[i].id.value in t.items
    ensures forall k | k in t.items ::
      && k in ApplyEntries(t, setId, current, entries).items
      && ApplyEntries(t, setId, current, entries).items[k] ==
           if k in current && LastEntryFor(entries, k).Some? then Row(LastEntryFor(entries, k).value, setId) else t.items[k]
  {
    if entries != [] {
      var prefix := entries[..|entries| - 1];
      assert forall i | 0 <= i < |prefix| :: prefix[i] == entries[i];
      ApplyEntriesUpdates(t, setId, current, prefix);
      ApplyEntriesCreates(t, setId, current, prefix);
      var before := ApplyEntries(t, setId, current, prefix);
      var e := entries[|entries| - 1];
      forall k | k in t.items
        ensures k in ApplyEntries(t, setId, current, entries).items
        ensures ApplyEntries(t, setId, current, entries).items[k] ==
          if k in current && LastEntryFor(entries, k).Some? then Row(LastEntryFor(entries, k).value, setId) else t.items[k]
      {
        if e.id == Some(k) {
          assert LastEntryFor(entries, k) == Some(e.item);
        } else {
          assert LastEntryFor(entries, k) == LastEntryFor(prefix, k);
        }
      }
    }
  }

  /** The ids of the items of set `setId`. */
  function CurrentIds(items: map<Id, ItemRow>, setId: Id): (ids: set<Id>)
    ensures forall k :: k in ids <==> k in items && items[k].setId == setId
  {
    set k | k in items && items[k].setId == setId
  }

  // ---------------------------------------------------------------------
  // The service

  /** The update loop of reorderItems: each entry in turn sets its item's order. */
  method ApplyOrders(items: map<Id, ItemRow>, entries: seq<OrderEntry>) returns (out: map<Id, ItemRow>)
    requires forall e | e in entries :: e.id in items
    ensures out == Reordered(items, entries)
  {
    out := items;
    var i := 0;
    while i < |entries|
      invariant 0 <= i <= |entries|
      invariant forall e | e in entries[..i] :: e.id in items
      invariant out == Reordered(items, entries[..i])
    {
      assert entries[..i + 1][..i] == entries[..i];
      ReorderedAt(items, entries[..i]);
      var e := entries[i];
      out := out[e.id := out[e.id].(order := e.order)];
      i := i + 1;
    }
    assert entries[..i] == entries;
  }

  /**
   * The sets of `userId` among the ids below `bound`, newest (highest id)
   * first, each read with its items.
   */
  method OwnedSetViews(sets: map<Id, SetRow>, items: map<Id, ItemRow>, bound: nat, userId: string) returns (r: seq<SetView>)
    requires forall k | k in sets :: k < bound
    requires forall k | k in items :: k < bound
    ensures forall i | 0 <= i < |r| :: Owned(sets, r[i].id, userId) && Describes(r[i], r[i].id, sets, items)
    ensures forall id :: Owned(sets, id, userId) <==> exists i | 0 <= i < |r| :: r[i].id == id
    ensures forall i, j | 0 <= i < j < |r| :: r[i].id > r[j].id
  {
    r := [];
    var k := bound;
    while k > 0
      invariant k <= bound
      invariant forall i | 0 <= i < |r| :: k <= r[i].id && Owned(sets, r[i].id, userId) && r[i] == SetViewOf(sets, items, bound, r[i].id)
      invariant forall id | k <= id && Owned(sets, id, userId) :: exists i | 0 <= i < |r| :: r[i].id == id
      invariant forall i, j | 0 <= i < j < |r| :: r[i].id > r[j].id
    {
      k := k - 1;
      if Owned(sets, k, userId) {
        ghost var r0 := r;
        var v := SetViewOf(sets, items, bound, k);
        r := r + [v];
        assert forall i | 0 <= i < |r0| :: r[i] == r0[i];
        assert r[|r0|] == v && v.id == k;
      }
    }
    forall i | 0 <= i < |r|
      ensures Describes(r[i], r[i].id, sets, items)
    {
      assert r[i] == SetViewOf(sets, items, bound, r[i].id);
    }
  }

  class WheelService {
    var sets: map<Id, SetRow>
    var items: map<Id, ItemRow>
    var nextId: nat

    /** Ids are below the counter, and every item belongs to an existing set. */
    ghost predicate Valid()
      reads this
    {
      && (forall k | k in sets :: k < nextId)
      && (forall k | k in items :: k < nextId)
      && (forall k | k in items :: items[k].setId in sets)
    }

    constructor()
      ensures Valid() && sets == map[] && items == map[]
    {
      sets := map[];
      items := map[];
      nextId := 0;
    }

    /** All sets of `userId`, newest first, each with its items ordered by `order`. */
    method ListByUser(userId: string) returns (r: seq<SetView>)
      requires Valid()
      ensures forall i | 0 <= i < |r| :: Owned(sets, r[i].id, userId) && Describes(r[i], r[i].id, sets, items)
      ensures forall id :: Owned(sets, id, userId) <==> exists i | 0 <= i < |r| :: r[i].id == id
      ensures forall i, j | 0 <= i < j < |r| :: r[i].id > r[j].id
    {
      r := OwnedSetViews(sets, items, nextId, userId);
    }

    /** createSet: a new set of `userId`, version 0, with no items. */
    method CreateSet(userId: string, name: string) returns (v: SetView)
      requires Valid()
      modifies this
      ensures Valid()
      ensures v.id == old(nextId) && v.id !in old(sets) && v.items == []
      ensures sets == old(sets)[v.id := SetRow(userId, name, 0)] && nextId == old(nextId) + 1
      ensures items == old(items)
      ensures Describes(v, v.id, sets, items)
    {
      v := SetView(nextId, userId, name, 0, []);
      sets := sets[nextId := SetRow(userId, name, 0)];
      nextId := nextId + 1;
    }

    /** getSet: the set when `userId` owns it, else NotFound. */
    method GetSet(userId: string, id: Id) returns (r: Result<SetView, ServiceError>)
      requires Valid()
      ensures r.Failure? <==> !Owned(sets, id, userId)
      ensures r.Failure? ==> r.error == NotFound(SET_NOT_FOUND)
      ensures r.Success? ==> Describes(r.value, id, sets, items)
    {
      if !Owned(sets, id, userId) {
        return Failure(NotFound(SET_NOT_FOUND));
      }
      r := Success(SetViewOf(sets, items, nextId, id));
    }

    /**
     * updateSet: keeps the name when none is given and sets the version to
     * the given (or else the stored) version plus one; a stale version is
     * never rejected.
     */
    method UpdateSet(userId: string, id: Id, name: Option<string>, version: Option<int>)
      returns (r: Result<SetRow, ServiceError>)
      requires Valid()
      modifies this
      ensures Valid()
      ensures items == old(items) && nextId == old(nextId)
      ensures !Owned(old(sets), id, userId) ==> r == Failure(NotFound(SET_NOT_FOUND)) && sets == old(sets)
      ensures Owned(old(sets), id, userId) ==>
        && r.Success?
        && sets == old(sets)[id := r.value]
        && r.value.userId == userId
        && r.value.name == (if name.Some? then name.value else old(sets)[id].name)
        && r.value.version == (if version.Some? then version.value else old(sets)[id].version) + 1
    {
      if !Owned(sets, id, userId) {
        return Failure(NotFound(SET_NOT_FOUND));
      }
      var existing := sets[id];
      var row := SetRow(existing.userId,
                        if name.Some? then name.value else existing.name,
                        (if version.Some? then version.value else existing.version) + 1);
      sets := sets[id := row];
      r := Success(row);
    }

    /**
     * deleteSet as written: removes the set's items and then the set, whoever
     * owns it; a missing set fails in the second call, after the first ran.
     */
    method DeleteSet(userId: string, id: Id) returns (r: Result<(), ServiceError>)
      requires Valid()
      modifies this
      ensures Valid()
      ensures items == map k | k in old(items) && old(items)[k].setId != id :: old(items)[k]
      ensures id in old(sets) ==> r.Success? && sets == old(sets) - {id}
      ensures id !in old(sets) ==> r == Failure(Internal(RECORD_MISSING)) && sets == old(sets)
      ensures nextId == old(nextId)
    {
      items := map k | k in items && items[k].setId != id :: items[k];
      if id !in sets {
        return Failure(Internal(RECORD_MISSING));
      }
      sets := sets - {id};
      r := Success(());
    }

    /** deleteSet with the ownership check the other operations make. */
    method DeleteOwnedSet(userId: string, id: Id) returns (r: Result<(), ServiceError>)
      requires Valid()
      modifies this
      ensures Valid()
      ensures r.Success? <==> Owned(old(sets), id, userId)
      ensures r.Failure? ==> r.error == NotFound(SET_NOT_FOUND) && sets == old(sets) && items == old(items)
      ensures r.Success? ==>
        && sets == old(sets) - {id}
        && items == map k | k in old(items) && old(items)[k].setId != id :: old(items)[k]
      ensures forall k | k in old(sets) && old(sets)[k].userId != userId :: k in sets && sets[k] == old(sets)[k]
      ensures nextId == old(nextId)
    {
      if !Owned(sets, id, userId) {
        return Failure(NotFound(SET_NOT_FOUND));
      }
      r := DeleteSet(userId, id);
    }

    /** prisma.wheelItem.create: a fresh item of set `setId`. */
    method CreateItem(setId: Id, item: NewItem) returns (v: ItemView)
      requires Valid() && setId in sets
      modifies this
      ensures Valid()
      ensures v.id == old(nextId) && v.id !in old(items) && nextId == old(nextId) + 1
      ensures v.row == Row(item, setId)
      ensures items == old(items)[v.id := v.row] && sets == old(sets)
    {
      v := ItemView(nextId, Row(item, setId));
      items := items[nextId := v.row];
      nextId := nextId + 1;
    }

    /** addItem: a new item on an owned set, with absent description and colour stored as null. */
    method AddItem(userId: string, setId: Id, item: NewItem) returns (r: Result<ItemView, ServiceError>)
      requires Valid()
      modifies this
      ensures Valid()
      ensures sets == old(sets)
      ensures !Owned(old(sets), setId, userId) ==> r == Failure(NotFound(SET_NOT_FOUND)) && items == old(items)
      ensures Owned(old(sets), setId, userId) ==>
        r.Success? && r.value.id !in old(items) && r.value.row == Row(item, setId) &&
        items == old(items)[r.value.id := r.value.row]
    {
      if !Owned(sets, setId, userId) {
        return Failure(NotFound(SET_NOT_FOUND));
      }
      var v := CreateItem(setId, item);
      r := Success(v);
    }

    /**
     * updateItem: the item must belong to the owned set; fields left out keep
     * their value, and an explicit null clears description or colour.
     */
    method UpdateItem(userId: string, setId: Id, itemId: Id, patch: ItemPatch)
      returns (r: Result<ItemView, ServiceError>)
      requires Valid()
      modifies this
      ensures Valid()
      ensures sets == old(sets) && nextId == old(nextId)
      ensures !Owned(old(sets), setId, userId) ==> r == Failure(NotFound(SET_NOT_FOUND)) && items == old(items)
      ensures Owned(old(sets), setId, userId) && !(itemId in old(items) && old(items)[itemId].setId == setId) ==>
        r == Failure(NotFound(ITEM_NOT_FOUND)) && items == old(items)
      ensures r.Success? ==>
        && Owned(old(sets), setId, userId) && itemId in old(items) && old(items)[itemId].setId == setId
        && r.value.id == itemId
        && items == old(items)[itemId := r.value.row]
        && r.value.row.setId == setId
        && r.value.row.name == (if patch.name.Put? then patch.name.value else old(items)[itemId].name)
        && r.value.row.description == (if patch.description.Put? then patch.description.value else old(items)[itemId].description)
        && r.value.row.color == (if patch.color.Put? then patch.color.value else old(items)[itemId].color)
        && r.value.row.order == (if patch.order.Put? then patch.order.value else old(items)[itemId].order)
    {
      if !Owned(sets, setId, userId) {
        return Failure(NotFound(SET_NOT_FOUND));
      }
      if !(itemId in items && items[itemId].setId == setId) {
        return Failure(NotFound(ITEM_NOT_FOUND));
      }
      var row := Patched(items[itemId], patch);
      items := items[itemId := row];
      r := Success(ItemView(itemId, row));
    }

    /**
     * deleteItem as written: checks that `userId` owns set `setId`, then
     * deletes item `itemId` wherever it belongs.
     */
    method DeleteItem(userId: string, setId: Id, itemId: Id) returns (r: Result<(), ServiceError>)
      requires Valid()
      modifies this
      ensures Valid()
      ensures sets == old(sets) && nextId == old(nextId)
      ensures !Owned(old(sets), setId, userId) ==> r == Failure(NotFound(SET_NOT_FOUND)) && items == old(items)
      ensures Owned(old(sets), setId, userId) && itemId !in old(items) ==>
        r == Failure(Internal(RECORD_MISSING)) && items == old(items)
      ensures Owned(old(sets), setId, userId) && itemId in old(items) ==>
        r.Success? && items == old(items) - {itemId}
    {
      if !Owned(sets, setId, userId) {
        return Failure(NotFound(SET_NOT_FOUND));
      }
      if itemId !in items {
        return Failure(Internal(RECORD_MISSING));
      }
      items := items - {itemId};
      r := Success(());
    }

    /** deleteItem with the membership check updateItem makes. */
    method DeleteItemInSet(userId: string, setId: Id, itemId: Id) returns (r: Result<(), ServiceError>)
      requires Valid()
      modifies this
      ensures Valid()
      ensures sets == old(sets) && nextId == old(nextId)
      ensures r.Success? <==> Owned(old(sets), setId, userId) && itemId in old(items) && old(items)[itemId].setId == setId
      ensures r.Success? ==> items == old(items) - {itemId}
      ensures r.Failure? ==> r.error.NotFound? && items == old(items)
      ensures forall k | k in old(items) && old(items)[k].setId != setId :: k in items && items[k] == old(items)[k]
    {
      if !Owned(sets, setId, userId) {
        return Failure(NotFound(SET_NOT_FOUND));
      }
      if !(itemId in items && items[itemId].setId == setId) {
        return Failure(NotFound(ITEM_NOT_FOUND));
      }
      r := DeleteItem(userId, setId, itemId);
    }

    /**
     * reorderItems: drops the entries that do not name an item of the set,
     * fails when none is left, and otherwise gives each named item the order
     * of the last entry for it; every other item is unchanged.
     */
    method ReorderItems(userId: string, setId: Id, orders: seq<OrderEntry>)
      returns (r: Result<SetView, ServiceError>)
      requires Valid()
      modifies this
      ensures Valid()
      ensures sets == old(sets) && nextId == old(nextId)
      ensures !Owned(old(sets), setId, userId) ==> r == Failure(NotFound(SET_NOT_FOUND)) && items == old(items)
      ensures Owned(old(sets), setId, userId) && ValidOrders(old(items), setId, orders) == [] ==>
        r == Failure(NotFound(NO_VALID_ITEMS)) && items == old(items)
      ensures r.Success? ==>
        && Owned(old(sets), setId, userId)
        && ValidOrders(old(items), setId, orders) != []
        && items.Keys == old(items).Keys
        && (forall k | k in old(items) :: items[k] ==
              (match LastOrderFor(ValidOrders(old(items), setId, orders), k)
               case None => old(items)[k]
               case Some(o) => old(items)[k].(order := o)))
        && Describes(r.value, setId, sets, items)
    {
      if !Owned(sets, setId, userId) {
        return Failure(NotFound(SET_NOT_FOUND));
      }
      var valid := ValidOrders(items, setId, orders);
      if |valid| == 0 {
        return Failure(NotFound(NO_VALID_ITEMS));
      }
      ReorderedAt(items, valid);
      items := ApplyOrders(items, valid);
      r := Success(SetViewOf(sets, items, nextId, setId));
    }

    /** prisma.wheelItem.createMany: the rows, in order, at consecutive fresh ids. */
    method CreateItems(setId: Id, rows: seq<NewItem>)
      requires Valid() && setId in sets
      modifies this
      ensures Valid()
      ensures sets == old(sets)
      ensures nextId == old(nextId) + |rows|
      ensures CreatedAt(items, old(nextId), rows, setId)
      ensures forall k | k in old(items) :: k in items && items[k] == old(items)[k]
      ensures forall k | k in items :: k in old(items) || old(nextId) <= k < nextId
    {
      var j := 0;
      while j < |rows|
        invariant 0 <= j <= |rows|
        invariant Valid() && sets == old(sets)
        invariant nextId == old(nextId) + j
        invariant CreatedAt(items, old(nextId), rows[..j], setId)
        invariant forall k | k in old(items) :: k in items && items[k] == old(items)[k]
        invariant forall k | k in items :: k in old(items) || old(nextId) <= k < nextId
      {
        CreatedAtExtend(items, old(nextId), rows[..j], setId, rows[j]);
        assert rows[..j] + [rows[j]] == rows[..j + 1];
        var _ := CreateItem(setId, rows[j]);
        j := j + 1;
      }
      assert rows[..j] == rows;
    }

    /**
     * One pass of importFromLocal's loop: creates the set named
     * `String(s.name || '未命名')` and then, all at once, its defaulted items.
     */
    method ImportEntry(userId: string, e: JsValue) returns (r: Result<SetView, ServiceError>)
      requires Valid() && Plain(e)
      modifies this
      ensures Valid()
      ensures nextId >= old(nextId)
      ensures forall k | k in old(sets) :: k in sets && sets[k] == old(sets)[k]
      ensures forall k | k in old(items) :: k in items && items[k] == old(items)[k]
      ensures forall k | k in items && k !in old(items) :: items[k].setId !in old(sets)
      ensures r.Success? <==> ImportableEntry(e)
      ensures r.Failure? ==> r.error == Internal(NULL_ENTRY) || r.error == Internal(BAD_COLOR)
      ensures r.Success? ==> r.value.id !in old(sets) && ImportedAs(r.value, e, userId, sets, items)
    {
      if e.Null? || e.Undefined? {
        return Failure(Internal(NULL_ENTRY));
      }
      var its := EntryItems(e);
      var created := CreateSet(userId, ImportedSetName(e));
      var sid := created.id;
      if !AllColorsValid(its) {
        return Failure(Internal(BAD_COLOR));
      }
      var v := FillImported(userId, sid, ImportedItems(its));
      r := Success(v);
    }

    /**
     * The rest of one pass of importFromLocal, for the set `sid` it has just
     * created: createMany of the rows, then getSet of the set.
     */
    method FillImported(userId: string, sid: Id, rows: seq<NewItem>) returns (v: SetView)
      requires Valid() && sid in sets && sets[sid].userId == userId && nextId == sid + 1
      requires forall k | k in items :: items[k].setId != sid
      modifies this
      ensures Valid() && sets == old(sets) && nextId >= old(nextId)
      ensures forall k | k in old(items) :: k in items && items[k] == old(items)[k]
      ensures forall k | k in items && k !in old(items) :: items[k].setId == sid
      ensures Describes(v, sid, sets, items) && HoldsRows(sid, rows, items)
    {
      CreateItems(sid, rows);
      CreatedHoldsRows(sid, rows, old(items), items);
      var got := GetSet(userId, sid);
      v := got.value;
    }

    /**
     * importFromLocal: one set per entry of `payload.wheelSets` (none when it
     * is not an array), named `String(name)` or '未命名', with its items
     * defaulted by ImportedItem. The sets are created one by one, so a failing
     * entry leaves the earlier sets in place.
     */
    method ImportFromLocal(userId: string, payload: JsValue) returns (r: Result<ImportSummary, ServiceError>)
      requires Valid() && Plain(payload)
      modifies this
      ensures Valid()
      ensures forall k | k in old(sets) :: k in sets && sets[k] == old(sets)[k]
      ensures forall k | k in old(items) :: k in items && items[k] == old(items)[k]
      ensures r.Success? <==> AllImportable(ImportEntries(payload))
      ensures r.Failure? ==> r.error == Internal(NULL_ENTRY) || r.error == Internal(BAD_COLOR)
      ensures r.Success? ==>
        && r.value.imported == |r.value.wheelSets| == |ImportEntries(payload)|
        && AllImported(r.value.wheelSets, ImportEntries(payload), userId, old(sets), sets, items)
    {
      var entries := ImportEntries(payload);
      var results: seq<SetView> := [];
      var i := 0;
      while i < |entries|
        invariant 0 <= i <= |entries|
        invariant Valid()
        invariant forall k | k in old(sets) :: k in sets && sets[k] == old(sets)[k]
        invariant forall k | k in old(items) :: k in items && items[k] == old(items)[k]
        invariant AllImported(results, entries[..i], userId, old(sets), sets, items)
      {
        assert entries[..i] + [entries[i]] == entries[..i + 1];
        ghost var sets0, items0 := sets, items;
        var got := ImportEntry(userId, entries[i]);
        if got.Failure? {
          return Failure(got.error);
        }
        AllImportedStep(results, entries[..i], got.value, entries[i], userId, old(sets), sets0, items0, sets, items);
        results := results + [got.value];
        i := i + 1;
      }
      assert entries[..i] == entries;
      r := Success(ImportSummary(|results|, results));
    }

    /** The deleteMany of batchUpdateSet: the set's items whose id is not in `keep`. */
    method DeleteUnlisted(setId: Id, keep: set<Id>)
      requires Valid()
      modifies this
      ensures Valid() && sets == old(sets) && nextId == old(nextId)
      ensures forall k | k in items :: k in old(items) && items[k] == old(items)[k]
      ensures forall k | k in old(items) :: k in items <==> old(items)[k].setId != setId || k in keep
    {
      items := map k | k in items && (items[k].setId != setId || k in keep) :: items[k];
    }

    /**
     * The item-list part of batchUpdateSet: deletes the set's items the list
     * does not name, updates the items it names (the last entry for an item
     * wins) and creates one item per other entry, in list order.
     */
    method ReplaceItems(setId: Id, entries: seq<BatchEntry>)
      requires Valid() && setId in sets
      modifies this
      ensures Valid() && sets == old(sets)
      ensures forall k | k in old(items) && old(items)[k].setId != setId :: k in items && items[k] == old(items)[k]
      ensures forall k | k in old(items) && old(items)[k].setId == setId && k !in EntryIds(entries) :: k !in items
      ensures forall k | k in old(items) && old(items)[k].setId == setId && k in EntryIds(entries) ::
        k in items && items[k] == Row(LastEntryFor(entries, k).value, setId)
      ensures nextId == old(nextId) + |CreatingEntries(entries, CurrentIds(old(items), setId))|
      ensures CreatedAt(items, old(nextId), CreatingEntries(entries, CurrentIds(old(items), setId)), setId)
      ensures forall k | k in items :: k in old(items) || old(nextId) <= k < nextId
    {
      var current := CurrentIds(items, setId);
      var newIds := EntryIds(entries);
      DeleteUnlisted(setId, newIds);
      ghost var start := Table(items, nextId);
      var i := 0;
      while i < |entries|
        invariant 0 <= i <= |entries|
        invariant Valid() && sets == old(sets)
        invariant Table(items, nextId) == ApplyEntries(start, setId, current, entries[..i])
        invariant forall k | k in current && k in newIds :: k in items
      {
        var e := entries[i];
        assert entries[..i + 1][..i] == entries[..i];
        if e.id.Some? && e.id.value in current {
          items := items[e.id.value := Row(e.item, setId)];
        } else {
          var _ := CreateItem(setId, e.item);
        }
        i := i + 1;
      }
      assert entries[..i] == entries;
      ApplyEntriesCreates(start, setId, current, entries);
      ApplyEntriesUpdates(start, setId, current, entries);
    }

    /**
     * batchUpdateSet: fails with a plain error when the set is not owned;
     * renames only when a name is given and replaces the items only when a
     * list is given.
     */
    method BatchUpdateSet(userId: string, setId: Id, name: Option<string>, newItems: Option<seq<BatchEntry>>)
      returns (r: Result<SetView, ServiceError>)
      requires Valid()
      modifies this
      ensures Valid()
      ensures !Owned(old(sets), setId, userId) ==>
        r == Failure(Internal(SET_NOT_FOUND)) && sets == old(sets) && items == old(items) && nextId == old(nextId)
      ensures Owned(old(sets), setId, userId) ==>
        && r.Success? && Describes(r.value, setId, sets, items)
        && sets == old(sets)[setId := if name.Some? then old(sets)[setId].(name := name.value) else old(sets)[setId]]
      ensures newItems.None? ==> items == old(items) && nextId == old(nextId)
      ensures forall k | k in old(items) && old(items)[k].setId != setId :: k in items && items[k] == old(items)[k]
      ensures Owned(old(sets), setId, userId) && newItems.Some? ==>
        var entries := newItems.value;
        var created := CreatingEntries(entries, CurrentIds(old(items), setId));
        && (forall k | k in old(items) && old(items)[k].setId == setId && k !in EntryIds(entries) :: k !in items)
        && (forall k | k in old(items) && old(items)[k].setId == setId && k in EntryIds(entries) ::
              k in items && items[k] == Row(LastEntryFor(entries, k).value, setId))
        && nextId == old(nextId) + |created|
        && CreatedAt(items, old(nextId), created, setId)
        && (forall k | k in items :: k in old(items) || old(nextId) <= k < nextId)
    {
      if !Owned(sets, setId, userId) {
        return Failure(Internal(SET_NOT_FOUND));
      }
      if name.Some? {
        sets := sets[setId := sets[setId].(name := name.value)];
      }
      if newItems.Some? {
        ReplaceItems(setId, newItems.value);
      }
      r := Success(SetViewOf(sets, items, nextId, setId));
    }
  }

  /** deleteSet lets any user remove a set: a scenario where another user's set disappears. */
  method ForeignSetDeletion() returns (removed: bool)
    ensures removed
  {
    var service := new WheelService();
    var v := service.CreateSet("alice", "lunch");
    var _ := service.DeleteSet("mallory", v.id);
    removed := v.id !in service.sets;
  }

  /** deleteItem removes an item of a set other than the one named in the request. */
  method ForeignItemDeletion() returns (removed: bool)
    ensures removed
  {
    var service := new WheelService();
    var alice := service.CreateSet("alice", "lunch");
    var mallory := service.CreateSet("mallory", "dinner");
    var added := service.AddItem("alice", alice.id, NewItem("noodles", None, None, 0));
    var _ := service.DeleteItem("mallory", mallory.id, added.value.id);
    removed := added.value.id !in service.items;
  }

  /** With the membership check the same request leaves the other user's item in place. */
  method ForeignItemKept() returns (kept: bool)
    ensures kept
  {
    var service := new WheelService();
    var alice := service.CreateSet("alice", "lunch");
    var mallory := service.CreateSet("mallory", "dinner");
    var added := service.AddItem("alice", alice.id, NewItem("noodles", None, None, 0));
    var _ := service.DeleteItemInSet("mallory", mallory.id, added.value.id);
    kept := added.value.id in service.items;
  }

  /** With the ownership check the same request leaves the other user's set in place. */
  method ForeignSetKept() returns (kept: bool)
    ensures kept
  {
    var service := new WheelService();
    var v := service.CreateSet("alice", "lunch");
    var _ := service.DeleteOwnedSet("mallory", v.id);
    kept := v.id in service.sets;
  }
}

=== FILE: wrappers.dfy ===
/** Option and Result, shared by every module of the model. */
module Wrappers {
  datatype Option<+T> = None | Some(value: T)

  datatype Result<+R, +E> = Success(value: R) | Failure(error: E)
}
